=== FILE: README.md ===
# Money ledger of the investment app, in Dafny

This project models the server routes and client-side rules of a Next.js/Supabase investment app. Every user has three money columns:

- a spendable `balance`;
- a `recharge_wallet` topped up by approved recharges;
- a lifetime `total_recharge`.

Four kinds of side record sit beside the users: investments, withdrawals, recharge transactions and check-ins. The routes validate requests, move money between these columns and records, and run small status machines:

- investments go from `active` to `completed`;
- withdrawals go from `pending` to `approved` or `rejected`;
- recharges go from `pending` to `completed` or `rejected`.

Their writes happen in a fixed order, with hand-written compensations for some failures.

The store is a value of type `Ledger.Store`: one map per table, from row id to row. Each route is a pure function from the store and the request to an `Answer`, which holds the store after the route's writes and the reply. A reply is a JSON body or an error status with a reason.

Outside effects are parameters:

- **Session.** The signed-in user is `Option<Id>`.
- **Failures.** Every store call that can fail has a boolean oracle (`...Fails`). So every failure path, and every compensation, can be stated.
- **New rows.** The database's id for an inserted row is a parameter `newId`, required to be unused.
- **Time.** Timestamps are integer milliseconds. A day is `86400000` ms, and the day index is Dafny's Euclidean `/`, which equals `Math.floor` for a positive divisor.
- **Calendar.** The Kigali day of the week and the local calendar day of a timestamp are inputs.

Modules, one per component:

- `Common` — JavaScript idioms: `x || 0`, `x || d`, truthiness, `trim`, `toLowerCase`, `includes`, `replace(/\D/g, '')`. It also holds filters and sums over sequences.
- `Ledger` — rows, store, statuses, replies.
- `Access` — `lib/admin.ts` and the middleware redirect.
- `Accrual` — the investment processor.
- `Invest` — purchase.
- `Withdraw` — withdrawal request.
- `Review` — the body and faults shared by the two admin review routes.
- `AdminWithdrawals` and `AdminRecharges` — the admin review routes.
- `Recharging` — recharge request and wallet transfer.
- `DailyCheckIn` — the check-in route.
- `BankAccount` — the bank-account route.
- `Passwords` — the withdrawal-password route and both password pages.
- `AdminUsers`, `AdminStats` and `AdminInvestments` — the admin routes.
- Page modules: `Portfolio` (my products), `WithdrawPage`, `PaymentPage`, `CheckInPage` and `BankAccountPage`.

The investment processor is modelled twice, selected by `Accrual.Policy`:

- **`AsWritten`** follows the route line by line.
- **`Intended`** pays, at each settlement, the accrued days not yet paid. It is the corrected definition used in the finding below.

The comments on the processor's completion branch (app/api/investments/process/route.ts:72-74: return the principal and the final earnings, add the remaining earnings for days not yet processed) promise the remaining income. The code never pays it (see Findings). `AsWritten` models the code; `Intended` models what the comments describe.

Supabase's `.single()` reports a missing row as an error. So wherever a route reads one row with `.single()` and the row does not exist, the model answers with that route's "failed to fetch" status (500). This applies to the withdraw route, whose separate 404 branch is therefore unreachable. It also applies to the admin user update: an unknown user id is an update error.

## Model

| member | source | states |
|---|---|---|
| Access.IsAdmin | lib/admin.ts:6-30 | True exactly when the caller is signed in and its row is read without a query error or an exception, and the row is both admin and active. No session, a missing row, a query error or a thrown error all give false. |
| Access.GetAdminUser | lib/admin.ts:35-63 | Returns the caller's own row only when that row is an active admin. Otherwise it returns null, in particular on no session, a query error or an exception. |
| Access.GetAdminUserAgreesWithIsAdmin | lib/admin.ts:35-63 | `getAdminUser` returns a row exactly when `isAdmin` answers true, for every caller, table and failure. |
| Access.AdminPathsAreNotLoginPaths | lib/supabase/middleware.ts:61-114 | No path starts with both `/admin` and `/login` (or `/register`). So the admin branch and the login-page branch of the middleware never compete. |
| Access.Route | lib/supabase/middleware.ts:61-129 | (1) A signed-in user on an `/admin…` path is let through only if its row is an active admin. Otherwise, including a failed lookup or an exception, it goes to `/dashboard`. (2) An anonymous visitor goes to `/login` unless the path starts with `/login`, `/register`, `/auth/callback` or `/admin`, or is exactly `/`. (3) A signed-in user on `/login…` or `/register…` goes to `/dashboard`. (4) Everything else passes. |
| Access.PrefixMatchIsLoose | lib/supabase/middleware.ts:86-101 | The matching is by prefix, for every suffix. An anonymous visitor passes on any path beginning `/login`, `/register` or `/admin` (`/loginx`, `/administrator`), so it is never redirected away from an admin path. A signed-in user is sent to `/dashboard` from every `/login…` path. Every `/dashboard…` path sends an anonymous visitor to `/login`. |
| Accrual.PlanFor | app/api/investments/process/route.ts:40-100 | (1) An investment is skipped exactly when less than one whole day has passed since it was last settled and it is not completed. (2) It completes exactly when the whole days since creation reach the period, and completion pays the principal. (3) As written, completion pays no income, and an ongoing settlement pays rate × the whole days since the last settlement. (4) Under the corrected rule, a settlement pays rate × the accrued days not yet paid. |
| Accrual.Patched | app/api/investments/process/route.ts:104-124 | A settlement write sets `updated_at` to now and the status to `completed` on completion. No other column changes. |
| Accrual.SettleOne | app/api/investments/process/route.ts:53-125 | One iteration of the loop: (1) A skipped row or an unreadable owner changes nothing and counts nothing. (2) Once the balance write is attempted, the counters include its income and principal, even if the write fails. (3) A failed balance write leaves the store unchanged. (4) A failed investment write keeps the owner's credit but not the row update. (5) A full success credits the owner and patches the row. No other table changes. |
| Accrual.TallyCountsSettled | app/api/investments/process/route.ts:57-135 | The reported `processed` count is the number of rows whose iteration ran to the end, with both writes succeeding. A row whose credit was counted but whose investment write failed is not included, and nor is a skipped or unreadable row. |
| Accrual.LoopMeetsStoreAfter | app/api/investments/process/route.ts:39-126 | After the loop has handled any prefix of the loaded rows: (1) each user's balance has grown by exactly the credits of its own rows that reached the store, and nothing else in the user changed; (2) each handled row is settled or untouched according to its outcome; (3) unhandled rows, every row not in the loaded list, rows that were not active, and the other tables are untouched. The loaded list is every active row of the store, each once. |
| Accrual.LoopMeetsTally | app/api/investments/process/route.ts:39-126 | After any prefix of rows, the three counters equal the sums over the rows whose credit was counted. The set of users never changes. |
| Accrual.SettleAll | app/api/investments/process/route.ts:39-126 | The imperative loop leaves the same store and counters as the row-by-row definition of the batch. |
| Accrual.ProcessBatch | app/api/investments/process/route.ts:4-145 | (1) A failed fetch answers 500 and changes nothing. (2) No active rows gives the "nothing to process" reply. (3) Otherwise the reply reports the tallied `processed`, the number of loaded rows (every active row of the store, each once) as the total, the earnings and the principals, and the store is exactly the one described by `LoopMeetsStoreAfter`. |
| Accrual.RunOnce | app/api/investments/process/route.ts:12-100 | For one investment and one run: (1) rows that are not active are never loaded, so they are never credited. (2) A run changes only the status and `updated_at`, and the status only from `active` to `completed`. (3) The principal is paid exactly when the run completes the row. (4) A changed row is marked with the run's instant. |
| Accrual.RunAll | app/api/investments/process/route.ts:12-100 | Over any sequence of runs: (1) the principal is paid once, and only if the row ends up `completed`; (2) a row is completed only after its period has elapsed at the last settlement; (3) a row that started out not active gets nothing. |
| Accrual.SettleOneMatchesRunOnce | app/api/investments/process/route.ts:53-125 | When nothing fails, the store-level iteration writes `RunOnce`'s row and credits the owner exactly what `RunOnce` paid. |
| Accrual.RerunIsNoOp | app/api/investments/process/route.ts:49-55 | A second run at the same instant pays nothing and changes nothing, under both policies. |
| Accrual.AsWrittenIncomeBounded | app/api/investments/process/route.ts:49-100 | As written, with a non-negative rate, the income paid over any runs is at most rate × (the accrued days before the period ends at the latest run − the days already accrued at the first marker). |
| Accrual.AsWrittenNeverPaysTotalIncome | app/api/investments/process/route.ts:73-100 | As written, with a positive rate, an investment never receives its stored `total_income` = daily × period × count, whatever the runs. |
| Accrual.IntendedTelescopes | app/api/investments/process/route.ts:73-100 | Under the corrected rule, the income over any runs is rate × (the accrued days at the last marker − those at the first). |
| Accrual.IntendedPaysTotalIncome | app/api/investments/process/route.ts:73-100 | Under the corrected rule, an unsettled investment that runs to completion is paid exactly `total_income` plus its principal. |
| Accrual.CompletionScenario | app/api/investments/process/route.ts:73-90 | The 27,000 RWF product (1,134 a day for 45 days) settled once after 45 days. As written it pays 27,000 and the balance goes 73,000 → 100,000. Corrected, it pays 27,000 + 51,030 and the balance reaches 151,030. |
| Accrual.FractionalDaysLost | app/api/investments/process/route.ts:91-100 | As written, runs at 1.5 and 3 days pay two days of income, not three. The corrected rule pays three. |
| Accrual.ProgressOf | app/api/investments/process/route.ts:164-182 | (0) The entry carries the row's id, its whole days passed and its `total_income` as `totalEarnings`. (1) `days_remaining` is never negative, and it adds up with the accrued days to the period. (2) The row is completed exactly when no day remains. (3) `earnings_so_far` is rate × accrued days, at most rate × period, and non-negative for a row that has started. |
| Accrual.StatusReport | app/api/investments/process/route.ts:147-195 | The reply is 500 exactly when the fetch fails. Otherwise `total` is the number of rows read by the `status = 'active'` query, and there is one entry per row, in query order. Each entry is that row's figures (ProgressOf), names a distinct active row of the store, and reports that row's `total_income`. Every active row of the store has an entry. |
| Invest.WeekendProductIsLowerCaseMatch | app/api/invest/route.ts:38-52 | The weekend-product test ("starts with `vaccine`" or "lower-cased id contains `vaccine`") is exactly "lower-cased id contains `vaccine`". |
| Invest.NewInvestment | app/api/invest/route.ts:96-108 | The inserted row is `active`, owned by the caller, created now and never processed. Its amount is price × count and its `total_income` is daily × period × count. |
| Invest.Validate | app/api/invest/route.ts:19-52 | The body checks, first failure wins: (1) any falsy field, 0 included, is "missing"; (2) a count below 1; (3) a weekend-only product outside Saturday or Sunday. The body passes exactly when all three pass. |
| Invest.WalletCheck | app/api/invest/route.ts:74-93 | `balance` is accepted exactly when it covers the total, equality included. `recharge` is always refused with a redirect to `/recharge`. Any other wallet is invalid. |
| Invest.CreateInvestment | app/api/invest/route.ts:4-163 | (1) The responses in order are 401, 400 and 500 for an unreadable user, and every refusal before the insert changes nothing. (2) Success happens exactly when every check passes and no write fails. On success the balance is debited to `balance − total ≥ 0` and the new row is stored, and nothing else changes. (3) A failed debit leaves the balance, and the row is deleted unless the delete fails too. |
| Invest.WeekendGate | app/api/invest/route.ts:38-52 | Outside a weekend, a `vaccine` product is refused with 400 and the store is unchanged. For every other product, the day of the week makes no difference. |
| Invest.ZeroCountIsMissing | app/api/invest/route.ts:19-34 | A purchase count of 0 is reported as a missing field, never as "below 1". |
| Invest.FirstPurchaseScenario | app/api/invest/route.ts:55-154 | Buying the 27,000 RWF product from a balance of 100,000 succeeds and leaves 73,000. The stored total income is 51,030. |
| Withdraw.Fee | app/api/withdraw/route.ts:78-80 | `min(amount·10/100, amount·0.1)` is exactly amount / 10. |
| Withdraw.FeeSplitsAmount | app/api/withdraw/route.ts:78-80 | For a non-negative amount, fee + net = amount, both lie between 0 and the amount, and ten fees make the amount. |
| Withdraw.RequestCheck | app/api/withdraw/route.ts:17-41 | The body checks, first failure wins: invalid amount, below 2,000, above 2,000,000, missing password. The bounds are inclusive, and the body passes exactly when none applies. |
| Withdraw.AccountCheck | app/api/withdraw/route.ts:63-88 | The account checks, first failure wins: no stored withdrawal password (400), a different password (401), and a balance below the full amount (400, with null read as 0). The account passes exactly when the passwords match and the balance covers the amount. |
| Withdraw.Fallback | app/api/withdraw/route.ts:91-92 | A given account field wins. Otherwise the saved profile value is used, and an empty or missing one becomes null. |
| Withdraw.PendingWithdrawal | app/api/withdraw/route.ts:96-116 | The inserted row is `pending`, for the caller and the full amount, with fee + net = amount and account fields from the fallback. It has no approver, reason or update time. |
| Withdraw.RequestWithdrawal | app/api/withdraw/route.ts:4-139 | (1) The error responses in order are 401, the body checks, 500 for an unreadable or missing user, and the account checks. (2) Every failure changes nothing. (3) Success happens exactly when all checks pass and the insert works. It only adds the pending row, without debiting anything. The reply echoes the amount and the pre-request balance, which covers it. |
| Withdraw.BoundsAreInclusive | app/api/withdraw/route.ts:21-41 | 2,000 and 2,000,000 are accepted. 1,999 is refused as below the minimum and 2,000,001 as above the maximum. |
| Review.ParseReview | app/api/admin/withdrawals/route.ts:76-88 | The review body is accepted exactly when it has an id and an action that is `approve` or `reject`. A missing field gives 400 "required" and any other action gives 400 "invalid". |
| Review.RejectReason | app/api/admin/withdrawals/route.ts:175-195 | The stored rejection reason is the given one, or "Rejected by admin" when none is given. |
| AdminWithdrawals.Approved_ | app/api/admin/withdrawals/route.ts:138-153 | Approval marks the row `approved` by the admin at now and keeps its owner and amounts. |
| AdminWithdrawals.RolledBack | app/api/admin/withdrawals/route.ts:155-174 | The compensation puts the row back to `pending` with no approver, and keeps the approval's `updated_at`. |
| AdminWithdrawals.Rejected_ | app/api/admin/withdrawals/route.ts:175-195 | Rejection marks the row `rejected` by the admin, with the reason or its default. |
| AdminWithdrawals.ReviewWithdrawal | app/api/admin/withdrawals/route.ts:65-205 | (1) A non-admin gets 401 and a bad body gets 400, with nothing changed. (2) Only the reviewed `pending` row and its owner's balance can ever change. (3) An approval's store is exactly the old one with the row marked approved and the owner's balance column set to `balance − amount ≥ 0`. (4) A rejection only marks the row. (5) A failed debit leaves the balances and rolls the row back, unless the rollback fails too. |
| AdminWithdrawals.ApproveNeedsBalance | app/api/admin/withdrawals/route.ts:111-132 | Approving a withdrawal larger than the owner's balance answers 400 and writes nothing. |
| AdminWithdrawals.ReviewIsFinal | app/api/admin/withdrawals/route.ts:104-109 | After a successful review, any further review of the same row answers 400 "already approved/rejected" and changes nothing. So a withdrawal is debited at most once. |
| AdminWithdrawals.ApprovedWithoutDebit | app/api/admin/withdrawals/route.ts:155-174 | If the debit and then the unchecked rollback both fail, the row reads `approved` while no balance moved. |
| AdminRecharges.Completed_ | app/api/admin/recharges/route.ts:129-144 | Approval marks the row `completed` by the admin at now and keeps its owner and amount. |
| AdminRecharges.RolledBack | app/api/admin/recharges/route.ts:146-168 | The compensation puts the row back to `pending` with no approver. |
| AdminRecharges.Rejected_ | app/api/admin/recharges/route.ts:169-188 | Rejection marks the row `rejected` by the admin, with the reason or its default. |
| AdminRecharges.Credited | app/api/admin/recharges/route.ts:109-168 | The credit adds the amount to both `recharge_wallet` and `total_recharge`, with null read as 0. The balance and the other columns stay as they were. |
| AdminRecharges.ReviewRecharge | app/api/admin/recharges/route.ts:63-198 | (1) A non-admin gets 401 and a bad body gets 400, with nothing changed. (2) Only the reviewed `pending` row and its owner can change. (3) An approval completes the row and credits the owner. (4) A rejection only marks the row. (5) A failed wallet write leaves the users and rolls the row back, unless the rollback fails too. |
| AdminRecharges.ApprovalCreditsWallet | app/api/admin/recharges/route.ts:109-168 | An approval raises the owner's `total_recharge` and `recharge_wallet` by exactly the amount, leaves the balance, and strictly raises the total for a positive amount. Any other outcome changes no user. |
| AdminRecharges.ReviewIsFinal | app/api/admin/recharges/route.ts:102-107 | After a successful review, any further review of the same row answers 400 and changes nothing, so a recharge is credited at most once. |
| AdminRecharges.CompletedWithoutCredit | app/api/admin/recharges/route.ts:146-168 | If the wallet write and then the rollback both fail, the row reads `completed` while no wallet was credited. |
| Recharging.PendingRecharge | app/api/recharge/route.ts:23-33 | The requested recharge is `pending`. The method defaults to `MTN` and the paid number to `''`. |
| Recharging.RequestRecharge | app/api/recharge/route.ts:9-52 | No session gives 401 and a missing or non-positive amount gives 400. Every failure changes nothing. Success happens exactly when the amount is positive and the insert works. It adds only the pending row, changes no user, and echoes the amount with `pending`. |
| Recharging.Moved | app/api/recharge/transfer/route.ts:43-56 | The transfer write moves the amount from `recharge_wallet` to `balance` in one row, keeping their sum. Every other column of the row is as it was. |
| Recharging.Transfer | app/api/recharge/transfer/route.ts:9-63 | (1) The error responses are 401, 400 for the amount, 500 for the read, and 400 when the amount exceeds the wallet, and every failure changes nothing. (2) Success happens exactly when the wallet covers the amount and the write works. It keeps balance + wallet, leaves the wallet non-negative, and reports the new columns. |
| Recharging.TransfersCompose | app/api/recharge/transfer/route.ts:32-56 | Two successful transfers equal one transfer of their sum, which is itself allowed. |
| DailyCheckIn.Reward | app/api/checkin/route.ts:57-60 | The reward is 50 + 20 × referrals, never less than 50. |
| DailyCheckIn.DoCheckIn | app/api/checkin/route.ts:4-104 | (1) No session gives 401, and a check-in already on today's local day gives 400; both change nothing. (2) The row is inserted before the credit and stays when the credit fails. (3) Success credits exactly the reward, with base + bonus = reward. (4) Success happens exactly when no check-in is seen today and every call works. |
| DailyCheckIn.OncePerDay | app/api/checkin/route.ts:15-86 | Once today's row exists, whether or not its credit went through, every later attempt that day answers 400 and changes nothing. A failed credit is therefore lost. |
| DailyCheckIn.FailedWindowReadPaysTwice | app/api/checkin/route.ts:15-33 | The window query's error is not checked. When it fails, a second check-in the same day is accepted and the reward is paid twice. |
| CheckInPage.DaysOf | app/checkin/page.tsx:162-170 | The date map's keys are exactly the local days that have a check-in, and there are at most as many of them as check-ins. |
| CheckInPage.Streak | app/checkin/page.tsx:172-186 | The streak counts the consecutive days ending today that all have a check-in. The day before the run has none, and the streak never exceeds the number of distinct days. |
| CheckInPage.ComputeStats | app/checkin/page.tsx:149-191 | (1) An empty list gives zeros. (2) The total is the sum of the amounts and the count is the number of rows. (3) The streak is the run of check-in days ending today, bounded by the distinct days and by the rows. |
| CheckInPage.DuplicateDayCountsOnce | app/checkin/page.tsx:153-170 | A second check-in on a day already present adds to the count and the total but not to the set of days, so it leaves the streak alone. |
| CheckInPage.AmountOn | app/checkin/page.tsx:222-225 | A day's amount is that of the first check-in in list order made on it, or 0 when there is none. |
| CheckInPage.DailyRewardMatchesRoute | app/checkin/page.tsx:239 | The page advertises the reward the route pays. |
| BankAccount.FieldCheck | app/api/bank-account/route.ts:58-84 | (1) A missing method is "required" and anything but `MTN` or `Airtel` is "invalid". (2) A blank name or phone is refused. (3) The phone needs 9 or 10 digits. The body passes exactly when all hold. |
| BankAccount.NormalizePhone | app/api/bank-account/route.ts:112 | The stored phone is exactly nine digits: the last nine of the digits given. |
| BankAccount.NormalizePhoneIdempotent | app/api/bank-account/route.ts:78-112 | The stored number is all digits and normalising it again changes nothing. |
| BankAccount.PasswordGate | app/api/bank-account/route.ts:87-110 | (1) With no saved method, or when the lookup fails, no password is needed. (2) With a saved method, a missing password gives 400 and a password different from the stored one gives 401. (3) The gate opens only on a match. |
| BankAccount.WithAccount | app/api/bank-account/route.ts:115-130 | Only the three account columns are written. Balances, flags and the withdrawal password stay. |
| BankAccount.SaveAccount | app/api/bank-account/route.ts:44-145 | (1) 401 without a session and 400 for a bad body; failures change nothing. (2) Success stores the method, the trimmed name and the nine-digit phone. (3) A caller without a row gets a success that wrote nothing. (4) Changing a saved account requires the matching withdrawal password. |
| BankAccount.ShowAccount | app/api/bank-account/route.ts:4-42 | 401 without a session. Otherwise each account field is shown as stored, or as null when it is missing or empty. |
| BankAccount.SaveThenShow | app/api/bank-account/route.ts:112-130 | What a successful save stores is exactly what the next GET shows. |
| BankAccountPage.FormatPhone | app/me/bank-account/page.tsx:66-75 | A null or empty number shows as `''`. Nine stripped digits show as `+250` followed by them. Anything else shows as given. |
| BankAccountPage.StoredPhoneDisplaysWithCountryCode | app/me/bank-account/page.tsx:66-75 | Every number the route stores is displayed as `+250` and the stored digits. |
| BankAccountPage.Submit | app/me/bank-account/page.tsx:83-124 | The checks in order are method, trimmed name, trimmed phone, the 9–10 digit count, and a password only in edit mode. The form is sent exactly when all pass. It sends the trimmed fields, with a password only in edit mode. |
| BankAccountPage.PageBodyPassesRouteChecks | app/me/bank-account/page.tsx:83-124 | With the method chosen from the page's options, everything the page sends passes the route's field checks. |
| BankAccountPage.Cancel | app/me/bank-account/page.tsx:159-168 | Cancel leaves edit mode and clears the password and the error. It restores the saved fields when they are known and keeps the typed ones otherwise. |
| BankAccountPage.CancelIsIdempotent | app/me/bank-account/page.tsx:159-168 | Cancelling twice is cancelling once. With a known saved account, the result does not depend on what was typed. |
| Passwords.SetWithdrawalPassword | app/api/withdrawal-password/route.ts:9-37 | (1) 401 without a session and 400 for a missing password or one shorter than 4. (2) Success happens exactly when the password is long enough and the write works. (3) It stores the password verbatim, changes nothing but the caller's withdrawal password, and makes no previous-password check. |
| Passwords.OldPasswordIrrelevant | app/api/withdrawal-password/route.ts:24-37 | The outcome does not depend on the stored password, so any existing value is overwritten. |
| Passwords.SetPasswordUnlocksWithdrawal | app/api/withdrawal-password/route.ts:26-37 | After a password is set, the withdraw route's account check with that password can refuse only for the balance. |
| Passwords.CheckLoginChange | app/me/password/page.tsx:24-47 | The checks in order are old empty, new empty, new shorter than 6, new ≠ confirm, and new = old. The change is allowed exactly when all five pass. |
| Passwords.LoginChangeBoundary | app/me/password/page.tsx:34-47 | For every input: a 5-character new password is too short, whatever the confirmation. A 6-character one that differs from the old password passes exactly when it is confirmed. A long-enough password equal to the old one is refused as unchanged. |
| Passwords.CheckWithdrawalPassword | app/me/withdrawal-password/page.tsx:21-34 | An empty password is refused first, then one shorter than 4. The form passes exactly when the password is at least 4 characters and equals the confirmation. |
| Passwords.AfterSave | app/me/withdrawal-password/page.tsx:55-57 | After a save both fields are empty, so the form would be refused as "empty" until retyped. |
| Passwords.PageAndRouteAgree | app/me/withdrawal-password/page.tsx:21-34 | Whatever the page lets through, the route accepts when its write works. The minimum is the same on both sides. |
| AdminUsers.ParseChange | app/api/admin/users/route.ts:114-147 | The action table. The two update actions need a value, and any number is accepted, 0 and negatives included. The four flag actions set `is_active` or `is_admin`. Any other action is invalid. |
| AdminUsers.Apply | app/api/admin/users/route.ts:149-154 | Each action writes exactly one column of the user. |
| AdminUsers.ApplyIsIdempotent | app/api/admin/users/route.ts:114-147 | Every action sets a value rather than moving one, so applying it twice is applying it once. |
| AdminUsers.SuspensionRevokesAdmin | app/api/admin/users/route.ts:129-143 | A suspended user is no longer an admin for the admin check. Making an inactive user an admin does not make it one. |
| AdminUsers.UpdateUser | app/api/admin/users/route.ts:94-177 | (1) A non-admin gets 401 and a missing id or action gets 400. (2) Failures change nothing, and an unknown user is an update error. (3) Success happens exactly when the action parses, the user exists and the write works. It changes exactly one column of that user and returns the updated row. |
| AdminUsers.RevokingActionsEndAdminAccess | app/api/admin/users/route.ts:129-161 | After a successful `suspend` or `remove_admin`, the target fails every later admin check, even when the admin acted on itself. |
| AdminUsers.SetBalanceIsAbsolute | app/api/admin/users/route.ts:115-121 | `update_balance` sets the balance to the value sent, and repeating the request leaves the same store. |
| AdminUsers.StatsFor | app/api/admin/users/route.ts:48-81 | `referral_count` is the count or 0. `total_investments` and `total_withdrawals` are the sums of the amounts. `active_investments` is the number of rows whose status is `active`. A failed query gives 0. |
| AdminUsers.ActiveFigureSplitsRows | app/api/admin/users/route.ts:56-62 | The active figure and the number of rows in any other status add up to the row count. It equals the row count exactly when every row is active, and is 0 exactly when none is. |
| AdminStats.Compute | app/api/admin/stats/route.ts:15-103 | Every figure is its query's value, or 0 when that query failed: counts, balance and wallet sums with null as 0, pending sum and count, investment total and active count, withdrawal and recharge totals and their approved or completed parts, check-in sum, referral count. Suspended = total − active. |
| AdminStats.Stats | app/api/admin/stats/route.ts:7-103 | Only an admin gets the figures. Everyone else gets 401. |
| AdminStats.SuspendedCountsInactiveUsers | app/api/admin/stats/route.ts:15-85 | When both user counts succeed, "suspended" is exactly the number of inactive users, between 0 and the total. |
| AdminStats.FailedTotalCountGoesNegative | app/api/admin/stats/route.ts:15-85 | A failed total count, with a working active count and at least one active user, reports a negative number of suspended users. |
| AdminStats.PartsAtMostTotals | app/api/admin/stats/route.ts:34-64 | With non-negative amounts, approved and pending withdrawals are each between 0 and the withdrawal total, and completed recharges between 0 and the recharge total. The pending count is at most the number of withdrawals. |
| AdminStats.InvestmentsSplitByStatus | app/api/admin/stats/route.ts:43-48 | When every investment is active or completed, the two status sums make up the invested total. |
| AdminInvestments.Select | app/api/admin/investments/route.ts:14-66 | The list is a subsequence of the fetched rows. It keeps exactly the rows matching the status (default `all`) and, when a search is given, the case-insensitive search over email, name and product name, with a missing field read as `''`. |
| AdminInvestments.ListInvestments | app/api/admin/investments/route.ts:7-66 | A non-admin gets 401 and a failed fetch gets 500. Otherwise the reply is the selected list. |
| AdminInvestments.SelectKeepsOrder | app/api/admin/investments/route.ts:55-66 | The selection keeps the query's newest-first order. |
| AdminInvestments.NoSearchIsStatusFilterOnly | app/api/admin/investments/route.ts:14-56 | An absent or empty search gives the status filter alone. Neither parameter gives every row. |
| AdminInvestments.SearchIgnoresCase | app/api/admin/investments/route.ts:55-64 | Matching does not depend on the case of the search term. |
| AdminInvestments.Summarize | app/admin/investments/page.tsx:45-49 | The cards are the total, the count, the active and completed sums and counts, and the expected return. With non-negative amounts, active + completed ≤ total, with equality (and of the counts) when every status is active or completed. |
| AdminInvestments.ActivePlusCompleted | app/admin/investments/page.tsx:45-49 | The active and completed partitions never outnumber the rows. They never outweigh the total for non-negative amounts, and they make it up exactly when no other status occurs. |
| AdminInvestments.Timing | app/admin/investments/page.tsx:176-180 | (1) Days remaining are never negative, and are 0 exactly when the period has passed. (2) Progress is 100 for a completed row and never above 100. It is not a finite number exactly when the period is 0 and no whole day has passed (NaN, or −Infinity before creation). (3) On a positive period, the bar is full exactly when the row is completed or overdue. |
| AdminInvestments.StoredRowsHaveProgress | app/api/invest/route.ts:22 | The purchase route refuses a zero period, so every row it stores has a finite progress bar at any time. |
| AdminInvestments.OverdueActiveRowShowsFull | app/admin/investments/page.tsx:176-180 | An active row past its period, not yet settled, shows a full bar like a completed one. |
| Portfolio.CardOf | app/invest/my-products/page.tsx:132-148 | The card is completed exactly when the days passed reach the period. Progress is never above 100. It is not a finite number exactly when the period is 0 and no whole day has passed (NaN, or −Infinity before creation). On a non-negative period once a day has passed, or on any positive period, progress is 100 exactly when the investment is completed. A negative period, which the purchase route does not refuse, reads as completed with progress at most 0 once the row exists. |
| Portfolio.StoredRowsShowProgress | app/api/invest/route.ts:22 | The purchase route refuses a zero period, so every row it stores shows a finite progress figure at any time. |
| Portfolio.CardAgreesWithStatusEndpoint | app/invest/my-products/page.tsx:132-148 | The card's days passed, days remaining, earnings and completion flag equal the processor status endpoint's figures for the same instant. |
| Portfolio.EarnedAtMostTotalIncome | app/invest/my-products/page.tsx:132-148 | With a non-negative rate, the earnings shown never exceed the stored `total_income`. |
| Portfolio.Summarize | app/invest/my-products/page.tsx:113-130 | The total invested is the sum of all amounts, completed included. The total return is the sum of the capped earnings. Today's earnings sum daily × count over the investments still running. |
| Portfolio.ReturnedOverstatesAsWrittenPayout | app/invest/my-products/page.tsx:333 | With a positive rate, what the processor as written ever pays an investment is less than the "returned" figure `amount + total_income`. |
| Portfolio.ReturnedMatchesIntendedPayout | app/invest/my-products/page.tsx:333 | Under the corrected processor, a completed investment has been paid exactly the "returned" figure. |
| WithdrawPage.FilterAmount | app/withdraw/page.tsx:58-62 | The input keeps only digits and points, in order. Text already made of them is kept as is. |
| WithdrawPage.FilterAmountIdempotent | app/withdraw/page.tsx:58-62 | Filtering twice is filtering once. |
| WithdrawPage.PageFee | app/withdraw/page.tsx:50-56 | The previewed fee is a tenth of the amount. |
| WithdrawPage.PreviewMatchesRoute | app/withdraw/page.tsx:50-56 | The previewed fee and net amount are the ones the route stores. |
| WithdrawPage.ClientCheck | app/withdraw/page.tsx:72-100 | The page's checks pass exactly when there is a parsed amount within the inclusive bounds, a loaded user whose balance covers it, and a password. An empty, unparsable or non-positive amount is invalid, and the bound violations are reported as such. |
| WithdrawPage.Body | app/withdraw/page.tsx:113-118 | The body carries the amount and the password, and null account fields. |
| WithdrawPage.CheckOrderDiffers | app/withdraw/page.tsx:72-100 | With no password and too little money, the page reports the balance while the route reports the password. |
| WithdrawPage.PageBoundsMatchRoute | app/withdraw/page.tsx:77-85 | A whole amount the page accepts passes the route's body checks. |
| WithdrawPage.PageBodyUsesProfileAccount | app/withdraw/page.tsx:113-118 | Because the page sends null account fields, an accepted request records the account saved on the profile (or null). |
| PaymentPage.MerchantFor | app/recharge/payment/process/page.tsx:80-82 | `AIRTEL` gets the Airtel account. Every other method, named or not, gets MTN's. |
| PaymentPage.UssdCode | app/recharge/payment/process/page.tsx:84-89 | The code is the merchant's prefix, its ten-digit number, `*`, the amount text and `#`. |
| PaymentPage.MethodName | app/recharge/payment/process/page.tsx:91-93 | `MTN MoMo` exactly for `MTN`, and `Airtel Money` for everything else. |
| PaymentPage.UnknownMethodLabelledAirtelDialledMtn | app/recharge/payment/process/page.tsx:80-93 | For a method the table does not name, the page says Airtel Money while the code dials MTN (`*182`). The two named methods agree. |
| PaymentPage.Show | app/recharge/payment/process/page.tsx:63-67 | A missing or empty amount, method or account sends the user back to the recharge page. Otherwise the page shows the merchant, the name and the USSD code. |
| PaymentPage.ParseInt | app/recharge/payment/process/page.tsx:107 | `parseInt` in base ten gives NaN exactly when no digit follows the leading white space and an optional sign. Text starting with a digit gives a non-negative number, and a leading `-` gives a number at most 0. |
| PaymentPage.ParseDecimal | app/recharge/payment/process/page.tsx:106-110 | `parseInt` reads the decimal text of a number back as that number, whatever non-digit text follows. |
| PaymentPage.ConfirmBody | app/recharge/payment/process/page.tsx:106-110 | Once signed in, the body sends `parseInt(amount or '0')`, the method (default `MTN`) and the account (default `''`). Nothing is sent before. |
| PaymentPage.ConfirmFilesPendingRecharge | app/recharge/payment/process/page.tsx:106-110 | Confirming a positive whole amount files a pending recharge of exactly that amount, through that channel, from that account. |
| PaymentPage.ZeroAmountRefused | app/recharge/payment/process/page.tsx:106-110 | An amount of `0` reaches the route and is refused with 400, with nothing stored. |

## Left out

- Supabase I/O, cookies, sessions and authentication flows (`createClient`, `auth.getUser`, the login page, the OAuth callback, the old-password re-sign-in of the password page). The signed-in user is an input and every store call is a failure oracle.
- The outer `try`/`catch` of every route (500 on an exception), except where the exception changes a decision (the admin check and the middleware). A thrown error in the middle of a route is not distinguished from the modelled failure points.
- Concurrency: two approvals racing, the check-in read-then-insert race, lost updates on `balance`. The model is sequential: each route runs on one store value.
- Floating point. The withdrawal fee and the progress percentages are exact reals. `toFixed` and display rounding are not modelled.
- `parseFloat` on the withdraw page: its result is an input (`None` for NaN).
- WithdrawPage.PageBoundsMatchRoute: stated for whole amounts only, because the route model takes integer amounts. A fractional amount the page lets through is not followed to the route.
- `parseInt` with a hexadecimal (`0x`) prefix: PaymentPage.ParseInt reads base ten only, after JavaScript white space and an optional sign. It also keeps integers exact, where JavaScript rounds values beyond 2^53 to the nearest double.
- Non-numeric JSON values in request bodies (strings where numbers are expected, `NaN`, booleans). Numeric fields are `Option<int>`.
- Time zones and date libraries: the Kigali weekday and the local calendar day of a timestamp are inputs (`weekday`, `dayOf`), as are ISO day keys on the check-in page.
- String lengths count characters, not UTF-16 code units, and lower-casing maps ASCII letters only.
- Progress bars where JavaScript's division gives NaN or −Infinity (a zero period with no whole day passed): progress is `None`, without telling the two apart. No stored row has a zero period, because app/api/invest/route.ts:22 refuses a falsy `incomePeriod`.
- The payment-account lookup by arbitrary object keys (for example `constructor`): only plain method names are modelled.
- The admin users `GET` listing query, its database-side search and pagination, and the admin `GET` list endpoints for withdrawals and recharges. They only build queries. The per-user statistics of the users listing are modelled (AdminUsers.StatsFor).
- Timers and caching: the five-minute processor trigger on the products page and react-query invalidation.
- Presentation-only pages (dashboard, team, profile, catalog, funding and withdrawal history, recharge input widgets, admin list pages, landing page). The reward text on the dashboard and team pages is display only.
- Randomness and library wrappers (`generateReferralCode`, `cn`).

## Findings

| source | as written | input that shows it | evidently intended | confidence | as-written member | corrected member |
|---|---|---|---|---|---|---|
| app/api/investments/process/route.ts:73-100 | On completion the route adds the principal and `remainingDays` of income. But `remainingDays = income_period − min(daysPassed, income_period)` is 0 whenever the investment is completed, so no remaining income is ever paid. The ongoing branch credits only whole days since the last settlement, and only while the period is still running, so the days of the final stretch are never credited. | Product of 27,000 RWF at 1,134 a day for 45 days, created at 0 and never settled, with a balance of 73,000. One run just after 45 days credits 27,000 (balance 100,000), not 27,000 + 51,030. | An investment that runs to completion is paid its whole `total_income` (daily × period × count) plus its principal, as the comments on the completion branch describe. | high (not executed) | Accrual.AsWrittenNeverPaysTotalIncome, Accrual.CompletionScenario | Accrual.IntendedPaysTotalIncome |

=== FILE: access.dfy ===
/** Who may reach what: the admin predicates of the admin library and the
    redirect decision of the session middleware. */
module Access {
  import opened Common
  import opened Ledger

  /** What can go wrong while looking up the caller's row: the query returns
      an error (or no row), or something throws. */
  datatype Probe = Probe(queryFails: bool, throws: bool)

  /** `is_admin === true && is_active === true`. */
  predicate AdminFlags(u: User) {
    u.isAdmin && u.isActive
  }

  /** `isAdmin()`: every failure answers false. */
  function IsAdmin(caller: Option<Id>, users: map<Id, User>, p: Probe): (r: bool)
    ensures caller.None? ==> !r
    ensures p.queryFails || p.throws ==> !r
    ensures caller.Some? && caller.value !in users ==> !r
    ensures r <==> !p.throws && !p.queryFails && caller.Some? && caller.value in users
                   && AdminFlags(users[caller.value])
  {
    if p.throws then false
    else if caller.None? then false
    else if p.queryFails || caller.value !in users then false
    else users[caller.value].isAdmin == true && users[caller.value].isActive == true
  }

  /** `getAdminUser()`: the caller's row when it is an active admin, else null.
      The row is identified by its id. */
  function GetAdminUser(caller: Option<Id>, users: map<Id, User>, p: Probe): (r: Option<Id>)
    ensures r.Some? ==> r == caller && r.value in users && AdminFlags(users[r.value])
    ensures caller.None? || p.queryFails || p.throws ==> r.None?
  {
    if p.throws then None
    else if caller.None? then None
    else if p.queryFails || caller.value !in users then None
    else if users[caller.value].isAdmin != true || users[caller.value].isActive != true then None
    else caller
  }

  /** The two admin checks agree on every input. */
  lemma GetAdminUserAgreesWithIsAdmin(caller: Option<Id>, users: map<Id, User>, p: Probe)
    ensures GetAdminUser(caller, users, p).Some? <==> IsAdmin(caller, users, p)
  {
  }

  /** The middleware's answer: let the request through, or redirect it. */
  datatype Decision = Next | Redirect(path: string)

  /** Paths an anonymous visitor may open (prefix matches, plus the root). */
  predicate IsPublicPath(path: string) {
    "/login" <= path || "/register" <= path || "/auth/callback" <= path || "/admin" <= path || path == "/"
  }

  /** A path cannot start with both `/admin` and `/login` (or `/register`). */
  lemma AdminPathsAreNotLoginPaths(path: string)
    ensures "/admin" <= path ==> !("/login" <= path) && !("/register" <= path)
  {
    if "/admin" <= path {
      assert path[1] == 'a';
    }
  }

  /** The redirect decision of `updateSession`, after the session has been
      read. `caller` is the signed-in user, if any; `users` and `p` describe
      the lookup of the caller's row made for `/admin` paths. */
  function Route(path: string, caller: Option<Id>, users: map<Id, User>, p: Probe): (d: Decision)
    ensures caller.Some? && "/admin" <= path && !IsAdmin(caller, users, p) ==> d == Redirect("/dashboard")
    ensures caller.Some? && "/admin" <= path && IsAdmin(caller, users, p) ==> d == Next
    ensures caller.Some? && !("/admin" <= path) ==>
              d == (if "/login" <= path || "/register" <= path then Redirect("/dashboard") else Next)
    ensures caller.None? ==> d == (if IsPublicPath(path) then Next else Redirect("/login"))
  {
    AdminPathsAreNotLoginPaths(path);
    if caller.Some? && "/admin" <= path && (
         p.throws || p.queryFails || caller.value !in users
         || !users[caller.value].isAdmin || !users[caller.value].isActive) then
      Redirect("/dashboard")
    else if caller.None? && !("/login" <= path) && !("/register" <= path) && !("/auth/callback" <= path)
            && !("/admin" <= path) && path != "/" then
      Redirect("/login")
    else if caller.Some? && ("/login" <= path || "/register" <= path) then
      Redirect("/dashboard")
    else
      Next
  }

  /** Matching is by prefix: any path that merely begins with `/login`,
      `/register` or `/admin` (`/loginx`, `/administrator`) counts as public,
      so an anonymous visitor is never redirected away from an admin path, and
      a signed-in user is sent away from every `/login…` path. A path under
      `/dashboard` is not public. */
  lemma PrefixMatchIsLoose(suffix: string, caller: Option<Id>, users: map<Id, User>, p: Probe)
    ensures Route("/login" + suffix, None, users, p) == Next
    ensures Route("/register" + suffix, None, users, p) == Next
    ensures Route("/admin" + suffix, None, users, p) == Next
    ensures caller.Some? ==> Route("/login" + suffix, caller, users, p) == Redirect("/dashboard")
    ensures Route("/dashboard" + suffix, None, users, p) == Redirect("/login")
  {
    assert ("/login" + suffix)[..6] == "/login";
    assert ("/register" + suffix)[..9] == "/register";
    assert ("/admin" + suffix)[..6] == "/admin";
    var d := "/dashboard" + suffix;
    assert d[1] == 'd';
    assert !IsPublicPath(d);
  }
}

=== FILE: accrual.dfy ===
/** The investment processor: whole-day accrual, the skip rule, settlement of
    daily income or of the principal, and the batch loop with its counters.

    The processor is modelled twice, selected by `Policy`: `AsWritten` follows
    the route line by line (its "remaining earnings" branch is dead, and the
    ongoing credit rounds each interval down separately), and `Intended` pays
    the earnings accrued since the last settlement, so that an investment that
    runs to completion receives exactly its `total_income`. */
module Accrual {
  import opened Common
  import opened Ledger

  datatype Policy = AsWritten | Intended

  // ---------------------------------------------------------------------
  // Day arithmetic of one investment
  // ---------------------------------------------------------------------

  /** Whole days since the investment was created. */
  function DaysPassed(inv: Investment, now: int): int {
    WholeDays(now - inv.createdAt)
  }

  /** Days of income accrued so far, capped at the income period. */
  function DaysEarned(inv: Investment, now: int): int {
    Min(DaysPassed(inv, now), inv.incomePeriod)
  }

  predicate IsCompleted(inv: Investment, now: int) {
    DaysPassed(inv, now) >= inv.incomePeriod
  }

  /** `updated_at || created_at`: when the investment was last settled. */
  function LastProcessed(inv: Investment): int {
    inv.updatedAt.GetOr(inv.createdAt)
  }

  function DaysSinceLastProcess(inv: Investment, now: int): int {
    WholeDays(now - LastProcessed(inv))
  }

  /** `daily_income * days * purchase_count`. */
  function IncomeFor(inv: Investment, days: int): int {
    inv.dailyIncome * days * inv.purchaseCount
  }

  /** Income per day of the whole purchase. */
  function Rate(inv: Investment): int {
    inv.dailyIncome * inv.purchaseCount
  }

  lemma IncomeForIsRate(inv: Investment, days: int)
    ensures IncomeFor(inv, days) == Rate(inv) * days
  {
  }

  /** Days of income already paid under the corrected rule: the accrued days
      at the last settlement. */
  function DaysPaid(inv: Investment): int {
    Min(WholeDays(LastProcessed(inv) - inv.createdAt), inv.incomePeriod)
  }

  // ---------------------------------------------------------------------
  // One investment
  // ---------------------------------------------------------------------

  /** What a run decides for one loaded investment, before any store call. */
  datatype Plan = Skip | Settle(income: int, principal: int, completes: bool)

  /** The settlement decision. Under `AsWritten` the completion branch adds
      `remainingDays = income_period - daysEarned` days of income, which is
      always zero days. */
  function PlanFor(inv: Investment, now: int, policy: Policy): (p: Plan)
    ensures p.Skip? <==> DaysSinceLastProcess(inv, now) < 1 && !IsCompleted(inv, now)
    ensures p.Settle? ==> (p.completes <==> IsCompleted(inv, now))
    ensures p.Settle? ==> p.principal == (if p.completes then inv.amount else 0)
    ensures p.Settle? && p.completes && policy == AsWritten ==> p.income == 0
    ensures p.Settle? && !p.completes && policy == AsWritten ==>
              DaysSinceLastProcess(inv, now) >= 1 && p.income == Rate(inv) * DaysSinceLastProcess(inv, now)
    ensures p.Settle? && policy == Intended ==> p.income == Rate(inv) * (DaysEarned(inv, now) - DaysPaid(inv))
  {
    if DaysSinceLastProcess(inv, now) < 1 && !IsCompleted(inv, now) then
      Skip
    else
      match policy
      case AsWritten =>
        if IsCompleted(inv, now) then
          var remainingDays := inv.incomePeriod - DaysEarned(inv, now);
          var remaining := if remainingDays > 0 then IncomeFor(inv, remainingDays) else 0;
          Settle(remaining, inv.amount, true)
        else
          IncomeForIsRate(inv, DaysSinceLastProcess(inv, now));
          Settle(IncomeFor(inv, DaysSinceLastProcess(inv, now)), 0, false)
      case Intended =>
        IncomeForIsRate(inv, DaysEarned(inv, now) - DaysPaid(inv));
        var principal := if IsCompleted(inv, now) then inv.amount else 0;
        Settle(IncomeFor(inv, DaysEarned(inv, now) - DaysPaid(inv)), principal, IsCompleted(inv, now))
  }

  /** The investment-row update of a settlement: `updated_at := now`, and
      `status := 'completed'` when the period is over. */
  function Patched(row: Investment, completes: bool, now: int): (r: Investment)
    ensures r.updatedAt == Some(now) && LastProcessed(r) == now
    ensures r.status == (if completes then Completed else row.status)
    ensures r.(status := row.status, updatedAt := row.updatedAt) == row
  {
    row.(status := if completes then Completed else row.status, updatedAt := Some(now))
  }

  /** Which store calls of one iteration fail. */
  datatype StepFaults = StepFaults(userReadFails: bool, balanceWriteFails: bool, investmentWriteFails: bool)

  const NoFaults := StepFaults(false, false, false)

  /** Where one iteration of the loop stopped. */
  datatype StepOutcome = Skipped | UserUnreadable | BalanceWriteFailed | InvestmentWriteFailed | Settled

  /** The balance credit reached the store. */
  predicate Credited(o: StepOutcome) {
    o == InvestmentWriteFailed || o == Settled
  }

  /** The amounts were added to the reported counters. */
  predicate Counted(o: StepOutcome) {
    o == BalanceWriteFailed || Credited(o)
  }

  /** The outcome of one iteration, from the plan and the faults alone. */
  function OutcomeOf(users: set<Id>, inv: Investment, now: int, policy: Policy, f: StepFaults): StepOutcome {
    if PlanFor(inv, now, policy).Skip? then Skipped
    else if f.userReadFails || inv.userId !in users then UserUnreadable
    else if f.balanceWriteFails then BalanceWriteFailed
    else if f.investmentWriteFails then InvestmentWriteFailed
    else Settled
  }

  /** The amount one settlement adds to the owner's balance. */
  function CreditOf(inv: Investment, now: int, policy: Policy): int {
    match PlanFor(inv, now, policy)
    case Skip => 0
    case Settle(income, principal, _) => income + principal
  }

  /** One iteration's effect: the new store and what it added to the
      `earningsAdded` / `principalsReturned` counters. */
  datatype Step = Step(store: Store, income: int, principal: int, outcome: StepOutcome)

  /** One iteration of the loop over the loaded investments: read the owner's
      balance, compute the credit, add it to the counters, write the balance,
      then write the investment row. */
  function SettleOne(s: Store, inv: Investment, now: int, policy: Policy, f: StepFaults): (r: Step)
    ensures r.outcome == OutcomeOf(s.users.Keys, inv, now, policy, f)
    ensures Counted(r.outcome) ==>
              r.income == PlanFor(inv, now, policy).income && r.principal == PlanFor(inv, now, policy).principal
    ensures !Counted(r.outcome) ==> r.income == 0 && r.principal == 0
    ensures !Credited(r.outcome) ==> r.store == s
    ensures Credited(r.outcome) ==>
              && inv.userId in s.users
              && r.store.users == s.users[inv.userId := s.users[inv.userId].(balance := Some(BalanceOf(s, inv.userId) + CreditOf(inv, now, policy)))]
              && r.store.withdrawals == s.withdrawals && r.store.recharges == s.recharges
              && r.store.checkins == s.checkins
    ensures r.outcome == InvestmentWriteFailed ==> r.store.investments == s.investments
    ensures r.outcome == Settled ==>
              r.store.investments ==
                if inv.id in s.investments
                then s.investments[inv.id := Patched(s.investments[inv.id], PlanFor(inv, now, policy).completes, now)]
                else s.investments
  {
    var plan := PlanFor(inv, now, policy);
    if plan.Skip? then
      Step(s, 0, 0, Skipped)
    else if f.userReadFails || inv.userId !in s.users then
      Step(s, 0, 0, UserUnreadable)
    else
      var newBalance := BalanceOf(s, inv.userId) + plan.income + plan.principal;
      if f.balanceWriteFails then
        Step(s, plan.income, plan.principal, BalanceWriteFailed)
      else
        var credited := WithBalance(s, inv.userId, newBalance);
        if f.investmentWriteFails then
          Step(credited, plan.income, plan.principal, InvestmentWriteFailed)
        else
          var investments :=
            if inv.id in s.investments
            then s.investments[inv.id := Patched(s.investments[inv.id], plan.completes, now)]
            else s.investments;
          Step(credited.(investments := investments), plan.income, plan.principal, Settled)
  }

  // ---------------------------------------------------------------------
  // The batch
  // ---------------------------------------------------------------------

  /** `rows` is what `select * from investments where status = 'active'`
      returned: every active row of the store, each once, and nothing else. */
  predicate ActiveSnapshot(s: Store, rows: seq<Investment>) {
    && (forall i :: 0 <= i < |rows| ==>
          rows[i].status == Active && rows[i].id in s.investments && s.investments[rows[i].id] == rows[i])
    && (forall i, j :: 0 <= i < j < |rows| ==> rows[i].id != rows[j].id)
    && (forall id :: id in s.investments && s.investments[id].status == Active ==>
          exists i :: 0 <= i < |rows| && rows[i].id == id)
  }

  /** The three counters of the batch response after the first `k` rows. */
  datatype Sums = Sums(processed: int, income: int, principal: int)

  /** The outcomes of the first `k` rows, in order. */
  function Outcomes(users: set<Id>, rows: seq<Investment>, faults: seq<StepFaults>, now: int, policy: Policy,
                    k: nat): (os: seq<StepOutcome>)
    requires |faults| == |rows| && k <= |rows|
    ensures |os| == k
    ensures forall i :: 0 <= i < k ==> os[i] == OutcomeOf(users, rows[i], now, policy, faults[i])
  {
    if k == 0 then [] else Outcomes(users, rows, faults, now, policy, k - 1) + [OutcomeOf(users, rows[k - 1], now, policy, faults[k - 1])]
  }

  predicate IsSettled(o: StepOutcome) {
    o == Settled
  }

  function Tally(users: set<Id>, rows: seq<Investment>, faults: seq<StepFaults>, now: int, policy: Policy, k: nat): (t: Sums)
    requires |faults| == |rows| && k <= |rows|
    ensures 0 <= t.processed <= k
  {
    if k == 0 then Sums(0, 0, 0)
    else
      var t := Tally(users, rows, faults, now, policy, k - 1);
      var o := OutcomeOf(users, rows[k - 1], now, policy, faults[k - 1]);
      var p := PlanFor(rows[k - 1], now, policy);
      if Counted(o) then
        Sums(t.processed + (if o == Settled then 1 else 0), t.income + p.income, t.principal + p.principal)
      else
        t
  }

  /** The reported `processed` count is the number of rows, among the first
      `k`, whose iteration ran to the end (both writes succeeded); rows whose
      credit was counted but whose investment write failed are not included. */
  lemma {:induction false} TallyCountsSettled(users: set<Id>, rows: seq<Investment>, faults: seq<StepFaults>,
                                              now: int, policy: Policy, k: nat)
    requires |faults| == |rows| && k <= |rows|
    ensures Tally(users, rows, faults, now, policy, k).processed
            == |Filter(Outcomes(users, rows, faults, now, policy, k), IsSettled)|
  {
    if k > 0 {
      TallyCountsSettled(users, rows, faults, now, policy, k - 1);
      var o := OutcomeOf(users, rows[k - 1], now, policy, faults[k - 1]);
      FilterConcat(Outcomes(users, rows, faults, now, policy, k - 1), [o], IsSettled);
      assert Filter([o], IsSettled) == if o == Settled then [o] else [];
    }
  }

  /** What the first `k` rows credited to user `u`'s balance. */
  function CreditTo(u: Id, users: set<Id>, rows: seq<Investment>, faults: seq<StepFaults>, now: int, policy: Policy, k: nat): int
    requires |faults| == |rows| && k <= |rows|
  {
    if k == 0 then 0
    else
      var o := OutcomeOf(users, rows[k - 1], now, policy, faults[k - 1]);
      CreditTo(u, users, rows, faults, now, policy, k - 1)
      + (if rows[k - 1].userId == u && Credited(o) then CreditOf(rows[k - 1], now, policy) else 0)
  }

  /** The row an investment has after the batch. */
  function Settled_(row: Investment, users: set<Id>, now: int, policy: Policy, f: StepFaults): Investment {
    if OutcomeOf(users, row, now, policy, f) == Settled
    then Patched(row, PlanFor(row, now, policy).completes, now)
    else row
  }

  /** The users table after the first `k` rows: only balances changed, each
      by what those rows credited to its owner. */
  predicate UsersAfter(s: Store, cur: Store, rows: seq<Investment>, faults: seq<StepFaults>, now: int, policy: Policy, k: nat)
    requires |faults| == |rows| && k <= |rows|
  {
    && cur.users.Keys == s.users.Keys
    && (forall u :: u in s.users ==>
          cur.users[u] == s.users[u].(balance := cur.users[u].balance)
          && BalanceOf(cur, u) == BalanceOf(s, u) + CreditTo(u, s.users.Keys, rows, faults, now, policy, k))
  }

  /** The investments table after the first `k` rows: those rows settled or
      not, the later rows and every inactive row untouched. */
  predicate InvestmentsAfter(s: Store, cur: Store, rows: seq<Investment>, faults: seq<StepFaults>, now: int, policy: Policy, k: nat)
    requires |faults| == |rows| && k <= |rows|
  {
    && cur.investments.Keys == s.investments.Keys
    && (forall i :: 0 <= i < k ==>
          rows[i].id in cur.investments && cur.investments[rows[i].id] == Settled_(rows[i], s.users.Keys, now, policy, faults[i]))
    && (forall i :: k <= i < |rows| ==> rows[i].id in cur.investments && cur.investments[rows[i].id] == rows[i])
    && (forall id :: id in s.investments && s.investments[id].status != Active ==>
          cur.investments[id] == s.investments[id])
    && (forall id :: id in s.investments && (forall i :: 0 <= i < |rows| ==> rows[i].id != id) ==>
          cur.investments[id] == s.investments[id])
  }

  /** The other tables are never written by the batch. */
  predicate OthersUnchanged(s: Store, cur: Store) {
    cur.withdrawals == s.withdrawals && cur.recharges == s.recharges && cur.checkins == s.checkins
  }

  /** Everything the batch has done to the store after the first `k` rows. */
  predicate StoreAfter(s: Store, cur: Store, rows: seq<Investment>, faults: seq<StepFaults>, now: int, policy: Policy, k: nat)
    requires |faults| == |rows| && k <= |rows|
  {
    UsersAfter(s, cur, rows, faults, now, policy, k) && InvestmentsAfter(s, cur, rows, faults, now, policy, k)
    && OthersUnchanged(s, cur)
  }

  /** Settling row `k - 1` extends the users-table description from `k - 1` rows to `k`. */
  lemma UsersStep(s: Store, cur: Store, rows: seq<Investment>, faults: seq<StepFaults>, now: int, policy: Policy, k: nat)
    requires |faults| == |rows| && 0 < k <= |rows|
    requires UsersAfter(s, cur, rows, faults, now, policy, k - 1)
    ensures UsersAfter(s, SettleOne(cur, rows[k - 1], now, policy, faults[k - 1]).store, rows, faults, now, policy, k)
  {
    var step := SettleOne(cur, rows[k - 1], now, policy, faults[k - 1]);
    forall u | u in s.users
      ensures step.store.users[u] == s.users[u].(balance := step.store.users[u].balance)
      ensures BalanceOf(step.store, u) == BalanceOf(s, u) + CreditTo(u, s.users.Keys, rows, faults, now, policy, k)
    {
    }
  }

  /** Settling row `k - 1` touches no other row, and no inactive one. */
  lemma InvestmentsStep(s: Store, cur: Store, rows: seq<Investment>, faults: seq<StepFaults>, now: int, policy: Policy, k: nat)
    requires |faults| == |rows| && 0 < k <= |rows|
    requires ActiveSnapshot(s, rows)
    requires cur.users.Keys == s.users.Keys
    requires InvestmentsAfter(s, cur, rows, faults, now, policy, k - 1)
    ensures InvestmentsAfter(s, SettleOne(cur, rows[k - 1], now, policy, faults[k - 1]).store, rows, faults, now, policy, k)
  {
    var row := rows[k - 1];
    var step := SettleOne(cur, row, now, policy, faults[k - 1]);
    forall i | 0 <= i < |rows| && i != k - 1
      ensures step.store.investments[rows[i].id] == cur.investments[rows[i].id]
    {
      assert rows[i].id != row.id;
    }
    forall id | id in s.investments && s.investments[id].status != Active
      ensures step.store.investments[id] == s.investments[id]
    {
      assert id != row.id;
    }
    forall id | id in s.investments && (forall i :: 0 <= i < |rows| ==> rows[i].id != id)
      ensures step.store.investments[id] == s.investments[id]
    {
      assert rows[k - 1].id != id;
    }
  }

  /** The store and counters after the loop has handled the first `k` rows. */
  datatype BatchState = BatchState(store: Store, sums: Sums)

  /** The loop body applied to the first `k` rows, one after the other. */
  function Loop(s: Store, rows: seq<Investment>, faults: seq<StepFaults>, now: int, policy: Policy, k: nat): BatchState
    requires |faults| == |rows| && k <= |rows|
  {
    if k == 0 then BatchState(s, Sums(0, 0, 0))
    else
      var prev := Loop(s, rows, faults, now, policy, k - 1);
      var step := SettleOne(prev.store, rows[k - 1], now, policy, faults[k - 1]);
      BatchState(step.store, Sums(prev.sums.processed + (if step.outcome == Settled then 1 else 0),
                                  prev.sums.income + step.income, prev.sums.principal + step.principal))
  }

  /** After any number of rows, the loop's store is the one the outcomes of
      those rows determine. */
  lemma {:induction false} LoopMeetsStoreAfter(s: Store, rows: seq<Investment>, faults: seq<StepFaults>, now: int, policy: Policy, k: nat)
    requires |faults| == |rows| && k <= |rows| && ActiveSnapshot(s, rows)
    ensures StoreAfter(s, Loop(s, rows, faults, now, policy, k).store, rows, faults, now, policy, k)
  {
    if k > 0 {
      LoopMeetsStoreAfter(s, rows, faults, now, policy, k - 1);
      var prev := Loop(s, rows, faults, now, policy, k - 1);
      UsersStep(s, prev.store, rows, faults, now, policy, k);
      InvestmentsStep(s, prev.store, rows, faults, now, policy, k);
      assert Loop(s, rows, faults, now, policy, k).store == SettleOne(prev.store, rows[k - 1], now, policy, faults[k - 1]).store;
    }
  }

  /** After any number of rows, the loop's counters are the sums over the
      rows whose credit was counted. */
  lemma {:induction false} LoopMeetsTally(s: Store, rows: seq<Investment>, faults: seq<StepFaults>, now: int, policy: Policy, k: nat)
    requires |faults| == |rows| && k <= |rows|
    ensures Loop(s, rows, faults, now, policy, k).store.users.Keys == s.users.Keys
    ensures Loop(s, rows, faults, now, policy, k).sums == Tally(s.users.Keys, rows, faults, now, policy, k)
  {
    if k > 0 {
      LoopMeetsTally(s, rows, faults, now, policy, k - 1);
    }
  }

  datatype BatchReport = BatchReport(processed: int, totalInvestments: int, earningsAdded: int, principalsReturned: int)

  datatype BatchBody = NothingToProcess | Processed(report: BatchReport)

  /** `POST /api/investments/process`: settle every loaded active investment.
      `listFails` is the failure of the initial query; `faults[i]` says which
      store calls of the i-th iteration fail. */
  method ProcessBatch(s: Store, rows: seq<Investment>, now: int, policy: Policy, listFails: bool, faults: seq<StepFaults>)
      returns (s': Store, r: Reply<BatchBody>)
    requires |faults| == |rows|
    requires ActiveSnapshot(s, rows)
    ensures listFails ==> s' == s && r == Fail(500, FetchFailed)
    ensures !listFails && |rows| == 0 ==> s' == s && r == Ok(NothingToProcess)
    ensures !listFails && |rows| > 0 ==>
              var t := Tally(s.users.Keys, rows, faults, now, policy, |rows|);
              r == Ok(Processed(BatchReport(t.processed, |rows|, t.income, t.principal)))
    ensures !listFails ==> StoreAfter(s, s', rows, faults, now, policy, |rows|)
  {
    if listFails {
      return s, Fail(500, FetchFailed);
    }
    LoopMeetsStoreAfter(s, rows, faults, now, policy, |rows|);
    LoopMeetsTally(s, rows, faults, now, policy, |rows|);
    if |rows| == 0 {
      return s, Ok(NothingToProcess);
    }
    var t;
    s', t := SettleAll(s, rows, now, policy, faults);
    r := Ok(Processed(BatchReport(t.processed, |rows|, t.income, t.principal)));
  }

  /** The `for (const investment of investments)` loop: each row in turn,
      counters accumulated as the rows are settled. */
  method SettleAll(s: Store, rows: seq<Investment>, now: int, policy: Policy, faults: seq<StepFaults>)
      returns (s': Store, t: Sums)
    requires |faults| == |rows|
    ensures Loop(s, rows, faults, now, policy, |rows|) == BatchState(s', t)
  {
    var cur := s;
    var processed, earnings, principals := 0, 0, 0;
    var k := 0;
    while k < |rows|
      invariant 0 <= k <= |rows|
      invariant Loop(s, rows, faults, now, policy, k) == BatchState(cur, Sums(processed, earnings, principals))
    {
      var step := SettleOne(cur, rows[k], now, policy, faults[k]);
      assert Loop(s, rows, faults, now, policy, k + 1)
             == BatchState(step.store, Sums(processed + (if step.outcome == Settled then 1 else 0),
                                            earnings + step.income, principals + step.principal));
      earnings := earnings + step.income;
      principals := principals + step.principal;
      if step.outcome == Settled {
        processed := processed + 1;
      }
      cur := step.store;
      k := k + 1;
    }
    return cur, Sums(processed, earnings, principals);
  }

  // ---------------------------------------------------------------------
  // Repeated runs over one investment whose writes all succeed
  // ---------------------------------------------------------------------

  /** An investment after some runs, and the income and principal they paid. */
  datatype Run = Run(inv: Investment, income: int, principal: int)

  /** One run of the processor as seen by one investment: inactive rows are
      not loaded; a loaded row is skipped or settled. */
  function RunOnce(inv: Investment, now: int, policy: Policy): (r: Run)
    ensures inv.status != Active ==> r == Run(inv, 0, 0)
    ensures r.inv.(status := inv.status, updatedAt := inv.updatedAt) == inv
    ensures r.inv.status == Active || r.inv.status == inv.status || (inv.status == Active && r.inv.status == Completed)
    ensures r.principal == (if inv.status == Active && r.inv.status == Completed then inv.amount else 0)
    ensures r.inv != inv ==> LastProcessed(r.inv) == now
    ensures r.income + r.principal == (if inv.status == Active then CreditOf(inv, now, policy) else 0)
  {
    if inv.status != Active then Run(inv, 0, 0)
    else
      match PlanFor(inv, now, policy)
      case Skip => Run(inv, 0, 0)
      case Settle(income, principal, completes) => Run(Patched(inv, completes, now), income, principal)
  }

  /** Runs at the instants `nows`, in order. */
  function RunAll(inv: Investment, nows: seq<int>, policy: Policy): (r: Run)
    ensures r.inv.(status := inv.status, updatedAt := inv.updatedAt) == inv
    ensures inv.status != Active ==> r == Run(inv, 0, 0)
    ensures r.principal == (if inv.status == Active && r.inv.status == Completed then inv.amount else 0)
    ensures r.inv.status == Active || r.inv.status == inv.status || (inv.status == Active && r.inv.status == Completed)
    ensures inv.status == Active && r.inv.status == Completed ==>
              WholeDays(LastProcessed(r.inv) - inv.createdAt) >= inv.incomePeriod
    decreases |nows|
  {
    if |nows| == 0 then Run(inv, 0, 0)
    else
      var first := RunOnce(inv, nows[0], policy);
      var rest := RunAll(first.inv, nows[1..], policy);
      Run(rest.inv, first.income + rest.income, first.principal + rest.principal)
  }

  /** The single-investment view agrees with the store-level iteration when
      nothing fails: the row becomes `RunOnce`'s row and the owner's balance
      grows by what `RunOnce` paid. */
  lemma SettleOneMatchesRunOnce(s: Store, inv: Investment, now: int, policy: Policy)
    requires inv.status == Active && inv.id in s.investments && s.investments[inv.id] == inv
    requires inv.userId in s.users
    ensures var st := SettleOne(s, inv, now, policy, NoFaults);
            var run := RunOnce(inv, now, policy);
            && st.store.investments[inv.id] == run.inv
            && BalanceOf(st.store, inv.userId) == BalanceOf(s, inv.userId) + run.income + run.principal
  {
  }

  /** A second run at the same instant pays nothing and changes nothing. */
  lemma RerunIsNoOp(inv: Investment, now: int, policy: Policy)
    ensures var first := RunOnce(inv, now, policy);
            RunOnce(first.inv, now, policy) == Run(first.inv, 0, 0)
  {
  }

  /** Multiplication by a non-negative rate is monotone. */
  lemma ScaleMonotone(rate: int, a: int, b: int)
    requires rate >= 0 && a <= b
    ensures rate * a <= rate * b
  {
    assert rate * b - rate * a == rate * (b - a);
  }

  lemma ScaleMonotoneIf(rate: int, a: int, b: int)
    ensures rate >= 0 && a <= b ==> rate * a <= rate * b
  {
    if rate >= 0 && a <= b {
      ScaleMonotone(rate, a, b);
    }
  }

  /** The three things one run can do to an investment, as written: nothing,
      complete it without income, or pay the whole days since the marker
      while the period is still running and move the marker. */
  lemma AsWrittenStep(inv: Investment, n: int)
    ensures var r := RunOnce(inv, n, AsWritten);
            || r == Run(inv, 0, 0)
            || (inv.status == Active && r.inv.status == Completed && r.income == 0)
            || (&& inv.status == Active && r.inv.status == Active && LastProcessed(r.inv) == n
                && DaysSinceLastProcess(inv, n) >= 1 && DaysPassed(inv, n) < inv.incomePeriod
                && r.income == Rate(inv) * DaysSinceLastProcess(inv, n))
  {
  }

  /** The days of income the runs pay as written: the whole days since the
      marker, at each ongoing settlement. */
  function AsWrittenDays(inv: Investment, nows: seq<int>): int
    decreases |nows|
  {
    if |nows| == 0 then 0
    else
      var first := RunOnce(inv, nows[0], AsWritten);
      var days := if inv.status == Active && first.inv.status == Active && first.inv != inv
                  then DaysSinceLastProcess(inv, nows[0]) else 0;
      days + AsWrittenDays(first.inv, nows[1..])
  }

  lemma Distribute(rate: int, a: int, b: int)
    ensures rate * a + rate * b == rate * (a + b)
  {
  }

  /** As written, the income paid is the rate times the days counted by `AsWrittenDays`. */
  lemma {:induction false} AsWrittenIncomeIsDays(inv: Investment, nows: seq<int>)
    ensures RunAll(inv, nows, AsWritten).income == Rate(inv) * AsWrittenDays(inv, nows)
    decreases |nows|
  {
    if |nows| > 0 {
      var first := RunOnce(inv, nows[0], AsWritten);
      AsWrittenIncomeIsDays(first.inv, nows[1..]);
      AsWrittenStep(inv, nows[0]);
      assert Rate(first.inv) == Rate(inv);
      var days := if inv.status == Active && first.inv.status == Active && first.inv != inv
                  then DaysSinceLastProcess(inv, nows[0]) else 0;
      assert first.income == Rate(inv) * days;
      Distribute(Rate(inv), days, AsWrittenDays(first.inv, nows[1..]));
    }
  }

  /** As written, the days paid are bounded by the days accrued before the
      period ends, counted from the first marker: every ongoing credit happens
      strictly before completion, and the intervals between settlements are
      rounded down separately. `bound` is any instant no earlier than every run. */
  lemma {:induction false} AsWrittenDaysBounded(inv: Investment, nows: seq<int>, bound: int)
    requires forall i :: 0 <= i < |nows| ==> nows[i] <= bound
    ensures AsWrittenDays(inv, nows) <=
              if inv.status == Active
              then Max(0, Min(inv.incomePeriod - 1, DaysPassed(inv, bound)) - WholeDays(LastProcessed(inv) - inv.createdAt))
              else 0
    decreases |nows|
  {
    if |nows| > 0 {
      var n := nows[0];
      var first := RunOnce(inv, n, AsWritten);
      AsWrittenDaysBounded(first.inv, nows[1..], bound);
      AsWrittenStep(inv, n);
      if inv.status == Active && first.inv.status == Active && first.inv != inv {
        var L := LastProcessed(inv);
        var C := inv.createdAt;
        assert first.inv.createdAt == C && first.inv.incomePeriod == inv.incomePeriod && LastProcessed(first.inv) == n;
        WholeDaysSplit(n - L, L - C);
        WholeDaysMonotone(n, bound);
      }
    }
  }

  /** As written, the income paid over any sequence of runs is at most the
      rate times the days bounded by `AsWrittenDaysBounded`. */
  lemma AsWrittenIncomeBounded(inv: Investment, nows: seq<int>, bound: int)
    requires Rate(inv) >= 0
    requires forall i :: 0 <= i < |nows| ==> nows[i] <= bound
    ensures RunAll(inv, nows, AsWritten).income <=
              if inv.status == Active
              then Rate(inv) * Max(0, Min(inv.incomePeriod - 1, DaysPassed(inv, bound)) - WholeDays(LastProcessed(inv) - inv.createdAt))
              else 0
  {
    AsWrittenIncomeIsDays(inv, nows);
    AsWrittenDaysBounded(inv, nows, bound);
    var m := Max(0, Min(inv.incomePeriod - 1, DaysPassed(inv, bound)) - WholeDays(LastProcessed(inv) - inv.createdAt));
    ScaleMonotone(Rate(inv), AsWrittenDays(inv, nows), if inv.status == Active then m else 0);
  }

  /** As written, an investment never receives its full `total_income`: the
      income paid over any runs stays below `daily_income * income_period *
      purchase_count` once the rate is positive. */
  lemma AsWrittenNeverPaysTotalIncome(inv: Investment, nows: seq<int>)
    requires inv.status == Active && LastProcessed(inv) >= inv.createdAt
    requires Rate(inv) > 0 && inv.incomePeriod >= 1
    requires inv.totalIncome == IncomeFor(inv, inv.incomePeriod)
    ensures RunAll(inv, nows, AsWritten).income < inv.totalIncome
  {
    var bound := Latest(inv.createdAt, nows);
    AsWrittenIncomeBounded(inv, nows, bound);
    var m := Max(0, Min(inv.incomePeriod - 1, DaysPassed(inv, bound)) - WholeDays(LastProcessed(inv) - inv.createdAt));
    WholeDaysMonotone(0, LastProcessed(inv) - inv.createdAt);
    assert m <= inv.incomePeriod - 1;
    BelowFullPeriod(Rate(inv), m, inv.incomePeriod);
    IncomeForIsRate(inv, inv.incomePeriod);
  }

  /** The latest of `start` and the instants `nows`: one of them, and no
      earlier than any. */
  function Latest(start: int, nows: seq<int>): (b: int)
    ensures b >= start
    ensures forall i :: 0 <= i < |nows| ==> nows[i] <= b
    ensures b == start || b in nows
    decreases |nows|
  {
    if |nows| == 0 then start else Latest(Max(start, nows[0]), nows[1..])
  }

  lemma BelowFullPeriod(rate: int, m: int, period: int)
    requires rate > 0 && m <= period - 1
    ensures rate * m < rate * period
  {
    ScaleMonotone(rate, m, period - 1);
  }

  /** One run under the corrected rule either changes nothing or pays the
      days accrued since the marker and moves the marker to `n`. */
  lemma IntendedStep(inv: Investment, n: int)
    ensures var r := RunOnce(inv, n, Intended);
            || r == Run(inv, 0, 0)
            || (r.income == Rate(inv) * (DaysEarned(inv, n) - DaysPaid(inv)) && DaysPaid(r.inv) == DaysEarned(inv, n))
  {
  }

  lemma Telescope(rate: int, a: int, b: int, c: int)
    ensures rate * (b - a) + rate * (c - b) == rate * (c - a)
  {
  }

  /** Under the corrected rule the income telescopes: what any runs pay is the
      rate times the accrued days between the first and the last marker. */
  lemma {:induction false} IntendedTelescopes(inv: Investment, nows: seq<int>)
    ensures var r := RunAll(inv, nows, Intended);
            r.income == Rate(inv) * (DaysPaid(r.inv) - DaysPaid(inv))
    decreases |nows|
  {
    if |nows| > 0 {
      var first := RunOnce(inv, nows[0], Intended);
      var rest := RunAll(first.inv, nows[1..], Intended);
      IntendedTelescopes(first.inv, nows[1..]);
      IntendedStep(inv, nows[0]);
      assert Rate(first.inv) == Rate(inv);
      var r := RunAll(inv, nows, Intended);
      assert r.income == first.income + rest.income && r.inv == rest.inv;
      if first != Run(inv, 0, 0) {
        Telescope(Rate(inv), DaysPaid(inv), DaysPaid(first.inv), DaysPaid(rest.inv));
      }
    }
  }

  /** Under the corrected rule, an investment that starts unsettled and runs
      to completion is paid exactly its `total_income` and its principal. */
  lemma IntendedPaysTotalIncome(inv: Investment, nows: seq<int>)
    requires inv.status == Active && LastProcessed(inv) == inv.createdAt && inv.incomePeriod >= 0
    requires inv.totalIncome == IncomeFor(inv, inv.incomePeriod)
    requires RunAll(inv, nows, Intended).inv.status == Completed
    ensures RunAll(inv, nows, Intended).income == inv.totalIncome
    ensures RunAll(inv, nows, Intended).principal == inv.amount
  {
    var r := RunAll(inv, nows, Intended);
    IntendedTelescopes(inv, nows);
    assert DaysPaid(inv) == 0;
    assert DaysPaid(r.inv) == inv.incomePeriod;
    IncomeForIsRate(inv, inv.incomePeriod);
  }

  /** The product of the completion scenario: price 27000, 1134 a day for 45
      days, one unit, created at instant 0 and never settled. */
  function ScenarioInvestment(): (inv: Investment)
    ensures inv.totalIncome == IncomeFor(inv, inv.incomePeriod)
  {
    Investment("inv-1", "user-1", "product-1", "Product", 27000, 1, 1134, 45, 51030, Active, 0, None)
  }

  /** One run just after the 45 days have passed: as written, only the
      principal is paid (27000, not 27000 + 51030); corrected, both are. The
      owner's balance goes from 73000 to 100000 as written and to 151030
      corrected. */
  lemma CompletionScenario()
    ensures var inv := ScenarioInvestment();
            var now := 45 * DayMs + 1;
            && RunAll(inv, [now], AsWritten) == Run(inv.(status := Completed, updatedAt := Some(now)), 0, 27000)
            && RunAll(inv, [now], Intended) == Run(inv.(status := Completed, updatedAt := Some(now)), 51030, 27000)
    ensures var inv := ScenarioInvestment();
            var s := Store(map["user-1" := User(Some(73000), None, None, false, true, None, None, None, None)],
                           map["inv-1" := inv], map[], map[], map[]);
            var now := 45 * DayMs + 1;
            && BalanceOf(SettleOne(s, inv, now, AsWritten, NoFaults).store, "user-1") == 100000
            && BalanceOf(SettleOne(s, inv, now, Intended, NoFaults).store, "user-1") == 151030
  {
    var inv := ScenarioInvestment();
    var now := 45 * DayMs + 1;
    assert DaysPassed(inv, now) == 45;
    assert DaysSinceLastProcess(inv, now) == 45;
  }

  /** As written, settling every day and a half loses the half days: after
      runs at 1.5 and 3 days, two days of income have been paid, not three. */
  lemma FractionalDaysLost()
    ensures var inv := ScenarioInvestment();
            && RunAll(inv, [3 * DayMs / 2, 3 * DayMs], AsWritten).income == 2 * 1134
            && RunAll(inv, [3 * DayMs / 2, 3 * DayMs], Intended).income == 3 * 1134
  {
    var inv := ScenarioInvestment();
    var t1, t2 := 3 * DayMs / 2, 3 * DayMs;
    var nows := [t1, t2];
    assert nows[1..] == [t2];
    assert WholeDays(t1) == 1 && WholeDays(t2 - t1) == 1 && WholeDays(t2) == 3;
    var a := RunOnce(inv, t1, AsWritten);
    assert a == Run(inv.(updatedAt := Some(t1)), 1134, 0);
    assert RunOnce(a.inv, t2, AsWritten) == Run(inv.(updatedAt := Some(t2)), 1134, 0);
    assert [t2][1..] == [];
    assert RunAll(a.inv, [t2], AsWritten).income == 1134;
    var b := RunOnce(inv, t1, Intended);
    assert b == Run(inv.(updatedAt := Some(t1)), 1134, 0);
    assert RunOnce(b.inv, t2, Intended) == Run(inv.(updatedAt := Some(t2)), 2 * 1134, 0);
    assert RunAll(b.inv, [t2], Intended).income == 2 * 1134;
  }

  // ---------------------------------------------------------------------
  // The status projection (GET)
  // ---------------------------------------------------------------------

  /** The per-investment figures of the status endpoint. `earningsSoFar` is
      what has accrued, capped at the period; it is not what was paid. */
  datatype Progress = Progress(
    id: Id, daysPassed: int, daysRemaining: int, isCompleted: bool, earningsSoFar: int, totalEarnings: int)

  function ProgressOf(inv: Investment, now: int): (p: Progress)
    ensures p.id == inv.id && p.totalEarnings == inv.totalIncome
    ensures p.daysPassed == DaysPassed(inv, now)
    ensures p.daysRemaining >= 0
    ensures p.daysRemaining + DaysEarned(inv, now) == inv.incomePeriod
    ensures p.isCompleted <==> p.daysRemaining == 0
    ensures p.earningsSoFar == Rate(inv) * DaysEarned(inv, now)
    ensures Rate(inv) >= 0 ==> p.earningsSoFar <= Rate(inv) * inv.incomePeriod
    ensures Rate(inv) >= 0 && inv.incomePeriod >= 0 && now >= inv.createdAt ==> p.earningsSoFar >= 0
  {
    var dp := DaysPassed(inv, now);
    IncomeForIsRate(inv, Min(dp, inv.incomePeriod));
    ScaleMonotoneIf(Rate(inv), Min(dp, inv.incomePeriod), inv.incomePeriod);
    ScaleMonotoneIf(Rate(inv), 0, Min(dp, inv.incomePeriod));
    Progress(inv.id, dp, Max(0, inv.incomePeriod - dp), dp >= inv.incomePeriod,
             IncomeFor(inv, Min(dp, inv.incomePeriod)), inv.totalIncome)
  }

  datatype StatusBody = StatusBody(investments: seq<Progress>, total: int)

  /** `GET /api/investments/process`: the projection of every active row.
      `rows` is what the `status = 'active'` query read from `s`. */
  function StatusReport(s: Store, rows: seq<Investment>, now: int, fetchFails: bool): (r: Reply<StatusBody>)
    requires ActiveSnapshot(s, rows)
    ensures fetchFails <==> r == Fail(500, FetchFailed)
    ensures r.Ok? ==> |r.body.investments| == r.body.total == |rows|
    // each entry is the figures of one distinct active row of the store, in query order
    ensures r.Ok? ==> forall i :: 0 <= i < |rows| ==>
              && r.body.investments[i] == ProgressOf(rows[i], now)
              && r.body.investments[i].id in s.investments
              && s.investments[r.body.investments[i].id].status == Active
              && r.body.investments[i].totalEarnings == s.investments[r.body.investments[i].id].totalIncome
              && r.body.investments[i].isCompleted == IsCompleted(rows[i], now)
    ensures r.Ok? ==> forall i, j :: 0 <= i < j < |rows| ==> r.body.investments[i].id != r.body.investments[j].id
    // and every active row of the store has its entry
    ensures r.Ok? ==> forall id :: id in s.investments && s.investments[id].status == Active ==>
              exists i :: 0 <= i < |r.body.investments| && r.body.investments[i].id == id
  {
    if fetchFails then Fail(500, FetchFailed)
    else Ok(StatusBody(seq(|rows|, i requires 0 <= i < |rows| => ProgressOf(rows[i], now)), |rows|))
  }
}

=== FILE: admin_investments.dfy ===
/** The investments screen of the admin area: `GET /api/admin/investments`
    (status filter and search) and the figures its page derives from the
    returned list. */
module AdminInvestments {
  import opened Common
  import opened Ledger
  import Access
  import Invest

  /** A fetched row: the investment joined with its owner's email and name,
      either of which may be missing. */
  datatype Listing = Listing(inv: Investment, email: Option<string>, fullName: Option<string>)

  /** The query string. */
  datatype Filters = Filters(status: Option<string>, search: Option<string>)

  /** `searchParams.get('status') || 'all'`. */
  function StatusParam(f: Filters): string {
    OrElse(f.status, "all")
  }

  /** `searchParams.get('search') || ''`. */
  function SearchParam(f: Filters): string {
    OrElse(f.search, "")
  }

  /** The database filter `.eq('status', status)`, applied unless the
      parameter is `all`. An unknown status matches nothing. */
  predicate StatusMatches(status: string, row: Listing) {
    status == "all" || StatusName(row.inv.status) == status
  }

  /** A field lower-cased, `''` when it is missing. */
  function Folded(field: Option<string>): string {
    Lower(field.GetOr(""))
  }

  /** The search predicate: the lower-cased term occurs in the lower-cased
      email, name or product name. */
  predicate SearchMatches(search: string, row: Listing) {
    var term := Lower(search);
    Includes(Folded(row.email), term) || Includes(Folded(row.fullName), term)
    || Includes(Lower(row.inv.productName), term)
  }

  /** Rows in the order the query returns them: newest first. */
  predicate NewestFirst(rows: seq<Listing>) {
    forall i, j :: 0 <= i < j < |rows| ==> rows[i].inv.createdAt >= rows[j].inv.createdAt
  }

  /** The route's list: the status filter, then the search when one is given. */
  function Select(rows: seq<Listing>, f: Filters): (r: seq<Listing>)
    ensures IsSubsequence(r, rows)
    ensures forall i :: 0 <= i < |r| ==> StatusMatches(StatusParam(f), r[i])
    ensures SearchParam(f) != "" ==> forall i :: 0 <= i < |r| ==> SearchMatches(SearchParam(f), r[i])
    // nothing that matches is dropped
    ensures forall x :: (x in rows && StatusMatches(StatusParam(f), x)
                         && (SearchParam(f) != "" ==> SearchMatches(SearchParam(f), x))) ==> x in r
    ensures forall x :: x in r ==> x in rows
  {
    var status := StatusParam(f);
    var search := SearchParam(f);
    var byStatus := Filter(rows, (row: Listing) => StatusMatches(status, row));
    if search == "" then byStatus
    else
      var r := Filter(byStatus, (row: Listing) => SearchMatches(search, row));
      SubsequenceTransitive(r, byStatus, rows);
      r
  }

  lemma {:induction false} SubsequenceTransitive<T>(a: seq<T>, b: seq<T>, c: seq<T>)
    requires IsSubsequence(a, b) && IsSubsequence(b, c)
    ensures IsSubsequence(a, c)
    decreases |b| + |c|
  {
    if |a| > 0 {
      if |b| > 0 && a[0] == b[0] && IsSubsequence(a[1..], b[1..]) {
        if b[0] == c[0] && IsSubsequence(b[1..], c[1..]) {
          SubsequenceTransitive(a[1..], b[1..], c[1..]);
        } else {
          SubsequenceTransitive(a, b, c[1..]);
        }
      } else {
        assert IsSubsequence(a, b[1..]);
        SubsequenceDrop(b, c);
        SubsequenceTransitive(a, b[1..], c);
      }
    }
  }

  /** Dropping the head of a subsequence leaves a subsequence. */
  lemma {:induction false} SubsequenceDrop<T>(b: seq<T>, c: seq<T>)
    requires |b| > 0 && IsSubsequence(b, c)
    ensures IsSubsequence(b[1..], c)
    decreases |c|
  {
    if b[0] == c[0] && IsSubsequence(b[1..], c[1..]) {
      SubsequenceWeaken(b[1..], c);
    } else {
      SubsequenceDrop(b, c[1..]);
    }
  }

  /** A subsequence of the tail is a subsequence of the whole. */
  lemma SubsequenceWeaken<T>(a: seq<T>, c: seq<T>)
    requires |c| > 0 && IsSubsequence(a, c[1..])
    ensures IsSubsequence(a, c)
  {
  }

  /** Filtering keeps the newest-first order. */
  lemma {:induction false} FilterKeepsOrder(rows: seq<Listing>, keep: Listing -> bool)
    requires NewestFirst(rows)
    ensures NewestFirst(Filter(rows, keep))
  {
    if |rows| > 0 {
      assert NewestFirst(rows[1..]);
      FilterKeepsOrder(rows[1..], keep);
      var rest := Filter(rows[1..], keep);
      if keep(rows[0]) {
        var r := [rows[0]] + rest;
        forall i, j | 0 <= i < j < |r|
          ensures r[i].inv.createdAt >= r[j].inv.createdAt
        {
          if i == 0 {
            assert r[j] in rows[1..];
          }
        }
      }
    }
  }

  /** `GET /api/admin/investments`. */
  function ListInvestments(caller: Option<Id>, users: map<Id, User>, probe: Access.Probe,
                           rows: seq<Listing>, f: Filters, fetchFails: bool): (r: Reply<seq<Listing>>)
    ensures !Access.IsAdmin(caller, users, probe) ==> r == Fail(401, Unauthorized)
    ensures r.Ok? <==> Access.IsAdmin(caller, users, probe) && !fetchFails
    ensures r.Fail? && Access.IsAdmin(caller, users, probe) ==> r == Fail(500, FetchFailed)
    ensures r.Ok? ==> r.body == Select(rows, f)
  {
    Access.GetAdminUserAgreesWithIsAdmin(caller, users, probe);
    if Access.GetAdminUser(caller, users, probe).None? then Fail(401, Unauthorized)
    else if fetchFails then Fail(500, FetchFailed)
    else Ok(Select(rows, f))
  }

  /** The route keeps the query's newest-first order. */
  lemma SelectKeepsOrder(rows: seq<Listing>, f: Filters)
    requires NewestFirst(rows)
    ensures NewestFirst(Select(rows, f))
  {
    var status := StatusParam(f);
    var byStatus := Filter(rows, (row: Listing) => StatusMatches(status, row));
    FilterKeepsOrder(rows, (row: Listing) => StatusMatches(status, row));
    FilterKeepsOrder(byStatus, (row: Listing) => SearchMatches(SearchParam(f), row));
  }

  /** Without a search term (absent or empty), the answer is the status
      filter alone; without either parameter, it is every row. */
  lemma NoSearchIsStatusFilterOnly(rows: seq<Listing>, status: Option<string>)
    ensures Select(rows, Filters(status, None)) == Select(rows, Filters(status, Some("")))
    ensures Select(rows, Filters(None, None)) == rows
  {
    FilterAll(rows, (row: Listing) => StatusMatches("all", row));
  }

  /** The search ignores the case of the term. */
  lemma SearchIgnoresCase(search: string, row: Listing)
    ensures SearchMatches(search, row) == SearchMatches(Lower(search), row)
  {
    LowerIdempotent(search);
  }

  // ---------------------------------------------------------------------
  // The page
  // ---------------------------------------------------------------------

  function Amount(row: Listing): int { row.inv.amount }
  function TotalIncome(row: Listing): int { row.inv.totalIncome }
  predicate IsActiveRow(row: Listing) { row.inv.status == Active }
  predicate IsCompletedRow(row: Listing) { row.inv.status == Completed }

  /** The four summary cards. */
  datatype Summary = Summary(
    total: int, count: nat, activeAmount: int, activeCount: nat,
    completedAmount: int, completedCount: nat, expectedReturn: int)

  /** The summary over the list the page received. */
  function Summarize(rows: seq<Listing>): (s: Summary)
    ensures s.count == |rows| && s.activeCount + s.completedCount <= |rows|
    ensures s.total == SumBy(rows, Amount) && s.expectedReturn == SumBy(rows, TotalIncome)
    ensures s.activeAmount == SumBy(Filter(rows, IsActiveRow), Amount)
    ensures s.completedAmount == SumBy(Filter(rows, IsCompletedRow), Amount)
    // with non-negative amounts the two status cards never exceed the total
    ensures (forall i :: 0 <= i < |rows| ==> rows[i].inv.amount >= 0) ==>
              s.activeAmount + s.completedAmount <= s.total
    // and they make it up exactly when no row has another status
    ensures (forall i :: 0 <= i < |rows| ==> rows[i].inv.status in {Active, Completed}) ==>
              s.activeAmount + s.completedAmount == s.total && s.activeCount + s.completedCount == |rows|
  {
    var active := Filter(rows, IsActiveRow);
    var completed := Filter(rows, IsCompletedRow);
    var s := Summary(SumBy(rows, Amount), |rows|, SumBy(active, Amount), |active|,
                     SumBy(completed, Amount), |completed|, SumBy(rows, TotalIncome));
    ActivePlusCompleted(rows);
    s
  }

  /** Rows that are neither active nor completed. */
  predicate IsOtherRow(row: Listing) { !IsActiveRow(row) && !IsCompletedRow(row) }

  /** Active, completed and the rest split the list and its amount. */
  lemma {:induction false} ThreeWaySplit(rows: seq<Listing>)
    ensures SumBy(Filter(rows, IsActiveRow), Amount) + SumBy(Filter(rows, IsCompletedRow), Amount)
            + SumBy(Filter(rows, IsOtherRow), Amount) == SumBy(rows, Amount)
    ensures |Filter(rows, IsActiveRow)| + |Filter(rows, IsCompletedRow)| + |Filter(rows, IsOtherRow)| == |rows|
  {
    if |rows| > 0 {
      ThreeWaySplit(rows[1..]);
    }
  }

  lemma ActivePlusCompleted(rows: seq<Listing>)
    ensures |Filter(rows, IsActiveRow)| + |Filter(rows, IsCompletedRow)| <= |rows|
    ensures (forall i :: 0 <= i < |rows| ==> rows[i].inv.amount >= 0) ==>
              SumBy(Filter(rows, IsActiveRow), Amount) + SumBy(Filter(rows, IsCompletedRow), Amount)
              <= SumBy(rows, Amount)
    ensures (forall i :: 0 <= i < |rows| ==> rows[i].inv.status in {Active, Completed}) ==>
              && SumBy(Filter(rows, IsActiveRow), Amount) + SumBy(Filter(rows, IsCompletedRow), Amount)
                 == SumBy(rows, Amount)
              && |Filter(rows, IsActiveRow)| + |Filter(rows, IsCompletedRow)| == |rows|
  {
    ThreeWaySplit(rows);
    var other := Filter(rows, IsOtherRow);
    if forall i :: 0 <= i < |rows| ==> rows[i].inv.amount >= 0 {
      SumByNonNegative(other, Amount);
    }
    if forall i :: 0 <= i < |rows| ==> rows[i].inv.status in {Active, Completed} {
      FilterNone(rows, IsOtherRow);
    }
  }

  /** A table row's timing: days left (never negative) and the progress bar.
      `progress` is `None` where JavaScript's division leaves no finite
      number (see `CappedPercent`). */
  datatype RowTiming = RowTiming(daysPassed: int, daysRemaining: int, progress: Option<real>)

  function Timing(inv: Investment, now: int): (t: RowTiming)
    ensures t.daysPassed == WholeDays(now - inv.createdAt)
    ensures t.daysRemaining >= 0
    ensures t.daysRemaining == 0 <==> t.daysPassed >= inv.incomePeriod
    ensures t.daysRemaining > 0 ==> t.daysPassed + t.daysRemaining == inv.incomePeriod
    ensures inv.status == Completed ==> t.progress == Some(100.0)
    ensures inv.status != Completed ==> (t.progress.None? <==> inv.incomePeriod == 0 && t.daysPassed <= 0)
    ensures t.progress.Some? ==> t.progress.value <= 100.0
    // on a positive period the bar is full exactly when the row is completed or overdue
    ensures inv.incomePeriod > 0 ==>
              (t.progress == Some(100.0) <==> inv.status == Completed || t.daysPassed >= inv.incomePeriod)
  {
    var dp := WholeDays(now - inv.createdAt);
    RowTiming(dp, Max(0, inv.incomePeriod - dp),
              if inv.status == Completed then Some(100.0) else CappedPercent(dp, inv.incomePeriod))
  }

  /** The purchase route refuses a zero (falsy) period, so every row it
      stores has a finite progress bar in the admin table at any time. */
  lemma StoredRowsHaveProgress(id: Id, owner: Id, q: Invest.InvestRequest, created: int, weekday: int,
                               now: int)
    requires Invest.Validate(q, weekday).None?
    ensures Timing(Invest.NewInvestment(id, owner, q, created), now).progress.Some?
  {
  }

  /** The bar can be full on an active row: an active row past its period,
      not yet settled by the processor, shows 100 like a completed one. */
  lemma OverdueActiveRowShowsFull(inv: Investment, now: int)
    requires inv.status == Active && inv.incomePeriod > 0
    requires WholeDays(now - inv.createdAt) >= inv.incomePeriod
    ensures Timing(inv, now).progress == Some(100.0)
  {
  }
}

=== FILE: admin_recharges.dfy ===
/** An admin approving or rejecting a recharge: `POST /api/admin/recharges`.
    Only a `pending` row can be reviewed. Approval marks the row `completed`
    and then adds the amount to the owner's recharge wallet and lifetime
    recharge total in one write; if that write fails the row is put back to
    `pending`. Rejection only marks the row. */
module AdminRecharges {
  import opened Common
  import opened Ledger
  import opened Review
  import Access

  /** The row after a successful approval write. */
  function Completed_(r: Recharge, admin: Id, now: int): (r': Recharge)
    ensures r'.status == Completed && r'.approvedBy == Some(admin) && r'.updatedAt == Some(now)
    ensures r'.userId == r.userId && r'.amount == r.amount
  {
    r.(status := Completed, approvedBy := Some(admin), updatedAt := Some(now))
  }

  /** The compensating write after a failed wallet write. */
  function RolledBack(r: Recharge): (r': Recharge)
    ensures r'.status == Pending && r'.approvedBy.None? && r'.updatedAt == r.updatedAt
  {
    r.(status := Pending, approvedBy := None)
  }

  /** The row after a successful rejection write. */
  function Rejected_(r: Recharge, admin: Id, reason: Option<string>, now: int): (r': Recharge)
    ensures r'.status == Rejected && r'.approvedBy == Some(admin) && r'.updatedAt == Some(now)
    ensures r'.rejectedReason == Some(RejectReason(reason))
    ensures r'.userId == r.userId && r'.amount == r.amount
  {
    r.(status := Rejected, approvedBy := Some(admin), rejectedReason := Some(RejectReason(reason)),
       updatedAt := Some(now))
  }

  /** The owner's row after the credit: both wallet columns grow by the
      amount (null read as 0) and nothing else changes. */
  function Credited(u: User, amount: int): (u': User)
    ensures Num(u'.rechargeWallet) == Num(u.rechargeWallet) + amount
    ensures Num(u'.totalRecharge) == Num(u.totalRecharge) + amount
    // every other column, the balance included, is as it was
    ensures u' == u.(rechargeWallet := u'.rechargeWallet, totalRecharge := u'.totalRecharge)
  {
    u.(rechargeWallet := Some(Num(u.rechargeWallet) + amount),
       totalRecharge := Some(Num(u.totalRecharge) + amount))
  }

  /** `POST /api/admin/recharges`. On success the reply carries the action taken. */
  function ReviewRecharge(s: Store, caller: Option<Id>, q: ReviewRequest, now: int,
                          f: ReviewFaults): (a: Answer<Action>)
    ensures Access.GetAdminUser(caller, s.users, f.admin).None? ==> a == Answer(s, Fail(401, Unauthorized))
    ensures Access.GetAdminUser(caller, s.users, f.admin).Some? && ParseReview(q).Fail? ==>
              a == Answer(s, Fail(400, ParseReview(q).reason))
    ensures a.reply.Fail? && a.reply.reason != BalanceUpdateFailed ==> a.store == s
    // nothing but the reviewed row and its owner's wallet ever changes
    ensures a.store.investments == s.investments && a.store.withdrawals == s.withdrawals
            && a.store.checkins == s.checkins
    ensures a.store.users.Keys == s.users.Keys && a.store.recharges.Keys == s.recharges.Keys
    ensures a.store != s ==>
              && caller.Some? && Access.IsAdmin(caller, s.users, f.admin) && ParseReview(q).Ok?
              && var id := ParseReview(q).body.0;
                 && id in s.recharges && s.recharges[id].status == Pending
                 && (forall other :: other in s.recharges && other != id ==>
                       a.store.recharges[other] == s.recharges[other])
                 && (forall v :: v in s.users && v != s.recharges[id].userId ==>
                       a.store.users[v] == s.users[v])
    ensures a.reply.Ok? && a.reply.body == Approve ==>
              && caller.Some? && q.id.Some? && q.id.value in s.recharges
              && var r := s.recharges[q.id.value];
                 && r.status == Pending && r.userId in s.users
                 && a.store.recharges[q.id.value] == Completed_(r, caller.value, now)
                 && a.store.users == s.users[r.userId := Credited(s.users[r.userId], r.amount)]
    ensures a.reply.Ok? && a.reply.body == Reject ==>
              && caller.Some? && q.id.Some? && q.id.value in s.recharges
              && var id := q.id.value;
                 && s.recharges[id].status == Pending
                 && a.store == s.(recharges := s.recharges[id := Rejected_(s.recharges[id], caller.value, q.reason, now)])
    ensures a.reply == Fail(500, BalanceUpdateFailed) ==>
              && caller.Some? && q.id.Some? && q.id.value in s.recharges && f.walletWriteFails
              && var id := q.id.value;
                 && a.store.users == s.users
                 && a.store.recharges == s.recharges[id :=
                      if f.rollbackFails then Completed_(s.recharges[id], caller.value, now)
                      else RolledBack(Completed_(s.recharges[id], caller.value, now))]
  {
    var admin := Access.GetAdminUser(caller, s.users, f.admin);
    if admin.None? then Refuse(s, 401, Unauthorized)
    else
      match ParseReview(q)
      case Fail(code, why) => Refuse(s, code, why)
      case Ok((id, action)) =>
        if f.fetchFails || id !in s.recharges then Refuse(s, 404, RecordNotFound)
        else
          var r := s.recharges[id];
          if r.status != Pending then Refuse(s, 400, AlreadyReviewed(r.status))
          else if action == Approve then
            if f.userReadFails || r.userId !in s.users then Refuse(s, 500, UserFetchFailed)
            else if f.statusWriteFails then Refuse(s, 500, StatusUpdateFailed)
            else
              var marked := s.(recharges := s.recharges[id := Completed_(r, admin.value, now)]);
              if f.walletWriteFails then
                if f.rollbackFails then Answer(marked, Fail(500, BalanceUpdateFailed))
                else
                  Answer(s.(recharges := s.recharges[id := RolledBack(Completed_(r, admin.value, now))]),
                         Fail(500, BalanceUpdateFailed))
              else
                Answer(marked.(users := s.users[r.userId := Credited(s.users[r.userId], r.amount)]), Ok(Approve))
          else
            if f.statusWriteFails then Refuse(s, 500, StatusUpdateFailed)
            else Answer(s.(recharges := s.recharges[id := Rejected_(r, admin.value, q.reason, now)]), Ok(Reject))
  }

  /** Approving a positive recharge raises the owner's lifetime total and
      recharge wallet by exactly the amount and leaves the spendable balance
      alone; a rejection or a refusal changes no user. */
  lemma ApprovalCreditsWallet(s: Store, caller: Option<Id>, q: ReviewRequest, now: int, f: ReviewFaults)
    ensures var a := ReviewRecharge(s, caller, q, now, f);
            a.reply.Ok? && a.reply.body == Approve ==>
              var owner := s.recharges[q.id.value].userId;
              var amount := s.recharges[q.id.value].amount;
              && Num(a.store.users[owner].totalRecharge) == Num(s.users[owner].totalRecharge) + amount
              && Num(a.store.users[owner].rechargeWallet) == Num(s.users[owner].rechargeWallet) + amount
              && a.store.users[owner].balance == s.users[owner].balance
              && (amount > 0 ==> Num(a.store.users[owner].totalRecharge) > Num(s.users[owner].totalRecharge))
    ensures var a := ReviewRecharge(s, caller, q, now, f);
            !(a.reply.Ok? && a.reply.body == Approve) ==> a.store.users == s.users
  {
  }

  /** A reviewed recharge cannot be reviewed again, so it is credited at most once. */
  lemma ReviewIsFinal(s: Store, caller: Option<Id>, q: ReviewRequest, q2: ReviewRequest,
                      now: int, later: int, f: ReviewFaults, g: ReviewFaults)
    requires ReviewRecharge(s, caller, q, now, f).reply.Ok?
    requires q2.id == q.id && !g.fetchFails
    requires Access.IsAdmin(caller, ReviewRecharge(s, caller, q, now, f).store.users, g.admin)
    requires ParseReview(q2).Ok?
    ensures var a := ReviewRecharge(s, caller, q, now, f);
            var st := if a.reply.body == Approve then Completed else Rejected;
            ReviewRecharge(a.store, caller, q2, later, g) == Answer(a.store, Fail(400, AlreadyReviewed(st)))
  {
    var a := ReviewRecharge(s, caller, q, now, f);
    Access.GetAdminUserAgreesWithIsAdmin(caller, a.store.users, g.admin);
  }

  /** If the wallet write and then the rollback both fail, the row reads
      `completed` although the wallet was never credited. */
  lemma CompletedWithoutCredit(s: Store, caller: Option<Id>, id: Id, now: int, f: ReviewFaults)
    requires Access.IsAdmin(caller, s.users, f.admin) && !f.fetchFails && !f.userReadFails
    requires !f.statusWriteFails && f.walletWriteFails && f.rollbackFails
    requires id in s.recharges && s.recharges[id].status == Pending && id != ""
    requires s.recharges[id].userId in s.users
    ensures var a := ReviewRecharge(s, caller, ReviewRequest(Some(id), Some("approve"), None), now, f);
            && a.reply == Fail(500, BalanceUpdateFailed)
            && a.store.recharges[id].status == Completed
            && a.store.users == s.users
  {
    Access.GetAdminUserAgreesWithIsAdmin(caller, s.users, f.admin);
  }
}

=== FILE: admin_stats.dfy ===
/** The dashboard figures of `GET /api/admin/stats`: user counts, wallet
    totals, and sums over the investment, withdrawal, recharge and check-in
    tables. Each of the nine queries has its error ignored; a failed query
    contributes 0. */
module AdminStats {
  import opened Common
  import opened Ledger
  import Access

  /** The rows the queries read, in the order they return them. */
  datatype Snapshot = Snapshot(
    users: seq<User>,
    investments: seq<Investment>,
    withdrawals: seq<Withdrawal>,
    recharges: seq<Recharge>,
    checkins: seq<CheckIn>,
    referrals: nat)

  /** The nine queries of the route. */
  datatype Query =
    | TotalUsers | ActiveUsers | Wallets | PendingWithdrawals | Investments
    | AllWithdrawals | Recharges | CheckIns | Referrals

  /** The response body. */
  datatype Figures = Figures(
    totalUsers: int, activeUsers: int, suspendedUsers: int,
    totalBalance: int, totalRechargeWallet: int,
    totalInvestments: int, activeInvestments: int,
    totalWithdrawals: int, approvedWithdrawals: int,
    pendingWithdrawals: int, pendingWithdrawalCount: int,
    totalRecharges: int, completedRecharges: int,
    totalCheckIns: int, totalReferrals: int)

  predicate IsActiveUser(u: User) { u.isActive }
  predicate IsSuspendedUser(u: User) { !u.isActive }
  function BalanceOrZero(u: User): int { Num(u.balance) }
  function WalletOrZero(u: User): int { Num(u.rechargeWallet) }

  predicate IsActiveInvestment(inv: Investment) { inv.status == Active }
  predicate IsCompletedInvestment(inv: Investment) { inv.status == Completed }
  function InvestmentAmount(inv: Investment): int { inv.amount }

  predicate IsPendingWithdrawal(w: Withdrawal) { w.status == Pending }
  predicate IsApprovedWithdrawal(w: Withdrawal) { w.status == Approved }
  function WithdrawalAmount(w: Withdrawal): int { w.amount }

  predicate IsCompletedRecharge(r: Recharge) { r.status == Completed }
  function RechargeAmount(r: Recharge): int { r.amount }

  function CheckInAmount(c: CheckIn): int { c.amount }

  /** A figure read from a query: its value, or 0 when the query failed. */
  function Read(failed: set<Query>, q: Query, value: int): (r: int)
    ensures q in failed ==> r == 0
    ensures q !in failed ==> r == value
  {
    if q in failed then 0 else value
  }

  /** The figures computed from a snapshot when the queries in `failed` fail. */
  function Compute(db: Snapshot, failed: set<Query>): (f: Figures)
    ensures f.totalUsers == Read(failed, TotalUsers, |db.users|)
    ensures f.activeUsers == Read(failed, ActiveUsers, |Filter(db.users, IsActiveUser)|)
    ensures f.suspendedUsers == f.totalUsers - f.activeUsers
    ensures f.totalBalance == Read(failed, Wallets, SumBy(db.users, BalanceOrZero))
    ensures f.totalRechargeWallet == Read(failed, Wallets, SumBy(db.users, WalletOrZero))
    ensures f.pendingWithdrawals == Read(failed, PendingWithdrawals, SumBy(Filter(db.withdrawals, IsPendingWithdrawal), WithdrawalAmount))
    ensures f.pendingWithdrawalCount == Read(failed, PendingWithdrawals, |Filter(db.withdrawals, IsPendingWithdrawal)|)
    ensures f.totalInvestments == Read(failed, Investments, SumBy(db.investments, InvestmentAmount))
    ensures f.activeInvestments == Read(failed, Investments, |Filter(db.investments, IsActiveInvestment)|)
    ensures f.totalWithdrawals == Read(failed, AllWithdrawals, SumBy(db.withdrawals, WithdrawalAmount))
    ensures f.approvedWithdrawals == Read(failed, AllWithdrawals, SumBy(Filter(db.withdrawals, IsApprovedWithdrawal), WithdrawalAmount))
    ensures f.totalRecharges == Read(failed, Recharges, SumBy(db.recharges, RechargeAmount))
    ensures f.completedRecharges == Read(failed, Recharges, SumBy(Filter(db.recharges, IsCompletedRecharge), RechargeAmount))
    ensures f.totalCheckIns == Read(failed, CheckIns, SumBy(db.checkins, CheckInAmount))
    ensures f.totalReferrals == Read(failed, Referrals, db.referrals)
  {
    var total := Read(failed, TotalUsers, |db.users|);
    var active := Read(failed, ActiveUsers, |Filter(db.users, IsActiveUser)|);
    var pending := Filter(db.withdrawals, IsPendingWithdrawal);
    Figures(
      total, active, total - active,
      Read(failed, Wallets, SumBy(db.users, BalanceOrZero)),
      Read(failed, Wallets, SumBy(db.users, WalletOrZero)),
      Read(failed, Investments, SumBy(db.investments, InvestmentAmount)),
      Read(failed, Investments, |Filter(db.investments, IsActiveInvestment)|),
      Read(failed, AllWithdrawals, SumBy(db.withdrawals, WithdrawalAmount)),
      Read(failed, AllWithdrawals, SumBy(Filter(db.withdrawals, IsApprovedWithdrawal), WithdrawalAmount)),
      Read(failed, PendingWithdrawals, SumBy(pending, WithdrawalAmount)),
      Read(failed, PendingWithdrawals, |pending|),
      Read(failed, Recharges, SumBy(db.recharges, RechargeAmount)),
      Read(failed, Recharges, SumBy(Filter(db.recharges, IsCompletedRecharge), RechargeAmount)),
      Read(failed, CheckIns, SumBy(db.checkins, CheckInAmount)),
      Read(failed, Referrals, db.referrals))
  }

  /** `GET /api/admin/stats`: admins only. */
  function Stats(caller: Option<Id>, users: map<Id, User>, probe: Access.Probe, db: Snapshot,
                 failed: set<Query>): (r: Reply<Figures>)
    ensures r.Ok? <==> Access.IsAdmin(caller, users, probe)
    ensures r.Fail? ==> r == Fail(401, Unauthorized)
    ensures r.Ok? ==> r.body == Compute(db, failed)
  {
    Access.GetAdminUserAgreesWithIsAdmin(caller, users, probe);
    if Access.GetAdminUser(caller, users, probe).None? then Fail(401, Unauthorized)
    else Ok(Compute(db, failed))
  }

  /** When both user counts succeed, "suspended" counts exactly the inactive
      users, so it is never negative and never more than the total. */
  lemma SuspendedCountsInactiveUsers(db: Snapshot, failed: set<Query>)
    requires TotalUsers !in failed && ActiveUsers !in failed
    ensures Compute(db, failed).suspendedUsers == |Filter(db.users, IsSuspendedUser)|
    ensures 0 <= Compute(db, failed).suspendedUsers <= Compute(db, failed).totalUsers
  {
    FilterPartitionLength(db.users, IsActiveUser, IsSuspendedUser);
  }

  /** A failed total count with a working active count reports a negative
      number of suspended users. */
  lemma FailedTotalCountGoesNegative(db: Snapshot)
    requires exists i :: 0 <= i < |db.users| && db.users[i].isActive
    ensures Compute(db, {TotalUsers}).suspendedUsers < 0
  {
    var i :| 0 <= i < |db.users| && db.users[i].isActive;
    assert db.users[i] in Filter(db.users, IsActiveUser);
  }

  /** With non-negative amounts (every row the routes insert has one), the
      approved and pending withdrawals, and the completed recharges, are each
      at most the corresponding total. */
  lemma PartsAtMostTotals(db: Snapshot)
    requires forall i :: 0 <= i < |db.withdrawals| ==> db.withdrawals[i].amount >= 0
    requires forall i :: 0 <= i < |db.recharges| ==> db.recharges[i].amount >= 0
    ensures var f := Compute(db, {});
            && 0 <= f.approvedWithdrawals <= f.totalWithdrawals
            && 0 <= f.pendingWithdrawals <= f.totalWithdrawals
            && 0 <= f.completedRecharges <= f.totalRecharges
            && f.pendingWithdrawalCount <= |db.withdrawals|
  {
    SumByFilterAtMost(db.withdrawals, IsApprovedWithdrawal, WithdrawalAmount);
    SumByFilterAtMost(db.withdrawals, IsPendingWithdrawal, WithdrawalAmount);
    SumByFilterAtMost(db.recharges, IsCompletedRecharge, RechargeAmount);
    SumByNonNegative(Filter(db.withdrawals, IsApprovedWithdrawal), WithdrawalAmount);
    SumByNonNegative(Filter(db.withdrawals, IsPendingWithdrawal), WithdrawalAmount);
    SumByNonNegative(Filter(db.recharges, IsCompletedRecharge), RechargeAmount);
  }

  /** Active and completed investments split the invested total. */
  lemma InvestmentsSplitByStatus(db: Snapshot)
    requires forall i :: 0 <= i < |db.investments| ==> db.investments[i].status in {Active, Completed}
    ensures SumBy(Filter(db.investments, IsActiveInvestment), InvestmentAmount)
            + SumBy(Filter(db.investments, IsCompletedInvestment), InvestmentAmount)
            == Compute(db, {}).totalInvestments
  {
    SumByPartition(db.investments, IsActiveInvestment, IsCompletedInvestment, InvestmentAmount);
  }

}

=== FILE: admin_users.dfy ===
/** User management: `POST /api/admin/users` applies one of six actions to a
    user row, and `GET /api/admin/users` adds per-user statistics to the
    listing. */
module AdminUsers {
  import opened Common
  import opened Ledger
  import Access

  /** The POST body. `value` is absent for `null` or `undefined`. */
  datatype UserRequest = UserRequest(userId: Option<string>, action: Option<string>, value: Option<int>)

  /** The single column an accepted action writes. Balances are set to an
      absolute value, not moved by a delta. */
  datatype Change =
    | SetBalance(balance: int)
    | SetRechargeWallet(wallet: int)
    | SetActive(active: bool)
    | SetAdmin(admin: bool)

  /** The action table, first failure wins: `update_balance` and
      `update_recharge_wallet` need a value (any number, 0 and negatives
      included), the four flag actions need none, and anything else is refused. */
  function ParseChange(action: string, value: Option<int>): (r: Reply<Change>)
    ensures action == "update_balance" ==> r == (if value.Some? then Ok(SetBalance(value.value)) else Fail(400, ValueRequired))
    ensures action == "update_recharge_wallet" ==>
              r == (if value.Some? then Ok(SetRechargeWallet(value.value)) else Fail(400, ValueRequired))
    ensures action == "suspend" ==> r == Ok(SetActive(false))
    ensures action == "activate" ==> r == Ok(SetActive(true))
    ensures action == "make_admin" ==> r == Ok(SetAdmin(true))
    ensures action == "remove_admin" ==> r == Ok(SetAdmin(false))
    ensures action !in {"update_balance", "update_recharge_wallet", "suspend", "activate", "make_admin", "remove_admin"} ==>
              r == Fail(400, InvalidAction)
  {
    match action
    case "update_balance" => if value.None? then Fail(400, ValueRequired) else Ok(SetBalance(value.value))
    case "update_recharge_wallet" => if value.None? then Fail(400, ValueRequired) else Ok(SetRechargeWallet(value.value))
    case "suspend" => Ok(SetActive(false))
    case "activate" => Ok(SetActive(true))
    case "make_admin" => Ok(SetAdmin(true))
    case "remove_admin" => Ok(SetAdmin(false))
    case _ => Fail(400, InvalidAction)
  }

  /** `update(updateData)`: exactly one column changes. */
  function Apply(u: User, c: Change): (u': User)
    ensures c.SetBalance? ==> u' == u.(balance := Some(c.balance))
    ensures c.SetRechargeWallet? ==> u' == u.(rechargeWallet := Some(c.wallet))
    ensures c.SetActive? ==> u' == u.(isActive := c.active)
    ensures c.SetAdmin? ==> u' == u.(isAdmin := c.admin)
  {
    match c
    case SetBalance(b) => u.(balance := Some(b))
    case SetRechargeWallet(w) => u.(rechargeWallet := Some(w))
    case SetActive(a) => u.(isActive := a)
    case SetAdmin(a) => u.(isAdmin := a)
  }

  /** Every action sets a value rather than moving one, so applying it twice
      is applying it once. */
  lemma ApplyIsIdempotent(u: User, c: Change)
    ensures Apply(Apply(u, c), c) == Apply(u, c)
  {
  }

  /** A suspended admin loses admin access, and making an inactive user an
      admin does not give it. */
  lemma SuspensionRevokesAdmin(users: map<Id, User>, target: Id, p: Access.Probe)
    requires target in users
    ensures !Access.IsAdmin(Some(target), users[target := Apply(users[target], SetActive(false))], p)
    ensures !users[target].isActive ==>
              !Access.IsAdmin(Some(target), users[target := Apply(users[target], SetAdmin(true))], p)
  {
  }

  /** `POST /api/admin/users`. The update selects the changed row back as a
      single row, so an unknown user id is an update error (500). */
  function UpdateUser(s: Store, caller: Option<Id>, q: UserRequest, probe: Access.Probe,
                      updateFails: bool): (a: Answer<User>)
    ensures !Access.IsAdmin(caller, s.users, probe) ==> a == Answer(s, Fail(401, Unauthorized))
    ensures Access.IsAdmin(caller, s.users, probe) && (!Truthy(q.userId) || !Truthy(q.action)) ==>
              a == Answer(s, Fail(400, MissingFields))
    ensures a.reply.Fail? ==> a.store == s
    ensures a.reply.Ok? <==>
              Access.IsAdmin(caller, s.users, probe) && Truthy(q.userId) && Truthy(q.action)
              && ParseChange(q.action.value, q.value).Ok? && q.userId.value in s.users && !updateFails
    // one column of one user changes; the reply is the updated row
    ensures a.reply.Ok? ==>
              var c := ParseChange(q.action.value, q.value).body;
              && a.store == s.(users := s.users[q.userId.value := Apply(s.users[q.userId.value], c)])
              && a.reply.body == a.store.users[q.userId.value]
  {
    Access.GetAdminUserAgreesWithIsAdmin(caller, s.users, probe);
    if Access.GetAdminUser(caller, s.users, probe).None? then Refuse(s, 401, Unauthorized)
    else if !Truthy(q.userId) || !Truthy(q.action) then Refuse(s, 400, MissingFields)
    else
      match ParseChange(q.action.value, q.value)
      case Fail(code, why) => Refuse(s, code, why)
      case Ok(c) =>
        var id := q.userId.value;
        if updateFails || id !in s.users then Refuse(s, 500, UpdateFailed)
        else
          var u' := Apply(s.users[id], c);
          Answer(s.(users := s.users[id := u']), Ok(u'))
  }

  /** After a successful `suspend` or `remove_admin` the target is no longer
      an admin for any later admin gate, whoever it was before; an admin
      suspending itself locks itself out. */
  lemma RevokingActionsEndAdminAccess(s: Store, caller: Option<Id>, target: Id, action: string,
                                      value: Option<int>, probe: Access.Probe, p: Access.Probe)
    requires action == "suspend" || action == "remove_admin"
    requires UpdateUser(s, caller, UserRequest(Some(target), Some(action), value), probe, false).reply.Ok?
    ensures var s' := UpdateUser(s, caller, UserRequest(Some(target), Some(action), value), probe, false).store;
            !Access.IsAdmin(Some(target), s'.users, p)
  {
  }

  /** Setting a balance replaces it: the stored value is the one sent, whatever
      was there before, and a repeated request leaves the same store. */
  lemma SetBalanceIsAbsolute(s: Store, caller: Option<Id>, target: Id, v: int, probe: Access.Probe)
    requires UpdateUser(s, caller, UserRequest(Some(target), Some("update_balance"), Some(v)), probe, false).reply.Ok?
    ensures var q := UserRequest(Some(target), Some("update_balance"), Some(v));
            var s' := UpdateUser(s, caller, q, probe, false).store;
            && s'.users[target].balance == Some(v)
            && UpdateUser(s', caller, q, probe, false).store == s'
  {
    var q := UserRequest(Some(target), Some("update_balance"), Some(v));
    var s' := UpdateUser(s, caller, q, probe, false).store;
    Access.GetAdminUserAgreesWithIsAdmin(caller, s.users, probe);
    assert caller.Some? && caller.value != target ==> s'.users[caller.value] == s.users[caller.value];
    assert Access.IsAdmin(caller, s'.users, probe);
  }

  // ---------------------------------------------------------------------
  // GET statistics
  // ---------------------------------------------------------------------

  function InvestmentAmount(inv: Investment): int {
    inv.amount
  }

  function WithdrawalAmount(w: Withdrawal): int {
    w.amount
  }

  predicate IsActiveInvestment(inv: Investment) {
    inv.status == Active
  }

  /** The statistics added to one listed user. */
  datatype UserStats = UserStats(
    referralCount: int, totalInvestments: int, activeInvestments: nat, totalWithdrawals: int)

  /** The per-user reductions. The three queries' errors are not checked: a
      failed query (`None`) reads as 0. */
  function StatsFor(referrals: Option<int>, investments: Option<seq<Investment>>,
                    withdrawals: Option<seq<Withdrawal>>): (st: UserStats)
    ensures st.referralCount == Num(referrals)
    ensures investments.None? ==> st.totalInvestments == 0 && st.activeInvestments == 0
    ensures investments.Some? ==>
              && st.totalInvestments == SumBy(investments.value, InvestmentAmount)
              && st.activeInvestments == |Filter(investments.value, IsActiveInvestment)|
    ensures withdrawals.None? ==> st.totalWithdrawals == 0
    ensures withdrawals.Some? ==> st.totalWithdrawals == SumBy(withdrawals.value, WithdrawalAmount)
  {
    var invs := investments.GetOr([]);
    UserStats(Num(referrals), SumBy(invs, InvestmentAmount), |Filter(invs, IsActiveInvestment)|,
              SumBy(withdrawals.GetOr([]), WithdrawalAmount))
  }

  predicate IsOtherInvestment(inv: Investment) {
    inv.status != Active
  }

  /** The active figure splits the user's rows: it and the number of rows in
      any other status add up to the row count, so it equals the row count
      exactly when every row is active, and is 0 exactly when none is. */
  lemma ActiveFigureSplitsRows(referrals: Option<int>, invs: seq<Investment>,
                               withdrawals: Option<seq<Withdrawal>>)
    ensures var st := StatsFor(referrals, Some(invs), withdrawals);
            && st.activeInvestments + |Filter(invs, IsOtherInvestment)| == |invs|
            && (st.activeInvestments == |invs| <==> forall i :: 0 <= i < |invs| ==> invs[i].status == Active)
            && (st.activeInvestments == 0 <==> forall i :: 0 <= i < |invs| ==> invs[i].status != Active)
  {
    FilterPartitionLength(invs, IsActiveInvestment, IsOtherInvestment);
    FilterKeepsAllIff(invs, IsActiveInvestment);
    FilterKeepsAllIff(invs, IsOtherInvestment);
  }
}

=== FILE: admin_withdrawals.dfy ===
/** An admin approving or rejecting a withdrawal: `POST /api/admin/withdrawals`.
    Only a `pending` row can be reviewed. Approval re-checks the owner's
    balance, marks the row approved and then debits the balance; if the debit
    fails the row is put back to `pending`. Rejection only marks the row. */
module AdminWithdrawals {
  import opened Common
  import opened Ledger
  import opened Review
  import Access

  /** The row after a successful approval write. */
  function Approved_(w: Withdrawal, admin: Id, now: int): (r: Withdrawal)
    ensures r.status == Approved && r.approvedBy == Some(admin) && r.updatedAt == Some(now)
    ensures r.userId == w.userId && r.amount == w.amount && r.fee == w.fee && r.netAmount == w.netAmount
  {
    w.(status := Approved, approvedBy := Some(admin), updatedAt := Some(now))
  }

  /** The compensating write after a failed debit: back to `pending`, with no
      approver. `updated_at` keeps the approval time. */
  function RolledBack(w: Withdrawal): (r: Withdrawal)
    ensures r.status == Pending && r.approvedBy.None?
    ensures r.updatedAt == w.updatedAt && r.amount == w.amount
  {
    w.(status := Pending, approvedBy := None)
  }

  /** The row after a successful rejection write. */
  function Rejected_(w: Withdrawal, admin: Id, reason: Option<string>, now: int): (r: Withdrawal)
    ensures r.status == Rejected && r.approvedBy == Some(admin) && r.updatedAt == Some(now)
    ensures r.rejectedReason == Some(RejectReason(reason))
    ensures r.userId == w.userId && r.amount == w.amount
  {
    w.(status := Rejected, approvedBy := Some(admin), rejectedReason := Some(RejectReason(reason)),
       updatedAt := Some(now))
  }

  /** `POST /api/admin/withdrawals`. On success the reply carries the action taken. */
  function ReviewWithdrawal(s: Store, caller: Option<Id>, q: ReviewRequest, now: int,
                            f: ReviewFaults): (a: Answer<Action>)
    ensures Access.GetAdminUser(caller, s.users, f.admin).None? ==> a == Answer(s, Fail(401, Unauthorized))
    ensures Access.GetAdminUser(caller, s.users, f.admin).Some? && ParseReview(q).Fail? ==>
              a == Answer(s, Fail(400, ParseReview(q).reason))
    ensures a.reply.Fail? && a.reply.reason != BalanceUpdateFailed ==> a.store == s
    // nothing but the reviewed row and its owner's balance ever changes
    ensures a.store.investments == s.investments && a.store.recharges == s.recharges
            && a.store.checkins == s.checkins
    ensures a.store.users.Keys == s.users.Keys && a.store.withdrawals.Keys == s.withdrawals.Keys
    ensures a.store != s ==>
              && caller.Some? && Access.IsAdmin(caller, s.users, f.admin) && ParseReview(q).Ok?
              && var id := ParseReview(q).body.0;
                 && id in s.withdrawals && s.withdrawals[id].status == Pending
                 && (forall other :: other in s.withdrawals && other != id ==>
                       a.store.withdrawals[other] == s.withdrawals[other])
                 && (forall v :: v in s.users && v != s.withdrawals[id].userId ==>
                       a.store.users[v] == s.users[v])
    ensures a.reply.Ok? && a.reply.body == Approve ==>
              && caller.Some? && q.id.Some? && q.id.value in s.withdrawals
              && var w := s.withdrawals[q.id.value];
                 && w.status == Pending && w.userId in s.users
                 && BalanceOf(s, w.userId) - w.amount >= 0
                 // the row is marked and only the owner's balance column moves
                 && a.store == s.(withdrawals := s.withdrawals[q.id.value := Approved_(w, caller.value, now)],
                                  users := s.users[w.userId := s.users[w.userId].(balance := Some(BalanceOf(s, w.userId) - w.amount))])
    ensures a.reply.Ok? && a.reply.body == Reject ==>
              && caller.Some? && q.id.Some? && q.id.value in s.withdrawals
              && var id := q.id.value;
                 && s.withdrawals[id].status == Pending
                 && a.store == s.(withdrawals := s.withdrawals[id := Rejected_(s.withdrawals[id], caller.value, q.reason, now)])
    ensures a.reply == Fail(500, BalanceUpdateFailed) ==>
              && caller.Some? && q.id.Some? && q.id.value in s.withdrawals && f.walletWriteFails
              && var id := q.id.value;
                 && a.store.users == s.users
                 && a.store.withdrawals == s.withdrawals[id :=
                      if f.rollbackFails then Approved_(s.withdrawals[id], caller.value, now)
                      else RolledBack(Approved_(s.withdrawals[id], caller.value, now))]
  {
    var admin := Access.GetAdminUser(caller, s.users, f.admin);
    if admin.None? then Refuse(s, 401, Unauthorized)
    else
      match ParseReview(q)
      case Fail(code, why) => Refuse(s, code, why)
      case Ok((id, action)) =>
        if f.fetchFails || id !in s.withdrawals then Refuse(s, 404, RecordNotFound)
        else
          var w := s.withdrawals[id];
          if w.status != Pending then Refuse(s, 400, AlreadyReviewed(w.status))
          else if action == Approve then
            if f.userReadFails || w.userId !in s.users then Refuse(s, 500, UserFetchFailed)
            else if BalanceOf(s, w.userId) < w.amount then Refuse(s, 400, InsufficientBalance)
            else if f.statusWriteFails then Refuse(s, 500, StatusUpdateFailed)
            else
              var marked := s.(withdrawals := s.withdrawals[id := Approved_(w, admin.value, now)]);
              if f.walletWriteFails then
                if f.rollbackFails then Answer(marked, Fail(500, BalanceUpdateFailed))
                else
                  Answer(s.(withdrawals := s.withdrawals[id := RolledBack(Approved_(w, admin.value, now))]),
                         Fail(500, BalanceUpdateFailed))
              else
                Answer(WithBalance(marked, w.userId, BalanceOf(s, w.userId) - w.amount), Ok(Approve))
          else
            if f.statusWriteFails then Refuse(s, 500, StatusUpdateFailed)
            else Answer(s.(withdrawals := s.withdrawals[id := Rejected_(w, admin.value, q.reason, now)]), Ok(Reject))
  }

  /** Approval with too little money is refused before any write. */
  lemma ApproveNeedsBalance(s: Store, caller: Option<Id>, id: Id, now: int, f: ReviewFaults)
    requires Access.IsAdmin(caller, s.users, f.admin) && !f.fetchFails && !f.userReadFails
    requires id in s.withdrawals && s.withdrawals[id].status == Pending && id != ""
    requires s.withdrawals[id].userId in s.users
    requires BalanceOf(s, s.withdrawals[id].userId) < s.withdrawals[id].amount
    ensures ReviewWithdrawal(s, caller, ReviewRequest(Some(id), Some("approve"), None), now, f)
            == Answer(s, Fail(400, InsufficientBalance))
  {
    Access.GetAdminUserAgreesWithIsAdmin(caller, s.users, f.admin);
  }

  /** A reviewed row cannot be reviewed again: after a successful review, a
      second request for the same row, with any action, is refused with
      "already approved" or "already rejected" and changes nothing. So an
      approval debits the balance at most once. */
  lemma ReviewIsFinal(s: Store, caller: Option<Id>, q: ReviewRequest, q2: ReviewRequest,
                      now: int, later: int, f: ReviewFaults, g: ReviewFaults)
    requires ReviewWithdrawal(s, caller, q, now, f).reply.Ok?
    requires q2.id == q.id && !g.fetchFails
    requires Access.IsAdmin(caller, ReviewWithdrawal(s, caller, q, now, f).store.users, g.admin)
    requires ParseReview(q2).Ok?
    ensures var a := ReviewWithdrawal(s, caller, q, now, f);
            var st := if a.reply.body == Approve then Approved else Rejected;
            ReviewWithdrawal(a.store, caller, q2, later, g) == Answer(a.store, Fail(400, AlreadyReviewed(st)))
  {
    var a := ReviewWithdrawal(s, caller, q, now, f);
    Access.GetAdminUserAgreesWithIsAdmin(caller, a.store.users, g.admin);
  }

  /** The compensation is itself unchecked: if the debit and then the rollback
      both fail, the row reads `approved` although nothing was debited. */
  lemma ApprovedWithoutDebit(s: Store, caller: Option<Id>, id: Id, now: int, f: ReviewFaults)
    requires Access.IsAdmin(caller, s.users, f.admin) && !f.fetchFails && !f.userReadFails
    requires !f.statusWriteFails && f.walletWriteFails && f.rollbackFails
    requires id in s.withdrawals && s.withdrawals[id].status == Pending && id != ""
    requires s.withdrawals[id].userId in s.users
    requires BalanceOf(s, s.withdrawals[id].userId) >= s.withdrawals[id].amount
    ensures var a := ReviewWithdrawal(s, caller, ReviewRequest(Some(id), Some("approve"), None), now, f);
            && a.reply == Fail(500, BalanceUpdateFailed)
            && a.store.withdrawals[id].status == Approved
            && a.store.users == s.users
  {
    Access.GetAdminUserAgreesWithIsAdmin(caller, s.users, f.admin);
  }
}

=== FILE: bank_account.dfy ===
/** The saved payout account: `GET` and `POST /api/bank-account`. The POST
    validates the method, name and phone number, asks for the withdrawal
    password when an account is already saved, and stores the phone number
    normalised to its last nine digits. */
module BankAccount {
  import opened Common
  import opened Ledger

  /** The POST body. */
  datatype BankRequest = BankRequest(
    paymentMethod: Option<string>,
    accountName: Option<string>,
    accountPhone: Option<string>,
    password: Option<string>)

  /** The two accepted payment methods, spelled exactly. */
  predicate IsPaymentMethod(m: string) {
    m == "MTN" || m == "Airtel"
  }

  /** `!x || x.trim().length === 0`: absent, empty or white space only. */
  predicate BlankField(x: Option<string>) {
    !Truthy(x) || |Trim(x.value)| == 0
  }

  /** A digit string has the length of a Rwandan mobile number, with or
      without its leading 0. */
  predicate PhoneLength(digits: string) {
    9 <= |digits| <= 10
  }

  /** The checks on the body alone, first failure wins. */
  function FieldCheck(q: BankRequest): (r: Option<Reason>)
    ensures r == Some(PaymentMethodRequired) <==> !Truthy(q.paymentMethod)
    ensures r == Some(InvalidPaymentMethod) <==> Truthy(q.paymentMethod) && !IsPaymentMethod(q.paymentMethod.value)
    ensures r.None? <==>
              q.paymentMethod.Some? && IsPaymentMethod(q.paymentMethod.value)
              && !BlankField(q.accountName) && !BlankField(q.accountPhone)
              && PhoneLength(Digits(q.accountPhone.value))
    ensures r.Some? ==> r.value in {PaymentMethodRequired, InvalidPaymentMethod, AccountNameRequired,
                                    PhoneRequired, PhoneDigitCount}
  {
    if !Truthy(q.paymentMethod) then Some(PaymentMethodRequired)
    else if !IsPaymentMethod(q.paymentMethod.value) then Some(InvalidPaymentMethod)
    else if BlankField(q.accountName) then Some(AccountNameRequired)
    else if BlankField(q.accountPhone) then Some(PhoneRequired)
    else if !PhoneLength(Digits(q.accountPhone.value)) then Some(PhoneDigitCount)
    else None
  }

  /** `phoneDigits.length === 9 ? phoneDigits : phoneDigits.slice(-9)`: the
      last nine digits. */
  function NormalizePhone(digits: string): (r: string)
    requires PhoneLength(digits)
    ensures |r| == 9
    ensures digits == digits[..|digits| - 9] + r
  {
    if |digits| == 9 then digits else digits[|digits| - 9..]
  }

  /** Normalising is idempotent, and the stored number is all digits, so
      stripping its non-digits again changes nothing. */
  lemma NormalizePhoneIdempotent(phone: string)
    requires PhoneLength(Digits(phone))
    ensures var r := NormalizePhone(Digits(phone));
            Digits(r) == r && PhoneLength(r) && NormalizePhone(r) == r
  {
    var d := Digits(phone);
    var r := NormalizePhone(d);
    assert forall i :: 0 <= i < |r| ==> r[i] == d[|d| - 9 + i];
    DigitsOfDigits(r);
  }

  /** The password gate for changing a saved account. No saved method (or a
      failed lookup, whose error is ignored) means a first save: no password. */
  function PasswordGate(saved: Option<User>, password: Option<string>): (r: Option<(int, Reason)>)
    ensures (saved.None? || !Truthy(saved.value.paymentMethod)) ==> r.None?
    ensures saved.Some? && Truthy(saved.value.paymentMethod) && !Truthy(password) ==>
              r == Some((400, PasswordRequired))
    ensures r.None? && saved.Some? && Truthy(saved.value.paymentMethod) ==>
              Truthy(password) && saved.value.withdrawalPassword == password
    ensures (saved.Some? && Truthy(saved.value.paymentMethod) && Truthy(password)
             && saved.value.withdrawalPassword != password) ==> r == Some((401, WrongPassword))
  {
    if saved.None? || !Truthy(saved.value.paymentMethod) then None
    else if !Truthy(password) then Some((400, PasswordRequired))
    else if !Truthy(saved.value.withdrawalPassword) || saved.value.withdrawalPassword.value != password.value then
      Some((401, WrongPassword))
    else None
  }

  /** The success body: what was saved. */
  datatype Saved = Saved(paymentMethod: string, accountName: string, accountPhone: string)

  /** The user row with the three account columns replaced. */
  function WithAccount(u: User, v: Saved): (u': User)
    ensures u'.paymentMethod == Some(v.paymentMethod) && u'.accountName == Some(v.accountName)
    ensures u'.accountPhone == Some(v.accountPhone)
    ensures u'.balance == u.balance && u'.rechargeWallet == u.rechargeWallet
    ensures u'.totalRecharge == u.totalRecharge && u'.withdrawalPassword == u.withdrawalPassword
    ensures u'.isAdmin == u.isAdmin && u'.isActive == u.isActive
  {
    u.(paymentMethod := Some(v.paymentMethod), accountName := Some(v.accountName),
       accountPhone := Some(v.accountPhone))
  }

  /** `POST /api/bank-account`. An update that matches no row is not an
      error, so a caller without a row gets a success that wrote nothing. */
  function SaveAccount(s: Store, caller: Option<Id>, q: BankRequest, lookupFails: bool,
                       updateFails: bool): (a: Answer<Saved>)
    ensures caller.None? ==> a == Answer(s, Fail(401, Unauthorized))
    ensures caller.Some? && FieldCheck(q).Some? ==> a == Answer(s, Fail(400, FieldCheck(q).value))
    ensures a.reply.Fail? ==> a.store == s
    ensures a.reply.Ok? ==>
              && caller.Some? && FieldCheck(q).None?
              && a.reply.body.paymentMethod == q.paymentMethod.value
              && a.reply.body.accountName == Trim(q.accountName.value)
              && a.reply.body.accountPhone == NormalizePhone(Digits(q.accountPhone.value))
              && |a.reply.body.accountPhone| == 9
              && a.store == (if caller.value in s.users
                             then s.(users := s.users[caller.value := WithAccount(s.users[caller.value], a.reply.body)])
                             else s)
    // changing a saved account needs the matching withdrawal password
    ensures a.reply.Ok? && !lookupFails && caller.value in s.users && Truthy(s.users[caller.value].paymentMethod) ==>
              Truthy(q.password) && s.users[caller.value].withdrawalPassword == q.password
  {
    if caller.None? then Refuse(s, 401, Unauthorized)
    else if FieldCheck(q).Some? then Refuse(s, 400, FieldCheck(q).value)
    else
      var u := caller.value;
      var saved := if lookupFails || u !in s.users then None else Some(s.users[u]);
      var gate := PasswordGate(saved, q.password);
      if gate.Some? then Refuse(s, gate.value.0, gate.value.1)
      else
        var v := Saved(q.paymentMethod.value, Trim(q.accountName.value),
                       NormalizePhone(Digits(q.accountPhone.value)));
        if updateFails then Refuse(s, 500, UpdateFailed)
        else if u in s.users then Answer(s.(users := s.users[u := WithAccount(s.users[u], v)]), Ok(v))
        else Answer(s, Ok(v))
  }

  /** The GET body: each column, with an empty or missing value as null. */
  datatype AccountView = AccountView(
    paymentMethod: Option<string>, accountName: Option<string>, accountPhone: Option<string>)

  /** `GET /api/bank-account`. */
  function ShowAccount(s: Store, caller: Option<Id>, readFails: bool): (r: Reply<AccountView>)
    ensures caller.None? ==> r == Fail(401, Unauthorized)
    ensures r.Ok? <==> caller.Some? && !readFails && caller.value in s.users
    ensures r.Ok? ==>
              var u := s.users[caller.value];
              && (r.body.paymentMethod.Some? <==> Truthy(u.paymentMethod))
              && (r.body.accountName.Some? <==> Truthy(u.accountName))
              && (r.body.accountPhone.Some? <==> Truthy(u.accountPhone))
              && (r.body.paymentMethod.Some? ==> r.body.paymentMethod == u.paymentMethod)
              && (r.body.accountName.Some? ==> r.body.accountName == u.accountName)
              && (r.body.accountPhone.Some? ==> r.body.accountPhone == u.accountPhone)
  {
    if caller.None? then Fail(401, Unauthorized)
    else if readFails || caller.value !in s.users then Fail(500, FetchFailed)
    else
      var u := s.users[caller.value];
      Ok(AccountView(NullIfEmpty(u.paymentMethod), NullIfEmpty(u.accountName), NullIfEmpty(u.accountPhone)))
  }

  /** What a successful save stores is what the next GET shows. */
  lemma SaveThenShow(s: Store, u: Id, q: BankRequest, lookupFails: bool)
    requires u in s.users
    requires SaveAccount(s, Some(u), q, lookupFails, false).reply.Ok?
    ensures var a := SaveAccount(s, Some(u), q, lookupFails, false);
            ShowAccount(a.store, Some(u), false)
            == Ok(AccountView(Some(a.reply.body.paymentMethod), Some(a.reply.body.accountName),
                              Some(a.reply.body.accountPhone)))
  {
  }
}

=== FILE: bank_account_page.dfy ===
/** The bank-account page: how a saved number is displayed, the form's
    validation before it posts, and the cancel button. */
module BankAccountPage {
  import opened Common
  import opened Ledger
  import BankAccount

  /** `formatPhoneNumber`: nothing for a missing number, `+250` and the
      digits when there are exactly nine, otherwise the number as given. */
  function FormatPhone(phone: Option<string>): (r: string)
    ensures !Truthy(phone) ==> r == ""
    ensures Truthy(phone) && |Digits(phone.value)| == 9 ==> r == "+250" + Digits(phone.value) && |r| == 13
    ensures Truthy(phone) && |Digits(phone.value)| != 9 ==> r == phone.value
  {
    if !Truthy(phone) then ""
    else
      var digits := Digits(phone.value);
      if |digits| == 9 then "+250" + digits else phone.value
  }

  /** Every number the route stores is displayed in the `+250` form. */
  lemma StoredPhoneDisplaysWithCountryCode(s: Store, u: Id, q: BankAccount.BankRequest, lookupFails: bool)
    requires BankAccount.SaveAccount(s, Some(u), q, lookupFails, false).reply.Ok?
    ensures var stored := BankAccount.SaveAccount(s, Some(u), q, lookupFails, false).reply.body.accountPhone;
            FormatPhone(Some(stored)) == "+250" + stored
  {
    BankAccount.NormalizePhoneIdempotent(q.accountPhone.value);
  }

  /** The form state. */
  datatype Form = Form(
    paymentMethod: string, accountName: string, phone: string, password: string,
    isEditing: bool, error: Option<string>)

  /** What pressing "save" does: refuse with a message, or post a body. */
  datatype Submission = Invalid(reason: Reason) | Send(body: BankAccount.BankRequest)

  /** `handleSubmit`: method, then trimmed name, then trimmed phone, then the
      9-10 digit count, then a password only when editing. The body carries
      the trimmed fields, and no password outside edit mode. */
  function Submit(f: Form): (r: Submission)
    ensures r.Send? <==>
              f.paymentMethod != "" && Trim(f.accountName) != "" && Trim(f.phone) != ""
              && 9 <= |Digits(f.phone)| <= 10 && (f.isEditing ==> f.password != "")
    ensures f.paymentMethod == "" ==> r == Invalid(PaymentMethodRequired)
    ensures r.Send? ==>
              && r.body.accountName == Some(Trim(f.accountName))
              && r.body.accountPhone == Some(Trim(f.phone))
              && r.body.password == (if f.isEditing then Some(f.password) else None)
  {
    if f.paymentMethod == "" then Invalid(PaymentMethodRequired)
    else if Trim(f.accountName) == "" then Invalid(AccountNameRequired)
    else if Trim(f.phone) == "" then Invalid(PhoneRequired)
    else if !(9 <= |Digits(f.phone)| <= 10) then Invalid(PhoneDigitCount)
    else if f.isEditing && f.password == "" then Invalid(PasswordRequired)
    else
      Send(BankAccount.BankRequest(Some(f.paymentMethod), Some(Trim(f.accountName)), Some(Trim(f.phone)),
                                   if f.isEditing then Some(f.password) else None))
  }

  /** With the method chosen from the page's two options, everything the page
      sends passes the route's field checks: the page checks the same things
      first, and trimming again or stripping the same digits changes nothing. */
  lemma PageBodyPassesRouteChecks(f: Form)
    requires f.paymentMethod in {"", "MTN", "Airtel"}
    requires Submit(f).Send?
    ensures BankAccount.FieldCheck(Submit(f).body).None?
  {
    TrimProperties(f.accountName);
    TrimProperties(f.phone);
    DigitsOfTrim(f.phone);
  }

  /** `handleCancel`: restore the saved fields (when they have been loaded),
      clear the password and the error, and leave edit mode. */
  function Cancel(f: Form, saved: Option<BankAccount.AccountView>): (r: Form)
    ensures !r.isEditing && r.password == "" && r.error.None?
    ensures saved.Some? ==>
              && r.paymentMethod == OrElse(saved.value.paymentMethod, "")
              && r.accountName == OrElse(saved.value.accountName, "")
              && r.phone == OrElse(saved.value.accountPhone, "")
    ensures saved.None? ==>
              r.paymentMethod == f.paymentMethod && r.accountName == f.accountName && r.phone == f.phone
  {
    var restored :=
      if saved.Some? then
        f.(paymentMethod := OrElse(saved.value.paymentMethod, ""),
           accountName := OrElse(saved.value.accountName, ""),
           phone := OrElse(saved.value.accountPhone, ""))
      else f;
    restored.(isEditing := false, password := "", error := None)
  }

  /** Cancelling twice is cancelling once, and what a cancel leaves does not
      depend on what had been typed when the saved account is known. */
  lemma CancelIsIdempotent(f: Form, g: Form, saved: Option<BankAccount.AccountView>)
    ensures Cancel(Cancel(f, saved), saved) == Cancel(f, saved)
    ensures saved.Some? ==> Cancel(f, saved) == Cancel(g, saved)
  {
  }
}

=== FILE: checkin.dfy ===
/** The daily check-in: `POST /api/checkin`. A user may check in once per local
    calendar day; the reward is 50 RWF plus 20 RWF per referral. The check-in
    row is inserted first and the balance credited afterwards, with no
    compensation if the credit fails. */
module DailyCheckIn {
  import opened Common
  import opened Ledger

  const BaseReward: int := 50
  const ReferralBonus: int := 20

  /** `50 + referralCount * 20`; the check-in page shows the same figure. */
  function Reward(referrals: nat): (r: int)
    ensures r >= BaseReward
    ensures r == BaseReward + ReferralBonus * referrals
  {
    BaseReward + referrals * ReferralBonus
  }

  /** `u` has a check-in whose local calendar day is `day`. `dayOf` maps a
      timestamp to its local day: the window [today 00:00, tomorrow 00:00). */
  predicate CheckedInOn(checkins: map<Id, CheckIn>, u: Id, dayOf: int -> int, day: int) {
    exists id :: id in checkins && checkins[id].userId == u && dayOf(checkins[id].createdAt) == day
  }

  /** The success body. */
  datatype CheckInReceipt = CheckInReceipt(
    reward: int, baseReward: int, bonusReward: int, referralCount: nat, newBalance: int)

  /** The store calls that may fail. The error of the "already today?" query
      is never looked at: a failed query reads as "no check-in yet". */
  datatype CheckInFaults = CheckInFaults(
    windowReadFails: bool, userReadFails: bool, referralsReadFails: bool,
    insertFails: bool, balanceWriteFails: bool)

  const NoCheckInFaults: CheckInFaults := CheckInFaults(false, false, false, false, false)

  /** `POST /api/checkin` at time `now`, for a caller with `referrals`
      referral rows; `newId` is the id the database gives the new row. */
  function DoCheckIn(s: Store, caller: Option<Id>, now: int, dayOf: int -> int, referrals: nat,
                     newId: Id, f: CheckInFaults): (a: Answer<CheckInReceipt>)
    requires newId !in s.checkins
    ensures caller.None? ==> a == Answer(s, Fail(401, Unauthorized))
    ensures caller.Some? && !f.windowReadFails && CheckedInOn(s.checkins, caller.value, dayOf, dayOf(now)) ==>
              a == Answer(s, Fail(400, AlreadyCheckedIn))
    ensures a.reply.Fail? && a.reply.reason != BalanceUpdateFailed ==> a.store == s
    // the row is written before the credit and stays when the credit fails
    ensures a.reply == Fail(500, BalanceUpdateFailed) ==>
              && caller.Some? && f.balanceWriteFails
              && a.store == s.(checkins := s.checkins[newId := CheckIn(caller.value, Reward(referrals), now)])
    ensures a.reply.Ok? ==>
              && caller.Some? && caller.value in s.users
              && a.store == WithBalance(s, caller.value, BalanceOf(s, caller.value) + Reward(referrals))
                              .(checkins := s.checkins[newId := CheckIn(caller.value, Reward(referrals), now)])
              && a.reply.body.reward == Reward(referrals)
              && a.reply.body.baseReward + a.reply.body.bonusReward == a.reply.body.reward
              && a.reply.body.newBalance == BalanceOf(s, caller.value) + a.reply.body.reward
    ensures a.reply.Ok? <==>
              caller.Some? && (f.windowReadFails || !CheckedInOn(s.checkins, caller.value, dayOf, dayOf(now)))
              && !f.userReadFails && caller.value in s.users && !f.referralsReadFails
              && !f.insertFails && !f.balanceWriteFails
  {
    if caller.None? then Refuse(s, 401, Unauthorized)
    else
      var u := caller.value;
      if !f.windowReadFails && CheckedInOn(s.checkins, u, dayOf, dayOf(now)) then Refuse(s, 400, AlreadyCheckedIn)
      else if f.userReadFails || u !in s.users then Refuse(s, 500, UserFetchFailed)
      else if f.referralsReadFails then Refuse(s, 500, ReferralsFetchFailed)
      else
        var reward := Reward(referrals);
        if f.insertFails then Refuse(s, 500, InsertFailed)
        else
          var recorded := s.(checkins := s.checkins[newId := CheckIn(u, reward, now)]);
          if f.balanceWriteFails then Answer(recorded, Fail(500, BalanceUpdateFailed))
          else
            var newBalance := BalanceOf(s, u) + reward;
            Answer(WithBalance(recorded, u, newBalance),
                   Ok(CheckInReceipt(reward, BaseReward, referrals * ReferralBonus, referrals, newBalance)))
  }

  /** Once a check-in row exists for today, whether or not its credit went
      through, every later attempt on the same local day is refused and
      changes nothing. A failed credit is therefore a lost reward. */
  lemma OncePerDay(s: Store, u: Id, now: int, later: int, dayOf: int -> int, referrals: nat, n2: nat,
                   newId: Id, id2: Id, f: CheckInFaults)
    requires newId !in s.checkins && id2 !in s.checkins && id2 != newId
    requires dayOf(later) == dayOf(now)
    requires DoCheckIn(s, Some(u), now, dayOf, referrals, newId, f).reply.Ok?
             || DoCheckIn(s, Some(u), now, dayOf, referrals, newId, f).reply == Fail(500, BalanceUpdateFailed)
    ensures var s1 := DoCheckIn(s, Some(u), now, dayOf, referrals, newId, f).store;
            DoCheckIn(s1, Some(u), later, dayOf, n2, id2, NoCheckInFaults) == Answer(s1, Fail(400, AlreadyCheckedIn))
  {
    var s1 := DoCheckIn(s, Some(u), now, dayOf, referrals, newId, f).store;
    assert s1.checkins[newId].userId == u && dayOf(s1.checkins[newId].createdAt) == dayOf(later);
  }

  /** The unchecked window query opens a gap: when it fails, a second check-in
      on the same day is accepted and paid again. */
  lemma FailedWindowReadPaysTwice(s: Store, u: Id, now: int, later: int, dayOf: int -> int,
                                  referrals: nat, newId: Id, id2: Id)
    requires newId !in s.checkins && id2 !in s.checkins && id2 != newId
    requires u in s.users && dayOf(later) == dayOf(now)
    requires !CheckedInOn(s.checkins, u, dayOf, dayOf(now))
    ensures var s1 := DoCheckIn(s, Some(u), now, dayOf, referrals, newId, NoCheckInFaults).store;
            var a2 := DoCheckIn(s1, Some(u), later, dayOf, referrals, id2, NoCheckInFaults.(windowReadFails := true));
            && a2.reply.Ok?
            && BalanceOf(a2.store, u) == BalanceOf(s, u) + 2 * Reward(referrals)
  {
  }
}

=== FILE: checkin_page.dfy ===
/** The statistics of the check-in page: total earned, number of check-ins,
    the current streak of consecutive days, and the amount shown on a
    calendar day. Dates are local day numbers given by `dayOf`. */
module CheckInPage {
  import opened Common
  import opened Ledger
  import DailyCheckIn

  /** The distinct local days on which the list has a check-in (the keys of
      the page's date map). */
  function DaysOf(checkIns: seq<CheckIn>, dayOf: int -> int): (days: set<int>)
    ensures forall d :: d in days <==> exists i :: 0 <= i < |checkIns| && dayOf(checkIns[i].createdAt) == d
    ensures |days| <= |checkIns|
  {
    if |checkIns| == 0 then {}
    else
      var rest := DaysOf(checkIns[1..], dayOf);
      assert forall i :: 0 <= i < |checkIns| - 1 ==> checkIns[1..][i] == checkIns[i + 1];
      var r := {dayOf(checkIns[0].createdAt)} + rest;
      assert forall d :: d in r ==> exists i :: 0 <= i < |checkIns| && dayOf(checkIns[i].createdAt) == d by {
        forall d | d in r
          ensures exists i :: 0 <= i < |checkIns| && dayOf(checkIns[i].createdAt) == d
        {
          if d != dayOf(checkIns[0].createdAt) {
            var j :| 0 <= j < |checkIns[1..]| && dayOf(checkIns[1..][j].createdAt) == d;
            assert dayOf(checkIns[j + 1].createdAt) == d;
          }
        }
      }
      assert forall i :: 0 <= i < |checkIns| ==> dayOf(checkIns[i].createdAt) in r by {
        forall i | 0 <= i < |checkIns|
          ensures dayOf(checkIns[i].createdAt) in r
        {
          if i > 0 {
            assert checkIns[1..][i - 1] == checkIns[i];
          }
        }
      }
      r
  }

  /** The `n` consecutive days ending at `today`. */
  function DaysBack(today: int, n: nat): set<int> {
    if n == 0 then {} else DaysBack(today, n - 1) + {today - (n - 1)}
  }

  /** `DaysBack` holds exactly the days of the range, and has `n` of them. */
  lemma {:induction false} DaysBackRange(today: int, n: nat)
    ensures forall d :: d in DaysBack(today, n) <==> today - n < d <= today
    ensures |DaysBack(today, n)| == n
  {
    if n > 0 {
      DaysBackRange(today, n - 1);
      assert today - (n - 1) !in DaysBack(today, n - 1);
    }
  }

  /** The streak loop: count back from `today` while the day has a check-in.
      It stops at the first day without one, so it is 0 when today has none,
      even if yesterday has one. */
  method Streak(days: set<int>, today: int) returns (streak: nat)
    ensures forall d :: today - streak < d <= today ==> d in days
    ensures today - streak !in days
    ensures streak <= |days|
  {
    streak := 0;
    while today - streak in days
      invariant DaysBack(today, streak) <= days
      invariant streak <= |days|
      decreases |days| - streak
    {
      DaysBackRange(today, streak + 1);
      SubsetSize(DaysBack(today, streak + 1), days);
      streak := streak + 1;
    }
    DaysBackRange(today, streak);
  }

  lemma SubsetSize(a: set<int>, b: set<int>)
    requires a <= b
    ensures |a| <= |b|
  {
    assert b == a + (b - a);
  }

  /** The three figures of the statistics panel. */
  datatype Stats = Stats(totalEarnings: int, totalCheckIns: nat, streak: nat)

  function Amount(c: CheckIn): int {
    c.amount
  }

  /** The statistics effect: all zero for an empty list; otherwise the sum of
      the amounts, the number of rows (same-day duplicates each count) and the
      streak over the distinct days (duplicates count once). */
  method ComputeStats(checkIns: seq<CheckIn>, dayOf: int -> int, today: int) returns (st: Stats)
    ensures |checkIns| == 0 ==> st == Stats(0, 0, 0)
    ensures st.totalEarnings == SumBy(checkIns, Amount)
    ensures st.totalCheckIns == |checkIns|
    ensures forall d :: today - st.streak < d <= today ==> d in DaysOf(checkIns, dayOf)
    ensures today - st.streak !in DaysOf(checkIns, dayOf)
    ensures st.streak <= |DaysOf(checkIns, dayOf)| <= |checkIns|
  {
    if |checkIns| > 0 {
      var streak := Streak(DaysOf(checkIns, dayOf), today);
      st := Stats(SumBy(checkIns, Amount), |checkIns|, streak);
    } else {
      st := Stats(0, 0, 0);
    }
  }

  /** A second check-in on a day already present adds one to the count and
      its amount to the total, but leaves the streak unchanged. */
  lemma DuplicateDayCountsOnce(checkIns: seq<CheckIn>, c: CheckIn, dayOf: int -> int)
    requires exists i :: 0 <= i < |checkIns| && dayOf(checkIns[i].createdAt) == dayOf(c.createdAt)
    ensures DaysOf([c] + checkIns, dayOf) == DaysOf(checkIns, dayOf)
    ensures |[c] + checkIns| == |checkIns| + 1
    ensures SumBy([c] + checkIns, Amount) == c.amount + SumBy(checkIns, Amount)
  {
    assert ([c] + checkIns)[1..] == checkIns;
  }

  /** `getCheckInAmountForDate`: the amount of the first check-in (in list
      order) made on `day`, or 0 when there is none. */
  function AmountOn(checkIns: seq<CheckIn>, dayOf: int -> int, day: int): (r: int)
    ensures (forall i :: 0 <= i < |checkIns| ==> dayOf(checkIns[i].createdAt) != day) ==> r == 0
    ensures (exists i :: 0 <= i < |checkIns| && dayOf(checkIns[i].createdAt) == day) ==>
              exists i :: 0 <= i < |checkIns| && dayOf(checkIns[i].createdAt) == day
                          && (forall j :: 0 <= j < i ==> dayOf(checkIns[j].createdAt) != day)
                          && r == checkIns[i].amount
  {
    if |checkIns| == 0 then 0
    else if dayOf(checkIns[0].createdAt) == day then
      checkIns[0].amount
    else
      var r := AmountOn(checkIns[1..], dayOf, day);
      assert forall i :: 1 <= i < |checkIns| ==> checkIns[1..][i - 1] == checkIns[i];
      r
  }

  /** The reward the page advertises (`50 + referrals * 20`) is the one the
      check-in route pays. */
  lemma DailyRewardMatchesRoute(referrals: nat)
    ensures 50 + referrals * 20 == DailyCheckIn.Reward(referrals)
  {
  }
}

=== FILE: common.dfy ===
/** Shared vocabulary of the ledger model: optional values and JavaScript
    truthiness, whole-day arithmetic on millisecond timestamps, the string
    operations the routes use (digit stripping, lower-casing, `includes`,
    `trim`), and filters and sums over sequences. */
module Common {

  /** A nullable value (`null`/`undefined` is `None`). */
  datatype Option<+T> = None | Some(value: T) {
    function GetOr(default: T): T {
      match this
      case Some(v) => v
      case None => default
    }
  }

  /** A nullable numeric column read as `x || 0`. */
  function Num(o: Option<int>): int {
    o.GetOr(0)
  }

  /** JavaScript truthiness of an optional string: present and non-empty. */
  predicate Truthy(o: Option<string>) {
    o.Some? && |o.value| > 0
  }

  /** JavaScript truthiness of an optional number: present and non-zero. */
  predicate TruthyNum(o: Option<int>) {
    o.Some? && o.value != 0
  }

  /** `a || b` where `b` is a plain string. */
  function OrElse(a: Option<string>, b: string): (r: string)
    ensures Truthy(a) ==> r == a.value
    ensures !Truthy(a) ==> r == b
  {
    if Truthy(a) then a.value else b
  }

  /** `a || null` on an optional string: the empty string becomes null. */
  function NullIfEmpty(a: Option<string>): (r: Option<string>)
    ensures r.Some? <==> Truthy(a)
    ensures r.Some? ==> r == a
  {
    if Truthy(a) then a else None
  }

  function Min(a: int, b: int): int {
    if a <= b then a else b
  }

  function Max(a: int, b: int): int {
    if a >= b then a else b
  }

  // ---------------------------------------------------------------------
  // Whole days
  // ---------------------------------------------------------------------

  /** Milliseconds in a day, `1000 * 60 * 60 * 24`. */
  const DayMs: int := 86400000

  /** `Math.floor(ms / DayMs)`: the number of whole days in a (possibly
      negative) span of milliseconds. */
  function WholeDays(ms: int): (d: int)
    ensures d * DayMs <= ms < d * DayMs + DayMs
  {
    ms / DayMs
  }

  lemma WholeDaysMonotone(a: int, b: int)
    requires a <= b
    ensures WholeDays(a) <= WholeDays(b)
  {
  }

  /** Splitting a span never gains a whole day, and loses at most one. */
  lemma WholeDaysSplit(a: int, b: int)
    ensures WholeDays(a) + WholeDays(b) <= WholeDays(a + b) <= WholeDays(a) + WholeDays(b) + 1
  {
  }

  /** `Math.min((days / period) * 100, 100)` in JavaScript numbers, where
      `None` is a value that is not a finite number. A zero period divides to
      Infinity for positive days (capped to 100), to NaN for 0 days and to
      -Infinity for negative days (a creation time in the future). */
  function CappedPercent(days: int, period: int): (r: Option<real>)
    ensures r.None? <==> period == 0 && days <= 0
    ensures r.Some? ==> r.value <= 100.0
    ensures period == 0 && days > 0 ==> r == Some(100.0)
    // on a positive period the bar is full exactly when the period has passed
    ensures period > 0 ==> r.Some? && (r == Some(100.0) <==> days >= period)
    ensures period > 0 && days >= 0 ==> r.Some? && r.value >= 0.0
    ensures period < 0 && days >= 0 ==> r.Some? && r.value <= 0.0
  {
    if period == 0 then
      if days > 0 then Some(100.0) else None
    else
      var ratio := (days as real / period as real) * 100.0;
      if period > 0 then
        PercentReachesHundred(days, period);
        Some(if ratio < 100.0 then ratio else 100.0)
      else
        PercentOfNegativePeriod(days, period);
        Some(if ratio < 100.0 then ratio else 100.0)
  }

  lemma PercentOfNegativePeriod(days: int, period: int)
    requires period < 0
    ensures days >= 0 ==> (days as real / period as real) * 100.0 <= 0.0
  {
    var q := days as real / period as real;
    assert q * period as real == days as real;
  }

  lemma PercentReachesHundred(days: int, period: int)
    requires period > 0
    ensures (days as real / period as real) * 100.0 >= 100.0 <==> days >= period
    ensures days >= 0 ==> (days as real / period as real) * 100.0 >= 0.0
  {
    var q := days as real / period as real;
    assert q * period as real == days as real;
  }

  // ---------------------------------------------------------------------
  // Sequences: order-preserving filter, subsequences, sums
  // ---------------------------------------------------------------------

  /** `a` can be obtained from `b` by deleting elements. */
  predicate IsSubsequence<T(==)>(a: seq<T>, b: seq<T>)
    decreases |b|
  {
    |a| == 0 ||
    (|b| > 0 && ((a[0] == b[0] && IsSubsequence(a[1..], b[1..])) || IsSubsequence(a, b[1..])))
  }

  /** `xs.filter(keep)`: the elements satisfying `keep`, in their original order. */
  function Filter<T(==)>(xs: seq<T>, keep: T -> bool): (r: seq<T>)
    ensures |r| <= |xs|
    ensures forall i :: 0 <= i < |r| ==> keep(r[i])
    ensures forall x :: x in xs && keep(x) ==> x in r
    ensures forall x :: x in r ==> x in xs
    ensures IsSubsequence(r, xs)
  {
    if |xs| == 0 then []
    else if keep(xs[0]) then [xs[0]] + Filter(xs[1..], keep)
    else Filter(xs[1..], keep)
  }

  /** Filtering with a predicate that holds everywhere changes nothing. */
  lemma {:induction false} FilterAll<T>(xs: seq<T>, keep: T -> bool)
    requires forall i :: 0 <= i < |xs| ==> keep(xs[i])
    ensures Filter(xs, keep) == xs
  {
    if |xs| > 0 {
      FilterAll(xs[1..], keep);
    }
  }

  /** Filtering distributes over concatenation. */
  lemma {:induction false} FilterConcat<T>(xs: seq<T>, ys: seq<T>, keep: T -> bool)
    ensures Filter(xs + ys, keep) == Filter(xs, keep) + Filter(ys, keep)
  {
    if |xs| == 0 {
      assert xs + ys == ys;
    } else {
      assert (xs + ys)[1..] == xs[1..] + ys;
      FilterConcat(xs[1..], ys, keep);
    }
  }

  /** Filtering with a predicate that holds nowhere leaves nothing. */
  lemma {:induction false} FilterNone<T>(xs: seq<T>, keep: T -> bool)
    requires forall i :: 0 <= i < |xs| ==> !keep(xs[i])
    ensures Filter(xs, keep) == []
  {
    if |xs| > 0 {
      FilterNone(xs[1..], keep);
    }
  }

  /** A filter keeps every element exactly when the predicate holds everywhere. */
  lemma {:induction false} FilterKeepsAllIff<T>(xs: seq<T>, keep: T -> bool)
    ensures |Filter(xs, keep)| == |xs| <==> forall i :: 0 <= i < |xs| ==> keep(xs[i])
  {
    if |xs| > 0 {
      FilterKeepsAllIff(xs[1..], keep);
      if forall i :: 0 <= i < |xs| ==> keep(xs[i]) {
        assert forall i :: 0 <= i < |xs[1..]| ==> keep(xs[1..][i]) by {
          forall i | 0 <= i < |xs[1..]| ensures keep(xs[1..][i]) {
            assert xs[1..][i] == xs[i + 1];
          }
        }
      } else if keep(xs[0]) {
        var j :| 0 <= j < |xs| && !keep(xs[j]);
        assert xs[1..][j - 1] == xs[j];
      }
    }
  }

  /** Two complementary filters split the list: their lengths add up. */
  lemma {:induction false} FilterPartitionLength<T>(xs: seq<T>, p: T -> bool, q: T -> bool)
    requires forall i :: 0 <= i < |xs| ==> q(xs[i]) == !p(xs[i])
    ensures |Filter(xs, p)| + |Filter(xs, q)| == |xs|
  {
    if |xs| > 0 {
      FilterPartitionLength(xs[1..], p, q);
    }
  }

  /** `xs.reduce((sum, x) => sum + f(x), 0)`. */
  function SumBy<T>(xs: seq<T>, f: T -> int): int {
    if |xs| == 0 then 0 else f(xs[0]) + SumBy(xs[1..], f)
  }

  /** Accumulating from the left, as `reduce` does, gives the same sum. */
  lemma {:induction false} SumByAppend<T>(xs: seq<T>, x: T, f: T -> int)
    ensures SumBy(xs + [x], f) == SumBy(xs, f) + f(x)
  {
    if |xs| > 0 {
      assert (xs + [x])[1..] == xs[1..] + [x];
      SumByAppend(xs[1..], x, f);
    }
  }

  /** Summing a filtered list is summing the whole list with the rejected
      terms counted as 0. */
  lemma {:induction false} SumByFilterAsZeroes<T>(xs: seq<T>, keep: T -> bool, f: T -> int, g: T -> int)
    requires forall i :: 0 <= i < |xs| ==> g(xs[i]) == (if keep(xs[i]) then f(xs[i]) else 0)
    ensures SumBy(Filter(xs, keep), f) == SumBy(xs, g)
  {
    if |xs| > 0 {
      SumByFilterAsZeroes(xs[1..], keep, f, g);
    }
  }

  lemma {:induction false} SumByNonNegative<T>(xs: seq<T>, f: T -> int)
    requires forall i :: 0 <= i < |xs| ==> f(xs[i]) >= 0
    ensures SumBy(xs, f) >= 0
  {
    if |xs| > 0 {
      SumByNonNegative(xs[1..], f);
    }
  }

  /** With non-negative terms, the sum over a filtered list is at most the full sum. */
  lemma {:induction false} SumByFilterAtMost<T>(xs: seq<T>, keep: T -> bool, f: T -> int)
    requires forall i :: 0 <= i < |xs| ==> f(xs[i]) >= 0
    ensures SumBy(Filter(xs, keep), f) <= SumBy(xs, f)
  {
    if |xs| > 0 {
      SumByFilterAtMost(xs[1..], keep, f);
    }
  }

  /** Two complementary filters split the sum exactly. */
  lemma {:induction false} SumByPartition<T>(xs: seq<T>, p: T -> bool, q: T -> bool, f: T -> int)
    requires forall i :: 0 <= i < |xs| ==> q(xs[i]) == !p(xs[i])
    ensures SumBy(Filter(xs, p), f) + SumBy(Filter(xs, q), f) == SumBy(xs, f)
  {
    if |xs| > 0 {
      SumByPartition(xs[1..], p, q, f);
    }
  }

  // ---------------------------------------------------------------------
  // Strings
  // ---------------------------------------------------------------------

  /** `\d` in a JavaScript regular expression without the `u` flag. */
  predicate IsDigit(c: char) {
    '0' <= c <= '9'
  }

  /** `s.replace(/\D/g, '')`: the digits of `s`, in order. */
  function Digits(s: string): (r: string)
    ensures forall i :: 0 <= i < |r| ==> IsDigit(r[i])
    ensures IsSubsequence(r, s)
  {
    Filter(s, IsDigit)
  }

  /** Stripping the non-digits of an all-digit string changes nothing. */
  lemma DigitsOfDigits(s: string)
    requires forall i :: 0 <= i < |s| ==> IsDigit(s[i])
    ensures Digits(s) == s
  {
    FilterAll(s, IsDigit);
  }

  /** `toLowerCase` on one character (ASCII letters only). */
  function LowerChar(c: char): char {
    if 'A' <= c <= 'Z' then (c as int + 32) as char else c
  }

  /** `s.toLowerCase()` (ASCII letters only). */
  function Lower(s: string): (r: string)
    ensures |r| == |s|
    ensures forall i :: 0 <= i < |s| ==> r[i] == LowerChar(s[i])
  {
    seq(|s|, i requires 0 <= i < |s| => LowerChar(s[i]))
  }

  /** Lower-casing twice is lower-casing once. */
  lemma LowerIdempotent(s: string)
    ensures Lower(Lower(s)) == Lower(s)
  {
  }

  /** `sub` occurs in `s` starting at position `i`. */
  predicate OccursAt(s: string, sub: string, i: int) {
    0 <= i && i + |sub| <= |s| && s[i..i + |sub|] == sub
  }

  /** `s.includes(sub)`, searched from the left. */
  function Includes(s: string, sub: string): bool
    decreases |s|
  {
    if sub <= s then true
    else if |s| == 0 then false
    else Includes(s[1..], sub)
  }

  /** `Includes` holds exactly when `sub` occurs somewhere in `s`. */
  lemma {:induction false} IncludesIffOccurs(s: string, sub: string)
    ensures Includes(s, sub) <==> exists i :: OccursAt(s, sub, i)
    decreases |s|
  {
    if sub <= s {
      assert OccursAt(s, sub, 0);
    } else if |s| > 0 {
      IncludesIffOccurs(s[1..], sub);
      if Includes(s[1..], sub) {
        var i :| OccursAt(s[1..], sub, i);
        OccursShift(s, sub, i + 1);
      }
      if exists i :: OccursAt(s, sub, i) {
        var i :| OccursAt(s, sub, i);
        if i == 0 {
          OccursAtStart(s, sub);
        } else {
          OccursShift(s, sub, i);
        }
      }
    }
  }

  /** An occurrence at `0` is a prefix. */
  lemma OccursAtStart(s: string, sub: string)
    requires OccursAt(s, sub, 0)
    ensures sub <= s
  {
  }

  /** Occurrences in the tail are the occurrences after the first position. */
  lemma OccursShift(s: string, sub: string, i: int)
    requires |s| > 0 && i > 0
    ensures OccursAt(s, sub, i) <==> OccursAt(s[1..], sub, i - 1)
  {
    if i + |sub| <= |s| {
      assert s[1..][i - 1..i - 1 + |sub|] == s[i..i + |sub|];
    }
  }

  /** A string that never contains the first character of `sub` does not
      include `sub`. */
  lemma {:induction false} NotIncludedWithoutFirstChar(s: string, sub: string)
    requires |sub| > 0
    requires forall i :: 0 <= i < |s| ==> s[i] != sub[0]
    ensures !Includes(s, sub)
    decreases |s|
  {
    if |s| > 0 {
      assert s[0] != sub[0];
      assert forall i :: 0 <= i < |s[1..]| ==> s[1..][i] == s[i + 1];
      NotIncludedWithoutFirstChar(s[1..], sub);
    }
  }

  /** The empty string is included in every string. */
  lemma IncludesEmpty(s: string)
    ensures Includes(s, "")
  {
  }

  /** Characters removed by JavaScript's `String.prototype.trim`. */
  predicate IsSpace(c: char) {
    c == ' ' || c == '\t' || c == '\n' || c == '\r' || c == '\U{000B}' || c == '\U{000C}'
    || c == '\U{00A0}' || c == '\U{1680}' || ('\U{2000}' <= c <= '\U{200A}')
    || c == '\U{2028}' || c == '\U{2029}' || c == '\U{202F}' || c == '\U{205F}'
    || c == '\U{3000}' || c == '\U{FEFF}'
  }

  /** Every character of `s` is white space (the empty string included). */
  predicate Blank(s: string) {
    forall i :: 0 <= i < |s| ==> IsSpace(s[i])
  }

  /** The number of leading white-space characters of `s`. */
  function LeadingSpaces(s: string): (n: nat)
    ensures n <= |s|
    ensures forall i :: 0 <= i < n ==> IsSpace(s[i])
    ensures n < |s| ==> !IsSpace(s[n])
  {
    if |s| > 0 && IsSpace(s[0]) then 1 + LeadingSpaces(s[1..]) else 0
  }

  /** The number of trailing white-space characters of `s`. */
  function TrailingSpaces(s: string): (n: nat)
    ensures n <= |s|
    ensures forall i :: |s| - n <= i < |s| ==> IsSpace(s[i])
    ensures n < |s| ==> !IsSpace(s[|s| - n - 1])
  {
    if |s| > 0 && IsSpace(s[|s| - 1]) then 1 + TrailingSpaces(s[..|s| - 1]) else 0
  }

  function TrimStart(s: string): string {
    s[LeadingSpaces(s)..]
  }

  function TrimEnd(s: string): string {
    s[..|s| - TrailingSpaces(s)]
  }

  /** `s.trim()`: `s` without leading and trailing white space. */
  function Trim(s: string): (r: string)
    ensures |r| <= |s|
    ensures |r| > 0 ==> !IsSpace(r[0]) && !IsSpace(r[|r| - 1])
  {
    TrimEnd(TrimStart(s))
  }

  /** White space holds no digits, so trimming first does not change the
      digits of a string. */
  lemma DigitsOfTrim(s: string)
    ensures Digits(Trim(s)) == Digits(s)
  {
    var a := LeadingSpaces(s);
    var t := s[a..];
    var b := TrailingSpaces(t);
    var head, mid, tail := s[..a], t[..|t| - b], t[|t| - b..];
    assert Trim(s) == mid;
    assert Blank(head);
    assert Blank(tail) by {
      forall i | 0 <= i < |tail|
        ensures IsSpace(tail[i])
      {
        assert tail[i] == t[|t| - b + i];
      }
    }
    assert s == head + (mid + tail);
    DigitsAroundBlanks(head, mid, tail);
  }

  /** White space on either side adds no digits. */
  lemma DigitsAroundBlanks(head: string, mid: string, tail: string)
    requires Blank(head) && Blank(tail)
    ensures Digits(head + (mid + tail)) == Digits(mid)
  {
    NoDigitsInSpace(head);
    NoDigitsInSpace(tail);
    FilterConcat(head, mid + tail, IsDigit);
    FilterConcat(mid, tail, IsDigit);
    assert Filter(head, IsDigit) + Filter(mid + tail, IsDigit) == Filter(mid + tail, IsDigit);
    assert Filter(mid, IsDigit) + Filter(tail, IsDigit) == Filter(mid, IsDigit);
  }

  lemma NoDigitsInSpace(w: string)
    requires Blank(w)
    ensures Filter(w, IsDigit) == []
  {
    forall i | 0 <= i < |w|
      ensures !IsDigit(w[i])
    {
      assert IsSpace(w[i]);
    }
    FilterNone(w, IsDigit);
  }

  /** Trimming gives the empty string exactly for blank input, and trimming
      twice is trimming once. */
  lemma TrimProperties(s: string)
    ensures Trim(s) == "" <==> Blank(s)
    ensures Trim(Trim(s)) == Trim(s)
  {
    var a := TrimStart(s);
    if a == "" {
      assert s[..|s|] == s;
    } else {
      assert !IsSpace(s[|s| - |a|]);
    }
    var r := TrimEnd(a);
    if |r| > 0 {
      assert TrimStart(r) == r;
      assert TrimEnd(r) == r;
    }
  }
}

=== FILE: invest.dfy ===
/** Buying a product: `POST /api/invest`. The request is validated, weekend-only
    products are gated on the day of the week in Kigali, the wallet type is
    checked, and then the investment row is inserted before the balance is
    debited; a failed debit deletes the row again (without checking that the
    delete worked). */
module Invest {
  import opened Common
  import opened Ledger

  /** The JSON body. Every field may be absent; numbers are whole numbers. */
  datatype InvestRequest = InvestRequest(
    productId: Option<string>,
    productName: Option<string>,
    price: Option<int>,
    purchaseCount: Option<int>,
    dailyIncome: Option<int>,
    incomePeriod: Option<int>,
    walletType: Option<string>)

  /** `!productId || !productName || ... || !walletType` fails: every field is
      present and truthy (non-empty, non-zero). */
  predicate HasAllFields(q: InvestRequest) {
    Truthy(q.productId) && Truthy(q.productName) && TruthyNum(q.price)
    && TruthyNum(q.purchaseCount) && TruthyNum(q.dailyIncome) && TruthyNum(q.incomePeriod)
    && Truthy(q.walletType)
  }

  /** The "Super Weekend" test: the id starts with `vaccine`, or its lower-cased
      form contains `vaccine`. */
  predicate IsWeekendProduct(productId: string) {
    "vaccine" <= productId || Includes(Lower(productId), "vaccine")
  }

  /** The first disjunct of the weekend test adds nothing: the predicate is
      exactly "the lower-cased id contains `vaccine`". */
  lemma WeekendProductIsLowerCaseMatch(productId: string)
    ensures IsWeekendProduct(productId) <==> Includes(Lower(productId), "vaccine")
  {
    if "vaccine" <= productId {
      var l := Lower(productId);
      assert l[..7] == "vaccine" by {
        forall i | 0 <= i < 7
          ensures l[i] == "vaccine"[i]
        {
          assert l[i] == LowerChar(productId[i]);
        }
      }
      assert "vaccine" <= l;
    }
  }

  /** Saturday (6) or Sunday (0), as `Date.getDay()` numbers the days. */
  predicate IsWeekend(weekday: int) {
    weekday == 0 || weekday == 6
  }

  /** `price * purchaseCount`. */
  function TotalAmount(q: InvestRequest): int {
    Num(q.price) * Num(q.purchaseCount)
  }

  /** `dailyIncome * incomePeriod * purchaseCount`, stored as `total_income`. */
  function TotalIncome(q: InvestRequest): int {
    Num(q.dailyIncome) * Num(q.incomePeriod) * Num(q.purchaseCount)
  }

  /** Store calls that may fail: the balance read, the insert, the debit and
      the compensating delete. */
  datatype InvestFaults = InvestFaults(
    userReadFails: bool, insertFails: bool, debitFails: bool, deleteFails: bool)

  /** The success body: the stored investment and the caller's new balance. */
  datatype Receipt = Receipt(investment: Investment, newBalance: int)

  /** The row the route inserts: `active`, created now, never processed. */
  function NewInvestment(id: Id, owner: Id, q: InvestRequest, now: int): (inv: Investment)
    ensures inv.id == id && inv.userId == owner && inv.status == Active
    ensures inv.amount == TotalAmount(q) && inv.totalIncome == TotalIncome(q)
    ensures inv.purchaseCount == Num(q.purchaseCount) && inv.dailyIncome == Num(q.dailyIncome)
    ensures inv.incomePeriod == Num(q.incomePeriod)
    ensures inv.createdAt == now && inv.updatedAt.None?
  {
    Investment(id, owner, q.productId.GetOr(""), q.productName.GetOr(""), TotalAmount(q),
               Num(q.purchaseCount), Num(q.dailyIncome), Num(q.incomePeriod), TotalIncome(q),
               Active, now, None)
  }

  /** The request checks that precede any read, in source order. */
  function Validate(q: InvestRequest, weekday: int): (r: Option<Reason>)
    ensures r == Some(MissingFields) <==> !HasAllFields(q)
    ensures r == Some(PurchaseCountBelowOne) <==> HasAllFields(q) && q.purchaseCount.value < 1
    ensures r == Some(WeekendOnly) <==>
              HasAllFields(q) && q.purchaseCount.value >= 1
              && IsWeekendProduct(q.productId.value) && !IsWeekend(weekday)
    ensures r.None? <==>
              HasAllFields(q) && q.purchaseCount.value >= 1
              && (IsWeekendProduct(q.productId.value) ==> IsWeekend(weekday))
  {
    if !HasAllFields(q) then Some(MissingFields)
    else if q.purchaseCount.value < 1 then Some(PurchaseCountBelowOne)
    else if IsWeekendProduct(q.productId.value) && !IsWeekend(weekday) then Some(WeekendOnly)
    else None
  }

  /** The wallet rule: `balance` needs enough money (equality allowed),
      `recharge` is always turned away to the recharge page, and any other
      wallet type is invalid. */
  function WalletCheck(walletType: string, balance: int, total: int): (r: Option<Reason>)
    ensures r.None? <==> walletType == "balance" && balance >= total
    ensures walletType == "recharge" ==> r == Some(RechargeWalletFirst("/recharge"))
    ensures walletType != "balance" && walletType != "recharge" ==> r == Some(InvalidWalletType)
    ensures walletType == "balance" && balance < total ==> r == Some(InsufficientBalance)
  {
    if walletType == "balance" then
      if balance < total then Some(InsufficientBalance) else None
    else if walletType == "recharge" then Some(RechargeWalletFirst("/recharge"))
    else Some(InvalidWalletType)
  }

  /** `POST /api/invest`. `caller` is the signed-in user, `weekday` the Kigali
      day of the week, `now` the insert time, `newId` the id the database
      gives the new row. */
  function CreateInvestment(s: Store, caller: Option<Id>, q: InvestRequest, weekday: int,
                            now: int, newId: Id, f: InvestFaults): (a: Answer<Receipt>)
    requires newId !in s.investments
    ensures caller.None? ==> a == Answer(s, Fail(401, Unauthorized))
    ensures caller.Some? && Validate(q, weekday).Some? ==>
              a == Answer(s, Fail(400, Validate(q, weekday).value))
    ensures caller.Some? && Validate(q, weekday).None? && (f.userReadFails || caller.value !in s.users) ==>
              a == Answer(s, Fail(500, UserFetchFailed))
    // every refusal before the insert leaves the store as it was
    ensures a.reply.Fail? && a.reply.reason != BalanceUpdateFailed ==> a.store == s
    ensures a.reply.Ok? ==>
              && caller.Some? && caller.value in s.users
              && Validate(q, weekday).None? && q.walletType.value == "balance"
              && a.reply.body.newBalance == BalanceOf(s, caller.value) - TotalAmount(q) >= 0
              && a.reply.body.investment == NewInvestment(newId, caller.value, q, now)
              && a.store == WithBalance(s, caller.value, a.reply.body.newBalance)
                              .(investments := s.investments[newId := a.reply.body.investment])
    // a failed debit leaves the balance alone; the row goes away unless the delete fails too
    ensures a.reply == Fail(500, BalanceUpdateFailed) ==>
              && caller.Some? && f.debitFails && a.store.users == s.users
              && a.store.investments ==
                 (if f.deleteFails then s.investments[newId := NewInvestment(newId, caller.value, q, now)]
                  else s.investments)
    ensures a.reply.Ok? <==>
              caller.Some? && Validate(q, weekday).None? && !f.userReadFails && caller.value in s.users
              && WalletCheck(q.walletType.value, BalanceOf(s, caller.value), TotalAmount(q)).None?
              && !f.insertFails && !f.debitFails
  {
    if caller.None? then Refuse(s, 401, Unauthorized)
    else if Validate(q, weekday).Some? then Refuse(s, 400, Validate(q, weekday).value)
    else if f.userReadFails || caller.value !in s.users then Refuse(s, 500, UserFetchFailed)
    else
      var u := caller.value;
      var total := TotalAmount(q);
      var wallet := WalletCheck(q.walletType.value, BalanceOf(s, u), total);
      if wallet.Some? then Refuse(s, 400, wallet.value)
      else if f.insertFails then Refuse(s, 500, InsertFailed)
      else
        var inv := NewInvestment(newId, u, q, now);
        var inserted := s.(investments := s.investments[newId := inv]);
        var newBalance := BalanceOf(s, u) - total;
        if f.debitFails then
          var rolledBack := if f.deleteFails then inserted else s;
          Answer(rolledBack, Fail(500, BalanceUpdateFailed))
        else
          Answer(WithBalance(inserted, u, newBalance), Ok(Receipt(inv, newBalance)))
  }

  /** Outside a weekend, a weekend-only product is refused before anything is
      read; for every other product the day of the week plays no part. */
  lemma WeekendGate(s: Store, caller: Id, q: InvestRequest, weekday: int, other: int,
                    now: int, newId: Id, f: InvestFaults)
    requires newId !in s.investments
    ensures HasAllFields(q) && q.purchaseCount.value >= 1
            && Includes(Lower(q.productId.value), "vaccine") && !IsWeekend(weekday) ==>
              CreateInvestment(s, Some(caller), q, weekday, now, newId, f) == Answer(s, Fail(400, WeekendOnly))
    ensures HasAllFields(q) && !Includes(Lower(q.productId.value), "vaccine") ==>
              CreateInvestment(s, Some(caller), q, weekday, now, newId, f)
              == CreateInvestment(s, Some(caller), q, other, now, newId, f)
  {
    if HasAllFields(q) {
      WeekendProductIsLowerCaseMatch(q.productId.value);
    }
  }

  /** A purchase count of 0 is falsy, so it is reported as a missing field and
      never reaches the "at least 1" check; only negative counts do. */
  lemma ZeroCountIsMissing(q: InvestRequest, weekday: int)
    requires q.purchaseCount == Some(0)
    ensures Validate(q, weekday) == Some(MissingFields)
  {
  }

  /** The first purchase of the 27,000 RWF product (1,134 RWF a day for 45
      days) from a balance of 100,000: the balance drops to 73,000 and the
      stored total income is 51,030. */
  lemma FirstPurchaseScenario(s: Store, u: Id, newId: Id, now: int)
    requires u in s.users && s.users[u].balance == Some(100000)
    requires newId !in s.investments
    ensures var q := InvestRequest(Some("product-1"), Some("Product"), Some(27000), Some(1),
                                   Some(1134), Some(45), Some("balance"));
            var a := CreateInvestment(s, Some(u), q, 3, now, newId, InvestFaults(false, false, false, false));
            && a.reply.Ok?
            && a.reply.body.newBalance == 73000
            && a.reply.body.investment.totalIncome == 51030
            && BalanceOf(a.store, u) == 73000
  {
    var q := InvestRequest(Some("product-1"), Some("Product"), Some(27000), Some(1),
                           Some(1134), Some(45), Some("balance"));
    var p := "product-1";
    assert !("vaccine" <= p) by { assert p[0] != 'v'; }
    var l := Lower(p);
    assert forall i :: 0 <= i < |l| ==> l[i] != 'v' by {
      forall i | 0 <= i < |l|
        ensures l[i] != 'v'
      {
        assert l[i] == LowerChar(p[i]);
      }
    }
    NotIncludedWithoutFirstChar(l, "vaccine");
    assert Validate(q, 3).None?;
  }
}

=== FILE: ledger.dfy ===
/** The ledger store: users with their two wallets, and the four kinds of side
    record (investments, withdrawals, recharge transactions, check-ins). Each
    table is a map from row id to row; the routes read and write it through
    calls that may fail, modelled by boolean oracles passed to each route. */
module Ledger {
  import opened Common

  /** Row and user identities (UUID strings in the database). */
  type Id = string

  /** A `users` row. Nullable numeric columns are `Option<int>`. */
  datatype User = User(
    balance: Option<int>,
    rechargeWallet: Option<int>,
    totalRecharge: Option<int>,
    isAdmin: bool,
    isActive: bool,
    withdrawalPassword: Option<string>,
    paymentMethod: Option<string>,
    accountName: Option<string>,
    accountPhone: Option<string>)

  /** The `status` text column shared by investments (`active`, `completed`),
      withdrawals (`pending`, `approved`, `rejected`) and recharge transactions
      (`pending`, `completed`, `rejected`). */
  datatype Status = Pending | Active | Approved | Completed | Rejected

  /** The text stored for a status. */
  function StatusName(st: Status): string {
    match st
    case Pending => "pending"
    case Active => "active"
    case Approved => "approved"
    case Completed => "completed"
    case Rejected => "rejected"
  }

  /** An `investments` row. Timestamps are milliseconds; `updatedAt` is the
      accrual processor's "last processed" marker and is null until the first
      settlement writes it. */
  datatype Investment = Investment(
    id: Id,
    userId: Id,
    productId: string,
    productName: string,
    amount: int,
    purchaseCount: int,
    dailyIncome: int,
    incomePeriod: int,
    totalIncome: int,
    status: Status,
    createdAt: int,
    updatedAt: Option<int>)

  /** A `withdrawals` row. The fee is the only fractional amount. */
  datatype Withdrawal = Withdrawal(
    userId: Id,
    amount: int,
    fee: real,
    netAmount: real,
    accountNumber: Option<string>,
    accountName: Option<string>,
    status: Status,
    approvedBy: Option<Id>,
    rejectedReason: Option<string>,
    updatedAt: Option<int>)

  /** A `recharge_transactions` row. */
  datatype Recharge = Recharge(
    userId: Id,
    amount: int,
    paymentMethod: string,
    paidNumber: string,
    status: Status,
    approvedBy: Option<Id>,
    rejectedReason: Option<string>,
    updatedAt: Option<int>)

  /** A `checkins` row. */
  datatype CheckIn = CheckIn(userId: Id, amount: int, createdAt: int)

  datatype Store = Store(
    users: map<Id, User>,
    investments: map<Id, Investment>,
    withdrawals: map<Id, Withdrawal>,
    recharges: map<Id, Recharge>,
    checkins: map<Id, CheckIn>)

  /** A user's spendable balance, null read as 0. */
  function BalanceOf(s: Store, u: Id): int
    requires u in s.users
  {
    Num(s.users[u].balance)
  }

  /** `update({ balance: b }).eq('id', u)` on an existing user. */
  function WithBalance(s: Store, u: Id, b: int): (s': Store)
    requires u in s.users
    ensures s'.users.Keys == s.users.Keys
    ensures BalanceOf(s', u) == b
  {
    s.(users := s.users[u := s.users[u].(balance := Some(b))])
  }

  /** Why a route answered with an error. */
  datatype Reason =
    | Unauthorized
    | MissingFields
    | PurchaseCountBelowOne
    | WeekendOnly
    | UserFetchFailed
    | UserNotFound
    | InsufficientBalance
    | RechargeWalletFirst(redirectTo: string)
    | InvalidWalletType
    | InsertFailed
    | BalanceUpdateFailed
    | InvalidAmount
    | BelowMinimum
    | AboveMaximum
    | PasswordRequired
    | PasswordNotSet
    | WrongPassword
    | PasswordTooShort
    | InvalidAction
    | RecordNotFound
    | AlreadyReviewed(status: Status)
    | StatusUpdateFailed
    | AlreadyCheckedIn
    | ReferralsFetchFailed
    | PaymentMethodRequired
    | InvalidPaymentMethod
    | AccountNameRequired
    | PhoneRequired
    | PhoneDigitCount
    | ValueRequired
    | UpdateFailed
    | FetchFailed
    | InsufficientRechargeWallet
    | InternalError

  /** An HTTP answer: a JSON body with status 200, or an error status and reason. */
  datatype Reply<+T> = Ok(body: T) | Fail(code: int, reason: Reason)

  /** What a route leaves behind: the store after its writes, and its reply. */
  datatype Answer<+T> = Answer(store: Store, reply: Reply<T>)

  /** An answer that changed nothing. */
  function Refuse<T>(s: Store, code: int, why: Reason): (a: Answer<T>)
    ensures a.store == s && a.reply == Fail(code, why)
  {
    Answer(s, Fail(code, why))
  }
}

=== FILE: passwords.dfy ===
/** The two passwords: the withdrawal password set through
    `POST /api/withdrawal-password` and its page, and the client-side checks
    of the login-password page. Lengths count characters. */
module Passwords {
  import opened Common
  import opened Ledger
  import Withdraw

  /** The shortest withdrawal password the route and its page accept. */
  const MinWithdrawalPassword: int := 4
  /** The shortest login password the page accepts. */
  const MinLoginPassword: int := 6

  // ---------------------------------------------------------------------
  // POST /api/withdrawal-password
  // ---------------------------------------------------------------------

  /** `!password || password.length < 4` does not hold. */
  predicate LongEnough(password: Option<string>) {
    password.Some? && |password.value| >= MinWithdrawalPassword
  }

  /** `POST /api/withdrawal-password`: the password is stored as given (no
      trimming, no hashing), with no check of the previous one. An update matching
      no row is a silent success. */
  function SetWithdrawalPassword(s: Store, caller: Option<Id>, password: Option<string>,
                                 updateFails: bool): (a: Answer<()>)
    ensures caller.None? ==> a == Answer(s, Fail(401, Unauthorized))
    ensures caller.Some? && !LongEnough(password) ==> a == Answer(s, Fail(400, PasswordTooShort))
    ensures a.reply.Fail? ==> a.store == s
    ensures a.reply.Ok? <==> caller.Some? && LongEnough(password) && !updateFails
    // only the caller's withdrawal password changes
    ensures a.reply.Ok? ==>
              && a.store.investments == s.investments && a.store.withdrawals == s.withdrawals
              && a.store.recharges == s.recharges && a.store.checkins == s.checkins
              && a.store.users.Keys == s.users.Keys
              && (forall v :: v in s.users && v != caller.value ==> a.store.users[v] == s.users[v])
              && (caller.value in s.users ==>
                    a.store.users[caller.value] == s.users[caller.value].(withdrawalPassword := password))
  {
    if caller.None? then Refuse(s, 401, Unauthorized)
    else if !LongEnough(password) then Refuse(s, 400, PasswordTooShort)
    else if updateFails then Refuse(s, 500, UpdateFailed)
    else if caller.value in s.users then
      var u := s.users[caller.value];
      Answer(s.(users := s.users[caller.value := u.(withdrawalPassword := password)]), Ok(()))
    else Answer(s, Ok(()))
  }

  /** No previous-password check: the outcome is the same whatever password was
      stored before, so any existing value is overwritten. */
  lemma OldPasswordIrrelevant(s: Store, u: Id, previous: Option<string>, password: Option<string>, updateFails: bool)
    requires u in s.users
    ensures var s' := s.(users := s.users[u := s.users[u].(withdrawalPassword := previous)]);
            SetWithdrawalPassword(s', Some(u), password, updateFails).reply
            == SetWithdrawalPassword(s, Some(u), password, updateFails).reply
    ensures var s' := s.(users := s.users[u := s.users[u].(withdrawalPassword := previous)]);
            SetWithdrawalPassword(s, Some(u), password, false).reply.Ok? ==>
              SetWithdrawalPassword(s', Some(u), password, false).store
              == SetWithdrawalPassword(s, Some(u), password, false).store
  {
  }

  /** A password just set opens the withdrawal route's password checks: the
      only account check left that can refuse is the balance. */
  lemma SetPasswordUnlocksWithdrawal(s: Store, u: Id, password: string, amount: int)
    requires u in s.users
    requires SetWithdrawalPassword(s, Some(u), Some(password), false).reply.Ok?
    ensures var s' := SetWithdrawalPassword(s, Some(u), Some(password), false).store;
            Withdraw.AccountCheck(s'.users[u], password, amount)
            == (if Num(s.users[u].balance) < amount then Some((400, InsufficientBalance)) else None)
  {
  }

  // ---------------------------------------------------------------------
  // Client-side checks
  // ---------------------------------------------------------------------

  /** The messages the two pages can show before calling anything. */
  datatype Problem = OldMissing | NewMissing | TooShort | Mismatch | Unchanged

  /** The login-password page's checks, first failure wins. */
  function CheckLoginChange(previous: string, next: string, confirm: string): (r: Option<Problem>)
    ensures r.None? <==>
              previous != "" && next != "" && |next| >= MinLoginPassword && next == confirm && next != previous
    ensures previous == "" ==> r == Some(OldMissing)
    ensures previous != "" && next == "" ==> r == Some(NewMissing)
    ensures previous != "" && next != "" && |next| < MinLoginPassword ==> r == Some(TooShort)
    ensures previous != "" && |next| >= MinLoginPassword && next != confirm ==> r == Some(Mismatch)
    ensures previous != "" && |next| >= MinLoginPassword && next == confirm && next == previous ==> r == Some(Unchanged)
  {
    if previous == "" then Some(OldMissing)
    else if next == "" then Some(NewMissing)
    else if |next| < MinLoginPassword then Some(TooShort)
    else if next != confirm then Some(Mismatch)
    else if previous == next then Some(Unchanged)
    else None
  }

  /** The boundary of the length rule, and reuse of the previous password:
      one character short of the minimum is always too short, whatever the
      confirmation; at the minimum a new password passes exactly when it is
      confirmed; and a long-enough password equal to the old one is refused
      as unchanged. */
  lemma LoginChangeBoundary(previous: string, next: string, confirm: string)
    ensures previous != "" && |next| == MinLoginPassword - 1 ==>
              CheckLoginChange(previous, next, confirm) == Some(TooShort)
    ensures previous != "" && previous != next && |next| == MinLoginPassword ==>
              (CheckLoginChange(previous, next, confirm).None? <==> confirm == next)
    ensures |next| >= MinLoginPassword ==> CheckLoginChange(next, next, next) == Some(Unchanged)
  {
  }

  /** The withdrawal-password form. */
  datatype PasswordForm = PasswordForm(newPassword: string, confirm: string)

  /** The withdrawal-password page's checks, first failure wins. */
  function CheckWithdrawalPassword(f: PasswordForm): (r: Option<Problem>)
    ensures r.None? <==> f.newPassword != "" && |f.newPassword| >= MinWithdrawalPassword && f.newPassword == f.confirm
    ensures f.newPassword == "" ==> r == Some(NewMissing)
    ensures f.newPassword != "" && |f.newPassword| < MinWithdrawalPassword ==> r == Some(TooShort)
  {
    if f.newPassword == "" then Some(NewMissing)
    else if |f.newPassword| < MinWithdrawalPassword then Some(TooShort)
    else if f.newPassword != f.confirm then Some(Mismatch)
    else None
  }

  /** The form after the route accepted the password: both fields cleared. */
  function AfterSave(f: PasswordForm): (r: PasswordForm)
    ensures r.newPassword == "" && r.confirm == ""
    ensures CheckWithdrawalPassword(r) == Some(NewMissing)
  {
    PasswordForm("", "")
  }

  /** The page and the route agree on the minimum: whatever the page lets
      through, the route accepts unless the write fails. */
  lemma PageAndRouteAgree(s: Store, u: Id, f: PasswordForm)
    requires CheckWithdrawalPassword(f).None?
    ensures SetWithdrawalPassword(s, Some(u), Some(f.newPassword), false).reply.Ok?
    ensures |f.newPassword| >= MinWithdrawalPassword
  {
  }
}

=== FILE: payment_page.dfy ===
/** The payment step of a recharge: the page shows the merchant account to
    pay, builds the USSD code the phone dials, and, once the user confirms,
    files the recharge request with the recharge route. The amount, method
    and paid-from account arrive in the query string. */
module PaymentPage {
  import opened Common
  import opened Ledger
  import Recharging

  /** A merchant account from the page's table. */
  datatype Merchant = Merchant(number: string, name: string, ussdPrefix: string)

  const Mtn: Merchant := Merchant("0791755517", "Josephine NIBAKURE", "*182*1*1*")
  const Airtel: Merchant := Merchant("0724128516", "0724128516", "*185*1*1*")

  /** `getPaymentAccount`: the table entry for the method, MTN for any
      channel the table does not name. */
  function MerchantFor(channel: Option<string>): (m: Merchant)
    ensures m == Airtel <==> channel == Some("AIRTEL")
    ensures m == Mtn <==> channel != Some("AIRTEL")
  {
    if channel == Some("AIRTEL") then Airtel
    else if channel == Some("MTN") then Mtn
    else Mtn
  }

  /** `generateUSSDCode`: prefix, merchant number, `*`, the amount text as
      given, `#`. */
  function UssdCode(channel: Option<string>, amount: string): (code: string)
    ensures code == MerchantFor(channel).ussdPrefix + MerchantFor(channel).number + "*" + amount + "#"
    ensures code[..|MerchantFor(channel).ussdPrefix|] == MerchantFor(channel).ussdPrefix
    ensures |code| == |MerchantFor(channel).ussdPrefix| + 10 + |amount| + 2
  {
    var m := MerchantFor(channel);
    m.ussdPrefix + m.number + "*" + amount + "#"
  }

  /** `getPaymentMethodName`: MTN's name only for `MTN`, Airtel's otherwise. */
  function MethodName(channel: Option<string>): (name: string)
    ensures name == "MTN MoMo" <==> channel == Some("MTN")
    ensures name == "Airtel Money" <==> channel != Some("MTN")
  {
    if channel == Some("MTN") then "MTN MoMo" else "Airtel Money"
  }

  /** The two lookups disagree on every method the table does not name: the
      page says Airtel Money while the code it dials is MTN's. For the two
      named methods they agree. */
  lemma UnknownMethodLabelledAirtelDialledMtn(channel: Option<string>, amount: string)
    ensures channel != Some("MTN") && channel != Some("AIRTEL") ==>
              MethodName(channel) == "Airtel Money" && MerchantFor(channel) == Mtn
              && UssdCode(channel, amount)[..4] == "*182"
    ensures channel == Some("MTN") ==> MethodName(channel) == "MTN MoMo" && MerchantFor(channel) == Mtn
    ensures channel == Some("AIRTEL") ==> MethodName(channel) == "Airtel Money" && MerchantFor(channel) == Airtel
  {
    var code := UssdCode(channel, amount);
    assert code[..4] == MerchantFor(channel).ussdPrefix[..4];
  }

  // ---------------------------------------------------------------------
  // parseInt
  // ---------------------------------------------------------------------

  function DigitValue(c: char): (v: int)
    requires IsDigit(c)
    ensures 0 <= v <= 9
  {
    c as int - '0' as int
  }

  function DigitChar(v: int): (c: char)
    requires 0 <= v <= 9
    ensures IsDigit(c) && DigitValue(c) == v
  {
    ('0' as int + v) as char
  }

  /** The length of the run of digits at the start of `s`. */
  function LeadingDigits(s: string): (n: nat)
    ensures n <= |s|
    ensures forall i :: 0 <= i < n ==> IsDigit(s[i])
    ensures n < |s| ==> !IsDigit(s[n])
  {
    if |s| > 0 && IsDigit(s[0]) then 1 + LeadingDigits(s[1..]) else 0
  }

  /** The number a string of decimal digits denotes. */
  function ValueOf(ds: string): (v: nat)
    requires forall i :: 0 <= i < |ds| ==> IsDigit(ds[i])
  {
    if |ds| == 0 then 0 else ValueOf(ds[..|ds| - 1]) * 10 + DigitValue(ds[|ds| - 1])
  }

  /** The decimal text of a natural number, as `${n}` renders it. */
  function Decimal(n: nat): (s: string)
    ensures |s| > 0
    ensures forall i :: 0 <= i < |s| ==> IsDigit(s[i])
  {
    if n < 10 then [DigitChar(n)] else Decimal(n / 10) + [DigitChar(n % 10)]
  }

  /** `parseInt(s)` in base ten: leading white space, an optional sign, then
      the longest run of digits; `None` (NaN) when there is no digit. */
  function ParseInt(s: string): (r: Option<int>)
    // NaN exactly when no digit follows the white space and the optional sign
    ensures var t := TrimStart(s);
            var body := if |t| > 0 && (t[0] == '-' || t[0] == '+') then t[1..] else t;
            r.None? <==> |body| == 0 || !IsDigit(body[0])
    ensures var t := TrimStart(s); |t| > 0 && IsDigit(t[0]) ==> r.Some? && r.value >= 0
    ensures var t := TrimStart(s); |t| > 0 && t[0] == '-' && r.Some? ==> r.value <= 0
    ensures var t := TrimStart(s); |t| > 0 && !IsDigit(t[0]) && t[0] != '-' && t[0] != '+' ==> r.None?
  {
    var t := TrimStart(s);
    var negative := |t| > 0 && t[0] == '-';
    var body := if |t| > 0 && (t[0] == '-' || t[0] == '+') then t[1..] else t;
    var n := LeadingDigits(body);
    if n == 0 then None
    else
      var v: int := ValueOf(body[..n]);
      Some(if negative then -v else v)
  }

  /** Reading back the decimal text of a number gives the number. */
  lemma {:induction false} DecimalRoundTrip(n: nat)
    ensures ValueOf(Decimal(n)) == n
  {
    if n >= 10 {
      DecimalRoundTrip(n / 10);
      var s := Decimal(n);
      assert s[..|s| - 1] == Decimal(n / 10);
    }
  }

  /** `parseInt` stops at the first character that is not a digit: the
      decimal text of `n` followed by anything that does not start with a
      digit parses as `n`. */
  lemma ParseDecimal(n: nat, rest: string)
    requires |rest| == 0 || !IsDigit(rest[0])
    ensures ParseInt(Decimal(n) + rest) == Some(n)
  {
    var s := Decimal(n) + rest;
    assert !IsSpace(s[0]);
    assert TrimStart(s) == s;
    var k := |Decimal(n)|;
    LeadingDigitsOf(s, k);
    assert s[..k] == Decimal(n);
    DecimalRoundTrip(n);
  }

  /** A run of `k` digits ended by the end of the string or a non-digit is
      the leading run. */
  lemma {:induction false} LeadingDigitsOf(s: string, k: nat)
    requires k <= |s|
    requires forall i :: 0 <= i < k ==> IsDigit(s[i])
    requires k == |s| || !IsDigit(s[k])
    ensures LeadingDigits(s) == k
  {
    if k > 0 {
      LeadingDigitsOf(s[1..], k - 1);
    }
  }

  // ---------------------------------------------------------------------
  // The page
  // ---------------------------------------------------------------------

  /** The query string. */
  datatype Params = Params(amount: Option<string>, channel: Option<string>, account: Option<string>)

  /** What the page shows: nothing and a redirect when a parameter is
      missing or empty, otherwise the payment instructions. */
  datatype Screen =
    | BackToRecharge
    | Instructions(merchant: Merchant, methodName: string, ussd: string)

  function Show(p: Params): (r: Screen)
    ensures r.BackToRecharge? <==> !Truthy(p.amount) || !Truthy(p.channel) || !Truthy(p.account)
    ensures r.Instructions? ==>
              r.merchant == MerchantFor(p.channel) && r.methodName == MethodName(p.channel)
              && r.ussd == UssdCode(p.channel, p.amount.value)
  {
    if !Truthy(p.amount) || !Truthy(p.channel) || !Truthy(p.account) then BackToRecharge
    else Instructions(MerchantFor(p.channel), MethodName(p.channel), UssdCode(p.channel, p.amount.value))
  }

  /** `handleConfirmPayment`'s body: the amount through `parseInt` (NaN is
      serialised as null), the method defaulting to MTN, the account to
      `''`. Nothing is sent before the user's row has loaded. */
  function ConfirmBody(p: Params, signedIn: bool): (q: Option<Recharging.RechargeRequest>)
    ensures q.Some? <==> signedIn
    ensures q.Some? ==>
              && q.value.amount == ParseInt(OrElse(p.amount, "0"))
              && q.value.paymentMethod == Some(OrElse(p.channel, "MTN"))
              && q.value.paidNumber == Some(OrElse(p.account, ""))
  {
    if !signedIn then None
    else Some(Recharging.RechargeRequest(ParseInt(OrElse(p.amount, "0")), Some(OrElse(p.channel, "MTN")),
                                         Some(OrElse(p.account, ""))))
  }

  /** Confirming a positive whole amount files a pending request for exactly
      that amount, from the account and through the channel on the page. */
  lemma ConfirmFilesPendingRecharge(s: Store, u: Id, n: nat, channel: string, account: string,
                                    newId: Id)
    requires n > 0 && channel != "" && account != "" && newId !in s.recharges
    ensures var q := ConfirmBody(Params(Some(Decimal(n)), Some(channel), Some(account)), true).value;
            var a := Recharging.RequestRecharge(s, Some(u), q, newId, false);
            && a.reply == Ok(Recharging.RechargeReceipt(n, Pending))
            && a.store.recharges[newId] == Recharge(u, n, channel, account, Pending, None, None, None)
  {
    ParseDecimal(n, "");
    assert Decimal(n) + "" == Decimal(n);
  }

  /** A zero amount reaches the route, which refuses it. */
  lemma ZeroAmountRefused(s: Store, u: Id, channel: Option<string>, account: Option<string>, newId: Id)
    requires newId !in s.recharges
    ensures var q := ConfirmBody(Params(Some("0"), channel, account), true).value;
            Recharging.RequestRecharge(s, Some(u), q, newId, false) == Answer(s, Fail(400, InvalidAmount))
  {
    ParseDecimal(0, "");
    assert Decimal(0) == "0";
  }
}

=== FILE: portfolio.dfy ===
/** The "My Products" page: the per-investment progress card and the three
    summary figures, computed in the browser from the caller's investments.
    The page's own figures are compared with the processor's. */
module Portfolio {
  import opened Common
  import opened Ledger
  import Accrual
  import Invest

  /** `getInvestmentProgress`. `progress` is `None` where JavaScript's
      division leaves no finite number (see `CappedPercent`). */
  datatype Card = Card(progress: Option<real>, daysRemaining: int, earnedSoFar: int, daysPassed: int,
                       isCompleted: bool)

  function CardOf(inv: Investment, now: int): (c: Card)
    ensures c.daysPassed == Accrual.DaysPassed(inv, now)
    ensures c.isCompleted <==> c.daysPassed >= inv.incomePeriod
    ensures c.progress.None? <==> inv.incomePeriod == 0 && c.daysPassed <= 0
    ensures c.progress.Some? ==> c.progress.value <= 100.0
    ensures inv.incomePeriod >= 0 && c.daysPassed > 0 ==> (c.progress == Some(100.0) <==> c.isCompleted)
    ensures inv.incomePeriod > 0 ==> (c.progress == Some(100.0) <==> c.isCompleted)
    // a negative period, which the purchase route lets through, reads as completed at no progress
    ensures inv.incomePeriod < 0 && c.daysPassed >= 0 ==> c.isCompleted && c.progress.Some? && c.progress.value <= 0.0
  {
    var dp := Accrual.DaysPassed(inv, now);
    Card(CappedPercent(dp, inv.incomePeriod), Max(inv.incomePeriod - dp, 0),
         inv.dailyIncome * Min(dp, inv.incomePeriod) * inv.purchaseCount, dp, dp >= inv.incomePeriod)
  }

  /** The purchase route refuses a zero (falsy) period, so every row it
      stores shows a finite progress figure at any time. */
  lemma StoredRowsShowProgress(id: Id, owner: Id, q: Invest.InvestRequest, created: int, weekday: int,
                               now: int)
    requires Invest.Validate(q, weekday).None?
    ensures CardOf(Invest.NewInvestment(id, owner, q, created), now).progress.Some?
  {
  }

  /** The card agrees with what the processor's status endpoint reports for
      the same investment at the same instant. */
  lemma CardAgreesWithStatusEndpoint(inv: Investment, now: int)
    ensures var c := CardOf(inv, now);
            var p := Accrual.ProgressOf(inv, now);
            && c.daysRemaining == p.daysRemaining && c.earnedSoFar == p.earningsSoFar
            && c.isCompleted == p.isCompleted && c.daysPassed == p.daysPassed
  {
    var c := CardOf(inv, now);
    var p := Accrual.ProgressOf(inv, now);
    Accrual.IncomeForIsRate(inv, Min(c.daysPassed, inv.incomePeriod));
    assert c.earnedSoFar == inv.dailyIncome * Min(c.daysPassed, inv.incomePeriod) * inv.purchaseCount;
  }

  /** The earnings shown never exceed the stored total income, which the
      purchase route sets to `daily × period × count`. */
  lemma EarnedAtMostTotalIncome(inv: Investment, now: int)
    requires Accrual.Rate(inv) >= 0
    requires inv.totalIncome == Accrual.IncomeFor(inv, inv.incomePeriod)
    ensures CardOf(inv, now).earnedSoFar <= inv.totalIncome
  {
    CardAgreesWithStatusEndpoint(inv, now);
    Accrual.IncomeForIsRate(inv, inv.incomePeriod);
  }

  function Amount(inv: Investment): int { inv.amount }

  function Earned(now: int): Investment -> int {
    (inv: Investment) => CardOf(inv, now).earnedSoFar
  }

  /** Still accruing at `now`: fewer whole days have passed than the period. */
  function StillRunning(now: int): Investment -> bool {
    (inv: Investment) => Accrual.DaysPassed(inv, now) < inv.incomePeriod
  }

  /** The daily income of an investment still accruing, 0 otherwise. */
  function TodayTerm(now: int): Investment -> int {
    (inv: Investment) => if Accrual.DaysPassed(inv, now) < inv.incomePeriod then Accrual.Rate(inv) else 0
  }

  /** The summary card. */
  datatype Totals = Totals(totalInvestment: int, totalReturn: int, todayEarnings: int)

  /** The three `reduce` calls, as one left-to-right pass over the list. */
  method Summarize(invs: seq<Investment>, now: int) returns (t: Totals)
    ensures t.totalInvestment == SumBy(invs, Amount)
    ensures t.totalReturn == SumBy(invs, Earned(now))
    ensures t.todayEarnings == SumBy(Filter(invs, StillRunning(now)), Accrual.Rate)
  {
    var invested, returned, today := 0, 0, 0;
    var i := 0;
    while i < |invs|
      invariant 0 <= i <= |invs|
      invariant invested == SumBy(invs[..i], Amount)
      invariant returned == SumBy(invs[..i], Earned(now))
      invariant today == SumBy(invs[..i], TodayTerm(now))
    {
      var inv := invs[i];
      assert invs[..i + 1] == invs[..i] + [inv];
      SumByAppend(invs[..i], inv, Amount);
      SumByAppend(invs[..i], inv, Earned(now));
      SumByAppend(invs[..i], inv, TodayTerm(now));
      var c := CardOf(inv, now);
      invested := invested + inv.amount;
      returned := returned + c.earnedSoFar;
      if c.daysPassed < inv.incomePeriod {
        today := today + inv.dailyIncome * inv.purchaseCount;
      }
      i := i + 1;
    }
    assert invs[..|invs|] == invs;
    SumByFilterAsZeroes(invs, StillRunning(now), Accrual.Rate, TodayTerm(now));
    t := Totals(invested, returned, today);
  }

  /** The figure shown as "Principal + Earnings Returned" on a completed
      investment. */
  function Returned(inv: Investment): int {
    inv.amount + inv.totalIncome
  }

  /** What the processor actually credits over an investment's life falls
      short of the "returned" figure: the income part is never paid in full
      by the processor as written. */
  lemma ReturnedOverstatesAsWrittenPayout(inv: Investment, nows: seq<int>)
    requires inv.status == Active && Accrual.LastProcessed(inv) >= inv.createdAt
    requires Accrual.Rate(inv) > 0 && inv.incomePeriod >= 1 && inv.amount >= 0
    requires inv.totalIncome == Accrual.IncomeFor(inv, inv.incomePeriod)
    ensures var r := Accrual.RunAll(inv, nows, Accrual.AsWritten);
            r.income + r.principal < Returned(inv)
  {
    Accrual.AsWrittenNeverPaysTotalIncome(inv, nows);
  }

  /** Under the corrected processor, a completed investment has been paid
      exactly the "returned" figure. */
  lemma ReturnedMatchesIntendedPayout(inv: Investment, nows: seq<int>)
    requires inv.status == Active && Accrual.LastProcessed(inv) == inv.createdAt && inv.incomePeriod >= 0
    requires inv.totalIncome == Accrual.IncomeFor(inv, inv.incomePeriod)
    requires Accrual.RunAll(inv, nows, Accrual.Intended).inv.status == Completed
    ensures var r := Accrual.RunAll(inv, nows, Accrual.Intended);
            r.income + r.principal == Returned(inv)
  {
    Accrual.IntendedPaysTotalIncome(inv, nows);
  }
}

=== FILE: recharge.dfy ===
/** The user's side of recharging: `POST /api/recharge` files a `pending`
    recharge request (the wallet moves only when an admin approves it), and
    `POST /api/recharge/transfer` moves money from the recharge wallet to the
    spendable balance. */
module Recharging {
  import opened Common
  import opened Ledger

  /** `!amount || amount <= 0` does not hold. */
  predicate PositiveAmount(amount: Option<int>) {
    amount.Some? && amount.value > 0
  }

  // ---------------------------------------------------------------------
  // Recharge request
  // ---------------------------------------------------------------------

  datatype RechargeRequest = RechargeRequest(
    amount: Option<int>, paymentMethod: Option<string>, paidNumber: Option<string>)

  /** The success body: the amount asked for and the `pending` status. */
  datatype RechargeReceipt = RechargeReceipt(amount: int, status: Status)

  /** The row inserted for a request: `pending`, paid through MTN unless
      another method is named, with an empty paid number unless one is given. */
  function PendingRecharge(owner: Id, amount: int, q: RechargeRequest): (r: Recharge)
    ensures r.userId == owner && r.amount == amount && r.status == Pending
    ensures r.paymentMethod == (if Truthy(q.paymentMethod) then q.paymentMethod.value else "MTN")
    ensures r.paidNumber == (if Truthy(q.paidNumber) then q.paidNumber.value else "")
    ensures r.approvedBy.None? && r.rejectedReason.None? && r.updatedAt.None?
  {
    Recharge(owner, amount, OrElse(q.paymentMethod, "MTN"), OrElse(q.paidNumber, ""), Pending, None, None, None)
  }

  /** `POST /api/recharge`; `newId` is the id the database gives the new row. */
  function RequestRecharge(s: Store, caller: Option<Id>, q: RechargeRequest, newId: Id,
                           insertFails: bool): (a: Answer<RechargeReceipt>)
    requires newId !in s.recharges
    ensures caller.None? ==> a == Answer(s, Fail(401, Unauthorized))
    ensures caller.Some? && !PositiveAmount(q.amount) ==> a == Answer(s, Fail(400, InvalidAmount))
    ensures a.reply.Fail? ==> a.store == s
    // only the new row appears: no wallet or balance moves at request time
    ensures a.reply.Ok? <==> caller.Some? && PositiveAmount(q.amount) && !insertFails
    ensures a.reply.Ok? ==>
              && a.store == s.(recharges := s.recharges[newId := PendingRecharge(caller.value, q.amount.value, q)])
              && a.store.users == s.users
              && a.reply.body == RechargeReceipt(q.amount.value, Pending)
  {
    if caller.None? then Refuse(s, 401, Unauthorized)
    else if !PositiveAmount(q.amount) then Refuse(s, 400, InvalidAmount)
    else if insertFails then Refuse(s, 500, InsertFailed)
    else
      var row := PendingRecharge(caller.value, q.amount.value, q);
      Answer(s.(recharges := s.recharges[newId := row]), Ok(RechargeReceipt(q.amount.value, Pending)))
  }

  // ---------------------------------------------------------------------
  // Transfer from the recharge wallet to the balance
  // ---------------------------------------------------------------------

  /** The success body: the new balance and recharge wallet, and the amount. */
  datatype TransferReceipt = TransferReceipt(balance: int, rechargeWallet: int, amount: int)

  /** The user's row after moving `amount`: both columns are written together. */
  function Moved(u: User, amount: int): (u': User)
    ensures Num(u'.balance) + Num(u'.rechargeWallet) == Num(u.balance) + Num(u.rechargeWallet)
    ensures Num(u'.rechargeWallet) == Num(u.rechargeWallet) - amount
    // every other column is as it was
    ensures u' == u.(balance := u'.balance, rechargeWallet := u'.rechargeWallet)
  {
    u.(rechargeWallet := Some(Num(u.rechargeWallet) - amount), balance := Some(Num(u.balance) + amount))
  }

  /** `POST /api/recharge/transfer`. */
  function Transfer(s: Store, caller: Option<Id>, amount: Option<int>, userReadFails: bool,
                    writeFails: bool): (a: Answer<TransferReceipt>)
    ensures caller.None? ==> a == Answer(s, Fail(401, Unauthorized))
    ensures caller.Some? && !PositiveAmount(amount) ==> a == Answer(s, Fail(400, InvalidAmount))
    ensures a.reply.Fail? ==> a.store == s
    ensures caller.Some? && PositiveAmount(amount) && !userReadFails && caller.value in s.users
            && amount.value > Num(s.users[caller.value].rechargeWallet) ==>
              a.reply == Fail(400, InsufficientRechargeWallet)
    ensures a.reply.Ok? <==>
              caller.Some? && PositiveAmount(amount) && !userReadFails && caller.value in s.users
              && amount.value <= Num(s.users[caller.value].rechargeWallet) && !writeFails
    // a transfer moves money between the two columns of one row; the sum stays
    ensures a.reply.Ok? ==>
              var u := caller.value;
              && a.store == s.(users := s.users[u := Moved(s.users[u], amount.value)])
              && a.reply.body.balance + a.reply.body.rechargeWallet
                 == Num(s.users[u].balance) + Num(s.users[u].rechargeWallet)
              && a.reply.body.rechargeWallet >= 0
              && a.reply.body.balance == Num(a.store.users[u].balance)
              && a.reply.body.rechargeWallet == Num(a.store.users[u].rechargeWallet)
  {
    if caller.None? then Refuse(s, 401, Unauthorized)
    else if !PositiveAmount(amount) then Refuse(s, 400, InvalidAmount)
    else if userReadFails || caller.value !in s.users then Refuse(s, 500, UserFetchFailed)
    else
      var u := s.users[caller.value];
      var wallet := Num(u.rechargeWallet);
      if amount.value > wallet then Refuse(s, 400, InsufficientRechargeWallet)
      else if writeFails then Refuse(s, 500, UpdateFailed)
      else
        var u' := Moved(u, amount.value);
        Answer(s.(users := s.users[caller.value := u']),
               Ok(TransferReceipt(Num(u'.balance), Num(u'.rechargeWallet), amount.value)))
  }

  /** Two successful transfers leave the same store as one transfer of their
      sum, which is itself allowed: the whole wallet may be moved in steps. */
  lemma TransfersCompose(s: Store, u: Id, x: int, y: int)
    requires Transfer(s, Some(u), Some(x), false, false).reply.Ok?
    requires Transfer(Transfer(s, Some(u), Some(x), false, false).store, Some(u), Some(y), false, false).reply.Ok?
    ensures Transfer(s, Some(u), Some(x + y), false, false).reply.Ok?
    ensures Transfer(Transfer(s, Some(u), Some(x), false, false).store, Some(u), Some(y), false, false).store
            == Transfer(s, Some(u), Some(x + y), false, false).store
  {
    var s1 := Transfer(s, Some(u), Some(x), false, false).store;
    assert s1.users[u] == Moved(s.users[u], x);
  }
}

=== FILE: review.dfy ===
/** What the two admin review routes (withdrawals and recharges) share: the
    request body, the approve/reject action, and the store calls that may fail. */
module Review {
  import opened Common
  import opened Ledger
  import Access

  /** The JSON body: the row id, the action and an optional rejection reason. */
  datatype ReviewRequest = ReviewRequest(id: Option<string>, action: Option<string>, reason: Option<string>)

  datatype Action = Approve | Reject

  /** The verb the success message is built from (`${action}d`). */
  function ActionName(a: Action): string {
    match a
    case Approve => "approve"
    case Reject => "reject"
  }

  /** The body checks: an id and an action must be present (400), and the
      action must be exactly `approve` or `reject` (400). */
  function ParseReview(q: ReviewRequest): (r: Reply<(Id, Action)>)
    ensures r.Ok? <==> Truthy(q.id) && Truthy(q.action) && q.action.value in {"approve", "reject"}
    ensures r.Ok? ==> r.body.0 == q.id.value && ActionName(r.body.1) == q.action.value
    ensures !Truthy(q.id) || !Truthy(q.action) ==> r == Fail(400, MissingFields)
    ensures Truthy(q.id) && Truthy(q.action) && q.action.value !in {"approve", "reject"} ==>
              r == Fail(400, InvalidAction)
  {
    if !Truthy(q.id) || !Truthy(q.action) then Fail(400, MissingFields)
    else if q.action.value != "approve" && q.action.value != "reject" then Fail(400, InvalidAction)
    else if q.action.value == "approve" then Ok((q.id.value, Approve))
    else Ok((q.id.value, Reject))
  }

  /** `reason || 'Rejected by admin'`. */
  function RejectReason(reason: Option<string>): (r: string)
    ensures Truthy(reason) ==> r == reason.value
    ensures !Truthy(reason) ==> r == "Rejected by admin"
  {
    OrElse(reason, "Rejected by admin")
  }

  /** The store calls of a review that may fail: the admin lookup, the row
      fetch, the owner read, the status write, the wallet or balance write,
      and the compensating status write, whose result is never checked. */
  datatype ReviewFaults = ReviewFaults(
    admin: Access.Probe,
    fetchFails: bool,
    userReadFails: bool,
    statusWriteFails: bool,
    walletWriteFails: bool,
    rollbackFails: bool)

  /** No call fails. */
  const NoReviewFaults: ReviewFaults :=
    ReviewFaults(Access.Probe(false, false), false, false, false, false, false)
}

=== FILE: withdraw.dfy ===
/** Asking for a withdrawal: `POST /api/withdraw`. The request is checked in a
    fixed order, the 10% fee is computed, and a `pending` row is inserted. The
    balance is not touched: it is debited only when an admin approves. */
module Withdraw {
  import opened Common
  import opened Ledger

  /** Inclusive bounds on a withdrawal, in RWF. */
  const MinWithdrawal: int := 2000
  const MaxWithdrawal: int := 2000000
  const FeePercent: int := 10

  function RealMin(a: real, b: real): real {
    if a <= b then a else b
  }

  /** `Math.min(amount * (10 / 100), amount * 0.1)`, in exact arithmetic. */
  function Fee(amount: int): (fee: real)
    ensures fee == amount as real / 10.0
  {
    RealMin(amount as real * (FeePercent as real / 100.0), amount as real * 0.1)
  }

  /** `amount - fee`. */
  function NetAmount(amount: int): (net: real)
    ensures net == amount as real - Fee(amount)
  {
    amount as real - Fee(amount)
  }

  /** The fee and the net amount split the amount, and the fee never exceeds it. */
  lemma FeeSplitsAmount(amount: int)
    requires amount >= 0
    ensures Fee(amount) + NetAmount(amount) == amount as real
    ensures 0.0 <= Fee(amount) <= amount as real
    ensures 0.0 <= NetAmount(amount) <= amount as real
    ensures Fee(amount) * 10.0 == amount as real
  {
  }

  /** The JSON body. */
  datatype WithdrawRequest = WithdrawRequest(
    amount: Option<int>,
    password: Option<string>,
    accountNumber: Option<string>,
    accountName: Option<string>)

  /** `!amount || amount <= 0` does not hold. */
  predicate PositiveAmount(amount: Option<int>) {
    amount.Some? && amount.value > 0
  }

  /** The checks made on the body alone, first failure wins: a valid amount,
      inside the bounds, and a password. */
  function RequestCheck(q: WithdrawRequest): (r: Option<Reason>)
    ensures r == Some(InvalidAmount) <==> !PositiveAmount(q.amount)
    ensures r == Some(BelowMinimum) <==> PositiveAmount(q.amount) && q.amount.value < MinWithdrawal
    ensures r == Some(AboveMaximum) <==> PositiveAmount(q.amount) && q.amount.value > MaxWithdrawal
    ensures r == Some(PasswordRequired) <==>
              PositiveAmount(q.amount) && MinWithdrawal <= q.amount.value <= MaxWithdrawal
              && !Truthy(q.password)
    ensures r.None? <==>
              q.amount.Some? && MinWithdrawal <= q.amount.value <= MaxWithdrawal && Truthy(q.password)
  {
    if !PositiveAmount(q.amount) then Some(InvalidAmount)
    else if q.amount.value < MinWithdrawal then Some(BelowMinimum)
    else if q.amount.value > MaxWithdrawal then Some(AboveMaximum)
    else if !Truthy(q.password) then Some(PasswordRequired)
    else None
  }

  /** The checks made against the caller's row, first failure wins, with the
      status code of each: a withdrawal password must be set, must equal the
      one given, and the balance (null read as 0) must cover the full amount. */
  function AccountCheck(u: User, password: string, amount: int): (r: Option<(int, Reason)>)
    ensures r == Some((400, PasswordNotSet)) <==> !Truthy(u.withdrawalPassword)
    ensures r == Some((401, WrongPassword)) <==>
              Truthy(u.withdrawalPassword) && u.withdrawalPassword.value != password
    ensures r == Some((400, InsufficientBalance)) <==>
              u.withdrawalPassword == Some(password) && password != "" && Num(u.balance) < amount
    ensures r.None? <==> u.withdrawalPassword == Some(password) && password != "" && Num(u.balance) >= amount
  {
    if !Truthy(u.withdrawalPassword) then Some((400, PasswordNotSet))
    else if u.withdrawalPassword.value != password then Some((401, WrongPassword))
    else if Num(u.balance) < amount then Some((400, InsufficientBalance))
    else None
  }

  /** `given || saved || null`. */
  function Fallback(given: Option<string>, saved: Option<string>): (r: Option<string>)
    ensures Truthy(given) ==> r == given
    ensures !Truthy(given) ==> r == NullIfEmpty(saved)
  {
    if Truthy(given) then given else NullIfEmpty(saved)
  }

  /** The row inserted for an accepted request. */
  function PendingWithdrawal(owner: Id, u: User, q: WithdrawRequest): (w: Withdrawal)
    requires q.amount.Some?
    ensures w.userId == owner && w.status == Pending && w.amount == q.amount.value
    ensures w.fee + w.netAmount == w.amount as real
    ensures w.accountNumber == Fallback(q.accountNumber, u.accountPhone)
    ensures w.accountName == Fallback(q.accountName, u.accountName)
    ensures w.approvedBy.None? && w.rejectedReason.None? && w.updatedAt.None?
  {
    var amount := q.amount.value;
    Withdrawal(owner, amount, Fee(amount), NetAmount(amount),
               Fallback(q.accountNumber, u.accountPhone), Fallback(q.accountName, u.accountName),
               Pending, None, None, None)
  }

  /** The success body. `currentBalance` is the balance as read, possibly null. */
  datatype WithdrawReceipt = WithdrawReceipt(
    amount: int, fee: real, netAmount: real, currentBalance: Option<int>, status: Status)

  datatype WithdrawFaults = WithdrawFaults(userReadFails: bool, insertFails: bool)

  /** `POST /api/withdraw`; `newId` is the id the database gives the new row. */
  function RequestWithdrawal(s: Store, caller: Option<Id>, q: WithdrawRequest, newId: Id,
                             f: WithdrawFaults): (a: Answer<WithdrawReceipt>)
    requires newId !in s.withdrawals
    ensures caller.None? ==> a.reply == Fail(401, Unauthorized)
    ensures caller.Some? && RequestCheck(q).Some? ==> a.reply == Fail(400, RequestCheck(q).value)
    // `.single()` reports a missing row as an error, so the 404 branch is never reached
    ensures caller.Some? && RequestCheck(q).None? && (f.userReadFails || caller.value !in s.users) ==>
              a.reply == Fail(500, UserFetchFailed)
    ensures caller.Some? && RequestCheck(q).None? && !f.userReadFails && caller.value in s.users
            && AccountCheck(s.users[caller.value], q.password.value, q.amount.value).Some? ==>
              var (code, why) := AccountCheck(s.users[caller.value], q.password.value, q.amount.value).value;
              a.reply == Fail(code, why)
    ensures a.reply.Fail? ==> a.store == s
    // an accepted request only adds the pending row: no balance moves
    ensures a.reply.Ok? ==>
              && caller.Some? && caller.value in s.users
              && a.store == s.(withdrawals := s.withdrawals[newId :=
                                 PendingWithdrawal(caller.value, s.users[caller.value], q)])
              && a.store.users == s.users
              && a.reply.body.currentBalance == s.users[caller.value].balance
              && Num(a.reply.body.currentBalance) >= a.reply.body.amount
              && a.reply.body.amount == q.amount.value
              && a.reply.body.fee + a.reply.body.netAmount == a.reply.body.amount as real
              && a.reply.body.status == Pending
    ensures a.reply.Ok? <==>
              caller.Some? && RequestCheck(q).None? && !f.userReadFails && caller.value in s.users
              && AccountCheck(s.users[caller.value], q.password.value, q.amount.value).None?
              && !f.insertFails
  {
    if caller.None? then Refuse(s, 401, Unauthorized)
    else if RequestCheck(q).Some? then Refuse(s, 400, RequestCheck(q).value)
    else if f.userReadFails || caller.value !in s.users then Refuse(s, 500, UserFetchFailed)
    else
      var u := s.users[caller.value];
      var amount := q.amount.value;
      var check := AccountCheck(u, q.password.value, amount);
      if check.Some? then Refuse(s, check.value.0, check.value.1)
      else if f.insertFails then Refuse(s, 500, InsertFailed)
      else
        var row := PendingWithdrawal(caller.value, u, q);
        Answer(s.(withdrawals := s.withdrawals[newId := row]),
               Ok(WithdrawReceipt(amount, row.fee, row.netAmount, u.balance, Pending)))
  }

  /** The bounds are inclusive: with a password set and enough money, the
      smallest and the largest allowed amounts are both accepted. */
  lemma BoundsAreInclusive(s: Store, caller: Id, password: string, newId: Id)
    requires newId !in s.withdrawals && caller in s.users && password != ""
    requires s.users[caller].withdrawalPassword == Some(password)
    requires Num(s.users[caller].balance) >= MaxWithdrawal
    ensures RequestWithdrawal(s, Some(caller), WithdrawRequest(Some(MinWithdrawal), Some(password), None, None),
                              newId, WithdrawFaults(false, false)).reply.Ok?
    ensures RequestWithdrawal(s, Some(caller), WithdrawRequest(Some(MaxWithdrawal), Some(password), None, None),
                              newId, WithdrawFaults(false, false)).reply.Ok?
    ensures RequestWithdrawal(s, Some(caller), WithdrawRequest(Some(MinWithdrawal - 1), Some(password), None, None),
                              newId, WithdrawFaults(false, false)).reply == Fail(400, BelowMinimum)
    ensures RequestWithdrawal(s, Some(caller), WithdrawRequest(Some(MaxWithdrawal + 1), Some(password), None, None),
                              newId, WithdrawFaults(false, false)).reply == Fail(400, AboveMaximum)
  {
  }
}

=== FILE: withdraw_page.dfy ===
/** The withdraw page: the amount input filter, the fee preview, the checks
    made before posting, and the body it posts to the withdraw route. The
    typed text is parsed by `parseFloat`, which is not modelled: the parsed
    value is given, `None` standing for `NaN`. */
module WithdrawPage {
  import opened Common
  import opened Ledger
  import Withdraw

  /** A character the amount input keeps: a digit or a point. */
  predicate AmountChar(c: char) {
    IsDigit(c) || c == '.'
  }

  /** `value.replace(/[^0-9.]/g, '')`. */
  function FilterAmount(text: string): (r: string)
    ensures forall i :: 0 <= i < |r| ==> AmountChar(r[i])
    ensures IsSubsequence(r, text)
    ensures (forall i :: 0 <= i < |text| ==> AmountChar(text[i])) ==> r == text
  {
    if forall i :: 0 <= i < |text| ==> AmountChar(text[i]) then
      FilterAll(text, AmountChar);
      Filter(text, AmountChar)
    else Filter(text, AmountChar)
  }

  /** Filtering an already filtered input changes nothing. */
  lemma FilterAmountIdempotent(text: string)
    ensures FilterAmount(FilterAmount(text)) == FilterAmount(text)
  {
  }

  /** `calculateFee` on a real amount. */
  function PageFee(amount: real): (fee: real)
    ensures fee == amount / 10.0
  {
    var a := amount * (10.0 / 100.0);
    var b := amount * 0.1;
    if a <= b then a else b
  }

  /** `calculateNetAmount`. */
  function PageNet(amount: real): (net: real)
    ensures net + PageFee(amount) == amount
  {
    amount - PageFee(amount)
  }

  /** The page previews the fee and net amount the route stores. */
  lemma PreviewMatchesRoute(amount: int)
    ensures PageFee(amount as real) == Withdraw.Fee(amount)
    ensures PageNet(amount as real) == Withdraw.NetAmount(amount)
  {
  }

  /** `handleWithdraw`'s checks, first failure wins: a valid amount, the two
      bounds, a loaded user, the balance, and only then the password. */
  function ClientCheck(text: string, value: Option<real>, balance: Option<int>, password: string): (r: Option<Reason>)
    ensures r.None? <==>
              text != "" && value.Some? && Withdraw.MinWithdrawal as real <= value.value <= Withdraw.MaxWithdrawal as real
              && balance.Some? && value.value <= balance.value as real && password != ""
    ensures r == Some(InvalidAmount) <==> text == "" || value.None? || value.value <= 0.0
    ensures text != "" && value.Some? && 0.0 < value.value < Withdraw.MinWithdrawal as real ==> r == Some(BelowMinimum)
    ensures text != "" && value.Some? && value.value > Withdraw.MaxWithdrawal as real ==> r == Some(AboveMaximum)
  {
    if text == "" || value.None? || value.value <= 0.0 then Some(InvalidAmount)
    else if value.value < Withdraw.MinWithdrawal as real then Some(BelowMinimum)
    else if value.value > Withdraw.MaxWithdrawal as real then Some(AboveMaximum)
    else if balance.None? then Some(UserNotFound)
    else if value.value > balance.value as real then Some(InsufficientBalance)
    else if password == "" then Some(PasswordRequired)
    else None
  }

  /** The posted body: the amount, the password, and null account fields. */
  function Body(amount: int, password: string): (q: Withdraw.WithdrawRequest)
    ensures q.amount == Some(amount) && q.password == Some(password)
    ensures q.accountNumber.None? && q.accountName.None?
  {
    Withdraw.WithdrawRequest(Some(amount), Some(password), None, None)
  }

  /** The page and the route order their checks differently: with no password
      and too little money, the page reports the balance and the route the
      password. */
  lemma CheckOrderDiffers(s: Store, u: Id, text: string, amount: int, newId: Id)
    requires newId !in s.withdrawals && u in s.users && text != ""
    requires Withdraw.MinWithdrawal <= amount <= Withdraw.MaxWithdrawal
    requires Num(s.users[u].balance) < amount
    ensures ClientCheck(text, Some(amount as real), Some(Num(s.users[u].balance)), "") == Some(InsufficientBalance)
    ensures Withdraw.RequestWithdrawal(s, Some(u), Body(amount, ""), newId, Withdraw.WithdrawFaults(false, false)).reply
            == Fail(400, PasswordRequired)
  {
  }

  /** A whole amount the page lets through passes the route's checks on the
      body: the bounds are the same on both sides. */
  lemma PageBoundsMatchRoute(text: string, amount: int, balance: int, password: string)
    requires ClientCheck(text, Some(amount as real), Some(balance), password).None?
    ensures Withdraw.RequestCheck(Body(amount, password)).None?
  {
  }

  /** Because the page sends null account fields, an accepted request records
      the account saved on the profile (or null when none is saved). */
  lemma PageBodyUsesProfileAccount(s: Store, u: Id, amount: int, password: string, newId: Id)
    requires newId !in s.withdrawals
    requires Withdraw.RequestWithdrawal(s, Some(u), Body(amount, password), newId,
                                        Withdraw.WithdrawFaults(false, false)).reply.Ok?
    ensures var s' := Withdraw.RequestWithdrawal(s, Some(u), Body(amount, password), newId,
                                                 Withdraw.WithdrawFaults(false, false)).store;
            && s'.withdrawals[newId].accountNumber == NullIfEmpty(s.users[u].accountPhone)
            && s'.withdrawals[newId].accountName == NullIfEmpty(s.users[u].accountName)
  {
  }
}
